=== FILE: README.md ===
# A verified model of the `wnf` crate

`wnf` is a safe Rust binding of the Windows Notification Facility (WNF). A WNF *state* has a
64-bit state name. It holds data of at most the maximum size it was created with (0x1000 bytes
unless another is given) and a 32-bit *change stamp*, and every write advances the stamp by one. Processes query, update and subscribe to states through
`NtQueryWnfStateData`, `NtUpdateWnfStateData`, `RtlSubscribeWnfStateChangeNotification` and
their siblings in `ntdll`.

This project models the logic the crate puts around those calls and proves what the crate
promises about it:

- state names and their descriptors;
- reading bytes as checked bit patterns (`CheckedBitPattern`), and the growing-buffer loops that
  read data of unknown size;
- queries, conditional updates, and the `apply` / `replace` retry loops;
- subscriptions and their listener contexts;
- wait predicates;
- the state-creation builder and the owned, borrowed and raw state handles;
- two pieces of the development utilities: building an elevated process's command line
  (`make_params`) and the argument protocol of the system runner.

The source files come from two stages of the crate, and both are modelled, each file in its own
module. In the older stage, `raw_state.rs` holds the raw handle `RawWnfState` together with its
queries, updates, `apply` loops and subscriptions, and `subscription.rs` holds
`WnfSubscriptionHandle`. In the newer stage, `state.rs` holds the handles (`OwnedWnfState`,
`BorrowedWnfState`, `RawWnfState`). The operations on them are in `query.rs`, `update.rs`,
`subscribe.rs` (`WnfSubscription`) and `read.rs`. `apply.rs` and `replace.rs` already name the
handles `OwnedState`, `BorrowedState` and `RawState`. Both `data.rs` and `change_stamp.rs`
define `WnfChangeStamp` and `WnfStampedData`; `query.rs`, `update.rs` and `subscribe.rs`
import them from `data.rs`.

Modelling choices:

- **The kernel is a class.** A state as the kernel keeps it is the class `Kernel.Store`
  (live or deleted, data bytes, stamp). A query or update against it changes it in place. A
  write advances the stamp modulo 2^32. A conditional write with the wrong expected stamp is
  refused with `STATUS_UNSUCCESSFUL`. A query with a buffer that is too small reports the full
  size with `STATUS_BUFFER_TOO_SMALL`. A state keeps the type id it was created with
  (`Kernel.Store.typeId`). A query or write that passes another, non-null type id is refused
  with an error status `refusal`, and the state is left as it was. A state keeps the maximum
  size it was created with (`Kernel.Store.maxSize`); a write of more bytes is refused with an
  error status `tooLarge`, and the state is left as it was.
- **Writers between calls.** The writes of other processes between two kernel calls of one
  operation are a parameter: a sequence of states seen call by call, or a sequence of
  interfering writes.
- **Reader closures are scripts.** A reader closure
  (`FnMut(*mut c_void, usize) -> io::Result<(usize, Meta)>`) is its script of replies. Each call
  is answered by the next reply, and the last reply repeats. A reply reports the full size and
  copies what fits.
- **Element types.** An element type is its `Checked` kind: any bit pattern of a width, `bool`,
  `char`, or a bytemuck type with its own validity predicate. Bytes are `bv8`, and multi-byte
  patterns are little-endian.
- **`Vec::reserve`.** Its capacity rule is written out in `VecCapacity`: at least double, at
  least what was asked for, and at least the minimum non-zero capacity. The loops that grow a
  vector depend on this rule.

## Model

| member | source | states |
|---|---|---|
| Bytes.LittleEndian | src/read.rs:71-96 | the value of a byte pattern is below 256^n for n bytes |
| Bytes.CharFromU32 | src/bytes.rs:88-95 | a `u32` converts to a `char` only with that code |
| Bytes.AnyBitPatternAlwaysValid | src/bytes.rs:75-85 | every pattern of an `AnyBitPattern` type is valid |
| Bytes.BoolValidity | src/bytes.rs:98-105 | a `bool` is one byte, and exactly 0 and 1 are valid |
| Bytes.CharValidity | src/bytes.rs:88-95 | four bytes are a valid `char` iff their little-endian value is the code of some character |
| Bytes.CharRoundTrip | src/bytes.rs:88-95 | `char::from_u32` inverts taking a character's code |
| Bytes.BytemuckDelegates | src/bytes.rs:210-228 | a type deriving through bytemuck is valid exactly when bytemuck's predicate says so |
| Bytes.Below128 | tests/bytes.rs:19-37 | the test type is one byte wide |
| Bytes.Below128Boundary | tests/bytes.rs:35-36 | the test type accepts 127 and rejects 128 |
| Bytes.Chunks | src/read.rs:284-296 | a buffer splits into elements of exactly the element size |
| Bytes.ChunksLength | src/read.rs:284-296 | a buffer of `size` bytes holds `size / k` elements |
| Bytes.FlattenChunks | src/read.rs:284-296 | the elements, concatenated, are the buffer again |
| VecCapacity.MinNonZeroCap | src/read.rs:358 | the smallest capacity a growing vector allocates is at least 1 |
| VecCapacity.Reserve | src/read.rs:358 | after `reserve(additional)` there is room for `len + additional`; capacity never shrinks; it stays unchanged iff the room was already there |
| VecCapacity.ReserveDoubles | src/read.rs:358 | a reserve that allocates at least doubles the capacity and reaches the minimum non-zero capacity |
| Replies.ReplyAt | src/read.rs:921-946 | every call of a scripted reader is answered by a reply of its script |
| Replies.Copied | src/read.rs:905-919 | a reader copies at most the offered capacity, a prefix of the data, and all of it when it fits |
| Replies.MaxSize | src/read.rs:921-946 | no reply of a script reports more than its maximum size |
| Read.OpaqueFromBufferIgnoresData | src/read.rs:51-54 | opaque data is read from any buffer, whatever it holds |
| Read.OpaqueFromReader | src/read.rs:56-64 | opaque data calls the reader once with a zero-size buffer; the result is the reader's metadata, or its error |
| Read.ValueFromBufferChecks | src/read.rs:71-96 | a value is read iff the size is exactly the type's and the bits are valid; otherwise `WrongSize` with both sizes, or `InvalidBitPattern` |
| Read.ValueFromReader | src/read.rs:98-131 | one call offering exactly the type's size; the reader's error passes through; otherwise the buffer rules apply to the reply, with its metadata |
| Read.CheckSliceChecks | src/read.rs:373-388 | a slice is accepted iff every element is valid, and then unchanged |
| Read.SliceFromBufferChecks | src/read.rs:254-312 | zero-sized elements need an empty buffer; otherwise the size must be a multiple of the element size; the result is `size / k` valid elements whose concatenation is the buffer |
| Read.SliceLoop | src/read.rs:322-359 | the first call of the growing loop offers the current capacity |
| Read.SliceFromReader | src/read.rs:314-391 | the in-place loop on a growing vector computes the loop's specification |
| Read.SliceLoopStable | src/read.rs:314-391 | with a reader whose data does not change, the loop gives the buffer reading of that data with its metadata |
| Read.SliceLoopReturnsLastReply | src/read.rs:322-359 | a successful loop returns the elements and metadata of the reply to its last call |
| Read.SliceLoopCallsGrow | src/read.rs:350-359 | each call after the first offers more room than the one before, and the reply before it reported more data than was offered, so the loop ends |
| Read.GrowingReader | src/read.rs:773-787 | a reader reporting 2, then 10 bytes of 2-byte elements is read in three calls and gives the five elements of the second reply |
| Buffer.KnownSize | src/buffer.rs:34-60 | a buffer source knows its size and a closure source does not |
| Buffer.ReadBits | src/buffer.rs:138-156 | a known size other than the requested one is `WrongSize` without a call; otherwise one call; a closure reporting another size is `WrongSize` |
| Buffer.ValueFromSource | src/buffer.rs:88-108 | a value is read iff the bits were read and are valid; otherwise the read error or `Invalid` |
| Buffer.SliceLoopAsWritten | src/buffer.rs:187-210 | the loop as written, with `reserve(len - capacity)`: its first call offers the current capacity |
| Buffer.SliceLoop | src/buffer.rs:187-210 | the loop with `reserve(len)`: its first call offers the current capacity (corrected reservation, see ## Findings) |
| Buffer.SliceFromFnSource | src/buffer.rs:187-213 | the in-place loop on a growing vector computes the loop's specification (corrected reservation, see ## Findings) |
| Buffer.SliceFromSource | src/buffer.rs:158-224 | a slice is read iff its bytes were read and every element is valid; otherwise the read error or `Invalid` (corrected reservation, see ## Findings) |
| Buffer.AsWrittenStuckAtFour | src/buffer.rs:205 | once at capacity 4 with a reply of 5 elements, `reserve(1)` never grows the vector, whatever the fuel |
| Buffer.AsWrittenNeverEnds | src/buffer.rs:187-210 | the loop as written never ends on the closure reporting 2, then 10 bytes |
| Buffer.CorrectedEnds | src/buffer.rs:187-210 | the corrected loop reads the same closure in three calls and returns the five elements |
| Buffer.SliceLoopCallsGrow | src/buffer.rs:187-210 | each call after the first offers strictly more room, so the loop ends (corrected reservation, see ## Findings) |
| Buffer.SliceLoopReturnsLastReply | src/buffer.rs:187-213 | a successful loop returns exactly the bytes of the reply to its last call (corrected reservation, see ## Findings) |
| Buffer.SliceFromBufferSource | src/buffer.rs:176-182 | a buffer source gives the elements of its bytes if the size is a whole number of elements |
| Buffer.SliceLoopStable | src/buffer.rs:187-210 | with a closure whose data does not change, the loop reads that data in whole elements (corrected reservation, see ## Findings) |
| Buffer.SourcesAgree | src/buffer.rs:138-156 | a closure and a buffer holding the same bytes give the same value and the same slice |
| Kernel.NextStamp | src/ntapi.rs:121-130 | a write always changes the stamp, and adds one unless it wraps around |
| Kernel.QueryAt | src/ntapi.rs:55-62 | a deleted state answers `STATUS_OBJECT_NAME_NOT_FOUND`; a live one reports its size and stamp, succeeds iff the buffer is large enough and then copies the data, else `STATUS_BUFFER_TOO_SMALL` |
| Kernel.UpdateAt | src/ntapi.rs:121-130 | a deleted state is not found; a checked write with another stamp is refused with `STATUS_UNSUCCESSFUL`; any other write replaces the data and advances the stamp |
| Kernel.WritesWithin | tests/manage.rs:68-78 | a live state refuses data longer than its maximum size with `tooLarge` and no change; data within it is written as by `UpdateAt`; so a state never holds more than its maximum, and a write that succeeds was within it |
| Kernel.TypedCalls | src/update.rs:103-115 | the kernel accepts a null type id and the state's own; for an accepted type id (or a deleted state) a typed query answers as the untyped one and a typed write as the size-checked one; a live state refuses any other type id with the refusal status, no bytes and no change |
| Kernel.Store.constructor | src/ntapi.rs:43-51 | a new untyped state is live, empty, stamp 0, with the default maximum size 0x1000 |
| Kernel.Store.Typed | src/ntapi.rs:43-51 | a new state is live, empty, stamp 0, and keeps the type id and the maximum size it was created with |
| Kernel.Store.QueryWithType | src/query.rs:200-212 | a query passing a type id answers as `QueryTyped` against the state's own type id and changes nothing |
| Kernel.Store.UpdateWithType | src/update.rs:103-115 | a write passing a type id changes the state as `UpdateTyped` says against the state's own type id and maximum size |
| Kernel.Store.Query | src/ntapi.rs:55-62 | a query answers as `QueryAt` and changes nothing |
| Kernel.Store.Update | src/ntapi.rs:121-130 | an update changes the state as `UpdateWithin` says: refused with `tooLarge` above the maximum size, otherwise as `UpdateAt` |
| Kernel.Store.Delete | src/ntapi.rs:53 | deleting a live state succeeds and marks it deleted; a deleted state is not found |
| Kernel.StampCountsWrites | src/ntapi.rs:121-130 | n writes advance the stamp by n, and the data is the last write |
| Kernel.WriteAll | src/ntapi.rs:121-130 | writes never bring a deleted state back |
| StateName.LifetimeValue | src/state_name.rs:23-30 | a lifetime is a two-bit value |
| StateName.ScopeValue | src/state_name.rs:74-82 | a data scope is a value up to 5 |
| StateName.LifetimeFromValue | src/state_name.rs:185-206 | every two-bit value names the lifetime with that value |
| StateName.ScopeFromValue | src/state_name.rs:185-206 | a value names a scope iff it is at most 5, and then the scope with that value |
| StateName.PermanentBit | src/state_name.rs:160-183 | the permanent flag is one bit |
| StateName.Encode | src/state_name.rs:160-183 | encoding fails iff the version needs more than 4 bits (`InvalidVersion`) or the unique id more than 21 (`InvalidUniqueId`, checked second); otherwise the opaque value XOR the key is the packed descriptor |
| StateName.Unpack | src/state_name.rs:185-206 | unpacking fails iff the scope field is above 5 and reports that field; the fields read fit their widths |
| StateName.XorInvolution | src/state_name.rs:15 | XOR with the key is its own inverse |
| StateName.PackedFields | src/state_name.rs:160-206 | fields that fit their widths are recovered by the shifts and masks of decoding |
| StateName.FieldsCoverAllBits | src/state_name.rs:185-206 | the six fields cover all 64 bits |
| StateName.PackingIsDisjointOr | src/state_name.rs:160-183 | the `+` chain never carries and equals bitwise OR |
| StateName.LifetimeValueInjective | src/state_name.rs:23-30 | distinct lifetimes have distinct values |
| StateName.ScopeValueInjective | src/state_name.rs:74-82 | distinct scopes have distinct values |
| StateName.PermanentBitOf | src/state_name.rs:185-206 | testing bit 10 and re-encoding it gives the bit back |
| StateName.UnpackFields | src/state_name.rs:185-206 | unpacking reads each field from its own bit range |
| StateName.UnpackPack | src/state_name.rs:160-206 | unpacking a packed encodable descriptor gives it back |
| StateName.DecodeEncode | src/state_name.rs:160-206 | every encodable descriptor survives encode then decode |
| StateName.PackUnpack | src/state_name.rs:160-206 | packing an unpacked value gives the value back |
| StateName.EncodeTransparent | src/state_name.rs:160-183 | an encodable descriptor encodes to its packed value XOR the key |
| StateName.EncodeUnpack | src/state_name.rs:160-206 | re-encoding an unpacked value gives the value XOR the key |
| StateName.EncodeDecode | src/state_name.rs:160-206 | every decodable state name is re-encoded to itself |
| StateName.DecodeOutcome | src/state_name.rs:185-206 | decoding fails only on a scope field above 5, and reports that field |
| StateName.OpaqueRoundTrip | src/state_name.rs:142-158 | `from_opaque_value` and `opaque_value` are inverse |
| StateName.SampleStateName | src/state_name.rs:245-290 | the crate's test state name decodes to its descriptor and back; scope 6, version 16 and unique id 2^21 are refused with those values |
| RawStates.EqualityByName | src/raw_state.rs:41-56 | equality is sameness of the state name, and equal states hash alike (and only they) |
| RawStates.CastRoundTrip | src/raw_state.rs:78-80 | a cast keeps the state name, and casting there and back gives the state it started from |
| RawStates.CreateTemporaryParams | src/raw_state.rs:82-91 | a temporary state is created temporary, machine-scoped, unpersisted, of at most 0x1000 bytes |
| RawStates.InfoResult | src/raw_state.rs:161-201 | an information query fails iff the kernel does, with its status; the answer is `true` iff the buffer holds 1 |
| RawStates.QueryInternal | src/raw_state.rs:315-352 | a failure other than a too-small buffer that did not fit is an error with the status; anything else reports the size and stamp |
| RawStates.QueryInternalOnStore | src/raw_state.rs:315-352 | on a live state the query reports its size and stamp and copies the data when it fits; a deleted state is not found |
| RawStates.Query | src/raw_state.rs:220-239 | a deleted state is not found; a size other than the type's is `WrongSize`; otherwise the bits and stamp iff the bits are valid, else `InvalidBitPattern` |
| RawStates.Get | src/raw_state.rs:208-214 | `get` succeeds iff `query` does, with its data, or fails with its error |
| RawStates.SnapshotAt | src/raw_state.rs:272-299 | each call of the loop sees one of the states the writers leave |
| RawStates.MaxData | src/raw_state.rs:272-299 | no state seen holds more data than the bound |
| RawStates.CheckedSlice | src/raw_state.rs:302-310 | the settled slice is accepted iff all elements are valid, with the stamp of the last call |
| RawStates.SliceStep | src/raw_state.rs:272-298 | a round grows only for a whole number of elements more than the capacity holds |
| RawStates.SliceLoop | src/raw_state.rs:272-299 | the corrected loop's first call offers the current capacity in bytes (corrected reservation, see ## Findings) |
| RawStates.QuerySlice | src/raw_state.rs:269-312 | the in-place loop on a growing vector computes the loop's specification (corrected reservation, see ## Findings) |
| RawStates.SliceLoopDone | src/raw_state.rs:272-299 | a round that settles is the last call of the loop (corrected reservation, see ## Findings) |
| RawStates.SliceLoopGrow | src/raw_state.rs:272-299 | a round that grows continues the loop with the reserved capacity (corrected reservation, see ## Findings) |
| RawStates.GetSlice | src/raw_state.rs:216-218 | `get_slice` succeeds iff `query_slice` does, with its elements, or fails with its error |
| RawStates.SliceOf | src/raw_state.rs:269-312 | a slice read from one state is valid elements whose concatenation is its data |
| RawStates.SliceLoopStable | src/raw_state.rs:269-312 | when no one writes, the loop takes at most two calls and gives the slice of the state (corrected reservation, see ## Findings) |
| RawStates.AsWrittenStuckAtFour | src/raw_state.rs:296 | once at capacity 4 with 5 elements in the state, `reserve(1)` never grows the vector |
| RawStates.AsWrittenNeverEnds | src/raw_state.rs:272-299 | the loop as written never ends when the data grows from one to five 2-byte elements between the first two calls |
| RawStates.CorrectedEnds | src/raw_state.rs:272-299 | with `reserve(len)` the same run ends after three calls with the five elements |
| RawStates.UpdateArgsFor | src/raw_state.rs:395-399 | the kernel gets the byte size, the expected stamp (0 when none), and check flag 1 iff a stamp is expected |
| RawStates.UpdateResult | src/raw_state.rs:381-393 | `STATUS_UNSUCCESSFUL` is `false`, success `true`, any other failure an error with its status |
| RawStates.UpdateSlice | src/raw_state.rs:374-393 | a conditional write changes the store as the kernel says, size check included, and reports whether it happened |
| RawStates.SetSlice | src/raw_state.rs:360-372 | an unconditional write changes the store as the kernel says, size check included; any failure is an error |
| RawStates.UpdateOnStore | src/raw_state.rs:374-393 | the conditional write happens iff the state is live, the data fits its maximum size and the stamp matches; a stale stamp leaves the state unchanged and gives `false`; data that does not fit gives the error `tooLarge` and no change; a deleted state is an error |
| RawStates.TryApply | src/raw_state.rs:488-504 | the retry loop run against the store with other writers in between computes its specification |
| RawStates.Apply | src/raw_state.rs:434-450 | `apply` is `try_apply` with an infallible transform, and never fails with a transform error |
| RawStates.TryApplyNeverTransformFailed | src/raw_state.rs:434-450 | a transform that cannot fail never produces a transform error |
| RawStates.TryApplyWritesTransformOfLatest | src/raw_state.rs:488-504 | a write that succeeds writes the transform of the data it read, the writes of others came before it, and what it wrote fits the maximum size |
| RawStates.TryApplyAlone | src/raw_state.rs:488-504 | without other writers, one round: the transform of the current data is written when it fits, the update error `tooLarge` with no change when it does not, or nothing when the transform gives `None` |
| RawStates.TryApplySlice | src/raw_state.rs:524-540 | the retry loop over `query_slice` and `update_slice`, run against the store with other writers in between, computes its specification |
| RawStates.ApplySlice | src/raw_state.rs:470-486 | `apply_slice` is `try_apply_slice` with an infallible transform, and never fails with a transform error |
| RawStates.TryApplySliceNeverTransformFailed | src/raw_state.rs:470-486 | a slice transform that cannot fail never produces a transform error |
| RawStates.TryApplySliceWritesTransformOfLatest | src/raw_state.rs:524-540 | a write that succeeds writes the bytes of the transform of the slice read after all other writes, one stamp later, and they fit the maximum size |
| RawStates.TryApplySliceAlone | src/raw_state.rs:524-540 | without other writers, one round: a query or transform error, nothing written on `None`, the transformed elements written one stamp later when they fit, or the update error `tooLarge` when they do not |
| RawStates.ValueFromByteBuffer | src/raw_state.rs:677-726 | a callback buffer gives a value iff it has the type's size and valid bits |
| RawStates.SliceFromByteBuffer | src/raw_state.rs:728-757 | a callback buffer gives a slice iff it is a whole number of valid elements (empty for zero-sized ones), whose concatenation is the buffer |
| RawStates.CallFor | src/raw_state.rs:612-619 | the listener gets `call_valid` with the data iff the buffer decoded, and always the stamp |
| RawStates.Callback | src/raw_state.rs:589-623 | the callback decodes the delivered buffer with the type's buffer reader, returns success, and calls the listener with that result and the stamp iff the context still holds it and is not poisoned |
| RawStates.Subscribe | src/raw_state.rs:580-657 | a refused subscription is an error with the status; otherwise a fresh handle holds a fresh context with the listener |
| Data.Default | src/data.rs:21-22 | the default stamp is 0 |
| Data.ChangeStampRoundTrip | src/data.rs:30-40 | the conversions to and from `u32` are inverse, so distinct stamps stay distinct |
| Data.FromDataChangeStamp | src/data.rs:49-54 | stamped data gives back the data and stamp it was built from |
| Data.StampedDataRoundTrip | src/data.rs:48-71 | taking stamped data apart and putting it back gives what it was; each accessor returns its field |
| Data.FromSizeChangeStamp | src/data.rs:8-18 | the state information holds the given size and stamp |
| ChangeStamps.Default | src/change_stamp.rs:1-2 | the default stamp is 0 |
| ChangeStamps.ConversionsInverse | src/change_stamp.rs:10-20 | the conversions to and from `u32` are inverse |
| ChangeStamps.FromDataAndChangeStamp | src/change_stamp.rs:29-34 | stamped data holds the data and the stamp it was built from |
| ChangeStamps.StampedDataEquality | src/change_stamp.rs:22-34 | stamped data are equal iff their data and stamps are |
| Query.ReaderFilter | src/query.rs:218-239 | the reader fails iff the kernel failed other than with a too-small buffer that did not fit, with that status; otherwise it reports size and stamp |
| Query.Reader | src/query.rs:188-240 | one call of the reader on the store passes the handle's type id: a live state of another type id gives the refusal as error and no bytes; otherwise the reader answers by the filter of the kernel's reply and copies the kernel's bytes |
| Query.ReaderAnswersLikeReply | src/query.rs:188-240 | the reader on a state answers exactly as the scripted reply standing for that state |
| Query.Script | src/query.rs:188-240 | the script has one reply per state seen, in order |
| Query.IntoStamped | src/query.rs:249-251 | reader errors pass unchanged; data and stamp become stamped data |
| Query.QueryAsValueOnState | src/query.rs:184-251 | on a live state the value query is the buffer reading of its data with its stamp; a deleted state is not found |
| Query.QueryAsSliceOnState | src/query.rs:184-251 | on an unchanging state the slice query is the buffer reading of its data with its stamp; a deleted state is not found |
| Query.Get | src/query.rs:146-148 | `get` succeeds iff `query` does, with its data, or fails with its error |
| Query.ChangeStampOf | src/query.rs:176-178 | the stamp query makes one zero-size call and gives the state's stamp, or not found |
| Updates.UpdateArgsFor | src/update.rs:90-93 | the kernel gets the byte size, the expected stamp or the default, and check flag 1 iff a stamp is expected |
| Updates.UpdateInternal | src/update.rs:90-127 | one kernel call with those arguments and the handle's type id; the store changes as the kernel says, refusing a type id other than the state's and data longer than its maximum size |
| Updates.UpdateOutcome | src/update.rs:79-88 | `STATUS_UNSUCCESSFUL` is `false`, success `true`, any other failure an error with its status |
| Updates.Set | src/update.rs:69-72 | a live state whose type id the handle's matches gets the data and the next stamp when it fits the maximum size, and otherwise `tooLarge` and no change; another type id gives the refusal and no change; a deleted state gives not found and is unchanged |
| Updates.Update | src/update.rs:79-88 | a conditional write with the handle's type id changes the store as the kernel says and reports whether it happened |
| Updates.UpdateOnState | src/update.rs:79-88 | the write happens iff the state is live, the type id is accepted, the data fits and the stamp matches; a live state of the accepted type with data that fits and another stamp gives `false`; data that does not fit gives `tooLarge`; another type id gives the refusal; a deleted state gives not found; in every case but the write the state is unchanged |
| Updates.ConditionalUpdates | tests/update.rs:26-44 | writes with stamps 0 and 1 succeed, the stale stamps then fail, and the state keeps the second data at stamp 2 |
| Apply.QueryOn | src/apply.rs:165-166 | a deleted state is not found; otherwise the decoded data with the stamp, or the decoding error |
| Apply.TryApplyAs | src/apply.rs:158-174 | the retry loop run against the store with other writers in between computes its specification |
| Apply.ApplyAs | src/apply.rs:149-156 | `apply_as` is `try_apply_as` with an infallible transform, and never fails with an `Other` error |
| Apply.NeverOther | src/apply.rs:149-156 | a transform that cannot fail never produces an `Other` error |
| Apply.TryApplyWritesLatest | src/apply.rs:158-174 | a successful run writes and returns the transform of the data read in its last round, after the writes of others, and it fits the maximum size |
| Apply.TryApplyAlone | src/apply.rs:158-174 | without other writers one round: the transform of the current data is written and returned when it fits; otherwise the update error `tooLarge` and no change |
| Replace.ReplaceAs | src/replace.rs:67-77 | `replace_as` run on the store computes its specification |
| Replace.ReplaceReturnsLatest | src/replace.rs:67-77 | a successful replace returns the value read in the round that wrote, leaves the new value, and the new value fits the maximum size |
| Replace.ReplaceErrors | src/replace.rs:67-77 | errors of `apply_as` pass through, the constant transform adds none of its own, and a value longer than the maximum size always fails, with `tooLarge` once the state reads |
| Replace.ReplaceAll | tests/replace.rs:6-16 | a sequence of replaces returns one result per value |
| Replace.ReplaceSequence | tests/replace.rs:6-16 | each replace returns the value written before it, and the state ends with the last value |
| Predicates.CheckByKind | src/predicate.rs:14-31 | a closure ignores the stage; `ChangedPredicate` ignores the data and holds exactly at `Changed` |
| Predicates.FirstChanged | src/predicate.rs:27-31 | the first update at which the check holds, with none before it, or none at all |
| Predicates.CompletesAtFirst | src/wait_async.rs:262-288 | the asynchronous wait completes on the initial data if the check at `Initial` holds there, else at the first update where the check at `Changed` does |
| Predicates.ChangedWaitsForUpdate | src/predicate.rs:27-31 | a wait that checks only delivered updates at `Changed` (`wait_async`), built on `ChangedPredicate`, completes at the first update and never before |
| Predicates.WaitBlockingReturnsAtOnce | src/wait_blocking.rs:83-86 | as written, `wait_blocking` completes on the data queried first, where the asynchronous wait waits for the first update |
| Predicates.BlockingAgreesForClosures | src/wait_blocking.rs:117-152 | for a closure predicate the blocking wait as written completes where the asynchronous wait does |
| Predicates.ClosureMayCompleteAtOnce | src/predicate.rs:14-22 | a closure completes without an update iff it holds on the initial data |
| Subscriptions.Context.constructor | src/subscription.rs:83-85 | a new context holds the listener |
| Subscriptions.Context.Reset | src/subscription.rs:87-94 | `reset` empties the slot, poisoned or not, and nothing else |
| Subscriptions.Context.WithListener | src/subscription.rs:96-103 | the listener is called iff it is present and the lock not poisoned; a panic poisons the lock |
| Subscriptions.Handle.constructor | src/subscription.rs:36-43 | a new handle is live with its context and subscription |
| Subscriptions.Handle.TryUnsubscribe | src/subscription.rs:118-140 | without an inner nothing happens; otherwise the kernel is called once; success drops the context; failure puts the inner back with its listener intact and returns the error |
| Subscriptions.Handle.Drop | src/subscription.rs:142-153 | dropping unsubscribes when live and ignores the error; the inner is gone |
| Subscriptions.Handle.Forget | src/subscription.rs:109-112 | `forget` unsubscribes nothing and keeps the subscription |
| Subscriptions.DropAfterFailedUnsubscribe | src/subscription.rs:114-153 | after a failed unsubscribe the listener is still called; only after `Drop`, which tries the kernel once more and then resets the context, is it no longer called |
| Subscriptions.UnsubscribeTwice | src/subscription.rs:114-140 | a second unsubscribe finds no inner and does not call the kernel |
| Subscribing.DefaultSeen | src/subscribe.rs:24-34 | the default last-seen stamp is `None` |
| Subscribing.AfterStamp | src/subscribe.rs:227-231 | `None` passes the initial stamp 0; `Value(v)` passes `v`; `Current` passes the state's stamp, or fails when the state is gone |
| Subscribing.AccessorOf | src/subscribe.rs:392-401 | an accessor reads the scoped data it was made from |
| Subscribing.CastPreserves | src/subscribe.rs:403-435 | a cast keeps the buffer and stamp, and casting back gives the accessor it started from |
| Subscribing.QueryAsPairsWithStamp | src/subscribe.rs:516-541 | `query_as` is the value of `get_as` with the update's stamp; wrong size or invalid bits is the same error |
| Subscribing.Context.constructor | src/subscribe.rs:687-693 | a new context holds the listener |
| Subscribing.Context.Clear | src/subscribe.rs:695-705 | `clear` drops the listener, poisoned or not, and nothing else |
| Subscribing.Context.WithListener | src/subscribe.rs:707-714 | the listener is called iff it is present and the lock not poisoned; a panic poisons the lock |
| Subscribing.Callback | src/subscribe.rs:156-225 | the callback returns success and passes the listener an accessor of the buffer and stamp, if the context still holds it |
| Subscribing.Subscription.constructor | src/subscribe.rs:584-592 | a new subscription is live with its context and handle |
| Subscribing.Subscription.TryUnsubscribe | src/subscribe.rs:594-623 | the inner is taken; the kernel is called once if there was one; success drops the context, failure clears the listener and returns the error |
| Subscribing.Subscription.Unsubscribe | src/subscribe.rs:577-582 | the outcome of `try_unsubscribe`, consuming the subscription |
| Subscribing.Subscription.Drop | src/subscribe.rs:625-630 | dropping unsubscribes when live and ignores the error |
| Subscribing.Subscription.Forget | src/subscribe.rs:567-575 | `forget` unsubscribes nothing |
| Subscribing.Subscribe | src/subscribe.rs:148-282 | a failed stamp query is an error before registering; otherwise the kernel gets the chosen stamp; a refusal is an error with its status; success gives a fresh subscription with a fresh, empty context |
| Subscribing.FailedUnsubscribeSilencesListener | src/subscribe.rs:594-623 | after a failed unsubscribe a late callback no longer reaches the listener, and a second unsubscribe succeeds without the kernel |
| Subscribing.History | src/subscribe.rs:19-55 | a state written n times passes through n + 1 states, starting from the current one |
| Subscribing.Notified | src/subscribe.rs:19-55 | a listener hears only of updates with a stamp strictly larger than the one it has seen |
| Subscribing.FirstHeard | src/subscribe.rs:45-54 | the first stamp heard of is larger than the seen one and never before the current one |
| Subscribing.Range | src/subscribe.rs:45-54 | consecutive stamps from `lo` up to `hi` |
| Subscribing.Stamps | src/subscribe.rs:19-55 | the stamps of the notifications, in order |
| Subscribing.NotifiedStamps | src/subscribe.rs:45-54 | the listener hears of every stamp from the seen one plus 1 (no earlier than the current) to the last, once each and in order |
| Subscribing.SeenValueTwo | tests/subscribe.rs:216-245 | having seen stamp 2 of a state written three times, only stamp 3 is heard; having seen none, all three |
| Subscribing.AllNotified | src/subscribe.rs:26-34 | a listener behind the current stamp hears of the current data and then of every write, each with its stamp |
| Subscribing.CurrentSeesOnlyFuture | src/subscribe.rs:36-43 | `Current` hears of exactly the writes after subscribing, each with its data and stamp |
| TypeIds.NoType | src/type_id.rs:129-131 | no type id hands the kernel a null pointer |
| TypeIds.FromGuid | src/type_id.rs:134-136 | a type id from a GUID hands the kernel a pointer to that GUID |
| TypeIds.From | src/type_id.rs:150-154 | the conversion from a GUID is `from_guid` |
| TypeIds.Default | src/type_id.rs:124-131 | the default type id is none |
| TypeIds.AsPtrInjective | src/type_id.rs:142-147 | the pointer is null iff there is no GUID, and distinct type ids give distinct pointers |
| States.RawConstructionKeepsNameAndTypeId | src/state.rs:353-359 | the raw state holds the given name and type id |
| States.EqualityIgnoresTypeId | src/state.rs:388-413 | equality is sameness of the state name whatever the type ids; it is an equivalence; equal states hash alike |
| States.CastPreserves | src/state.rs:369-372 | a cast keeps name and type id, and casting back gives the state it started from |
| States.HandleEqualityByName | src/state.rs:76-100 | owned and borrowed states are equal iff they name the same state |
| States.BorrowedConstructionTypeId | src/state.rs:190-205 | a borrowed state keeps its name; from a name alone it has no type id, so a null pointer; from a name and a GUID it points the kernel to that GUID |
| States.Leak | src/state.rs:52-58 | leaking borrows the same raw state |
| States.ToOwned | src/state.rs:158-163 | taking ownership keeps the raw state |
| States.OwnedAsWnfState | src/state.rs:313-322 | an owned state is seen as a borrow of the same raw state |
| States.BorrowedAsWnfState | src/state.rs:324-333 | a borrowed state is seen as itself |
| States.ConversionsKeepState | src/state.rs:36-205 | leaking and taking ownership are inverse, owned and borrowed casts keep the name and the type id, casting back and forth is the identity, and every conversion keeps the state name |
| States.DropOwned | src/state.rs:111-118 | dropping an owned state deletes the state of the handle's own name, and changes no other state |
| States.OwnershipTests | tests/state.rs:3-33 | read through a handle of the same name: dropping deletes the state; leaking or casting does not; the leaked state, owned again and dropped, is deleted |
| Manage.LifetimeConversion | src/manage.rs:84-97 | a creatable lifetime is never `WellKnown` and keeps its kind; together with `persist_data` it is recovered; only `Permanent(true)` persists data |
| Manage.New | src/manage.rs:136-153 | a new builder has no maximum size and no type id |
| Manage.WithLifetime | src/manage.rs:156-165 | the setter sets the lifetime |
| Manage.WithScope | src/manage.rs:167-176 | the setter sets the scope |
| Manage.WithMaximumStateSize | src/manage.rs:178-183 | the setter sets the maximum size |
| Manage.WithSecurityDescriptor | src/manage.rs:185-197 | the setter sets the security descriptor |
| Manage.WithTypeId | src/manage.rs:199-204 | the setter sets the type id to the GUID |
| Manage.SettersTouchOneField | src/manage.rs:156-204 | each setter changes its own field and leaves every other field as it was |
| Manage.CreateRawArgs | src/manage.rs:225-237 | the kernel gets the lifetime and scope values, 1 iff data is persisted, the type id, and the maximum size (0x1000 when none) cast to `u32` |
| Manage.CreateOutcome | src/manage.rs:211-237 | for a raw, an owned and a static state alike: a failed security descriptor is that error; else the state exists iff the kernel succeeds, with the new name and the requested type id, or the status as error |
| Manage.TypeIdTest | tests/manage.rs:98-115 | a state created with a type id accepts `set` through its owned handle, and refuses it through a borrowed handle of the same name carrying another GUID |
| Manage.MaximumSizeTest | tests/manage.rs:68-78 | a state created with the maximum size 1 accepts `set(&[1])`, refuses `set(&[1, 2])` with the kernel's error, and keeps `[1]` |
| Manage.CreateTemporaryArgs | src/manage.rs:244-249 | a temporary state is temporary, machine-scoped, unpersisted, untyped, of 0x1000 bytes at most |
| AdminProcess.Backslashes | devutils/src/admin_process.rs:149-165 | `n` backslashes |
| AdminProcess.BackslashesAdd | devutils/src/admin_process.rs:149-165 | runs of backslashes add up |
| AdminProcess.JoinedStep | devutils/src/admin_process.rs:141-169 | the joined line grows by a space (after the first argument) and the next quoted argument |
| AdminProcess.EscapeStep | devutils/src/admin_process.rs:149-165 | one step of the escaping, on the next code unit |
| AdminProcess.PushQuoted | devutils/src/admin_process.rs:142-168 | an argument containing 0 is refused; otherwise its quoted form is appended |
| AdminProcess.MakeParams | devutils/src/admin_process.rs:134-173 | an error iff some argument contains 0; otherwise the quoted arguments joined by spaces, then 0 |
| AdminProcess.ParseQuotedFrom | devutils/src/admin_process.rs:149-165 | reading a quoted argument consumes input |
| AdminProcess.ParseQuoted | devutils/src/admin_process.rs:149-165 | reading a quoted argument consumes input |
| AdminProcess.ParseRun | devutils/src/admin_process.rs:149-165 | a run of backslashes only lengthens the run being read |
| AdminProcess.ParseEscaped | devutils/src/admin_process.rs:149-165 | reading an escaped argument and its closing quote gives the argument back and leaves the rest |
| AdminProcess.ParseEscapedEnd | devutils/src/admin_process.rs:160-165 | a trailing run written twice, then the quote, reads back as the run |
| AdminProcess.ParseEscapedBackslash | devutils/src/admin_process.rs:154-158 | a backslash of the argument lengthens the run |
| AdminProcess.ParseEscapedQuote | devutils/src/admin_process.rs:154-158 | a quote of the argument, after its run written twice plus one, reads back as the run and the quote |
| AdminProcess.EscapedQuoteShape | devutils/src/admin_process.rs:154-158 | the escaped form of a quote after a run is the run written twice, a backslash and the quote |
| AdminProcess.ParseEscapedOther | devutils/src/admin_process.rs:160-164 | any other code unit ends the run, which is read literally |
| AdminProcess.JoinedFront | devutils/src/admin_process.rs:141-169 | the joined line, taken apart from the front |
| AdminProcess.ParseJoined | devutils/src/admin_process.rs:141-169 | reading the joined line gives the arguments back |
| AdminProcess.EscapeAddsNoNul | devutils/src/admin_process.rs:150-152 | escaping adds only backslashes and quotes, so no 0 |
| AdminProcess.JoinedHasNoNul | devutils/src/admin_process.rs:150-152 | the joined line of 0-free arguments has no 0 |
| AdminProcess.MakeParamsRoundTrip | devutils/src/admin_process.rs:134-173 | the parameters have exactly one 0, at the end, and a command-line reader gets the arguments back |
| AdminProcess.SingleExamples | devutils/src/admin_process.rs:198-199 | the tests `empty` and `single`: no argument gives just the 0; one plain argument is put in quotes |
| AdminProcess.MultipleExample | devutils/src/admin_process.rs:200 | the test `multiple`: quoted arguments separated by single spaces, then the 0 |
| AdminProcess.NulExample | devutils/src/admin_process.rs:208-211 | the test `fail_on_argument_containing_null`: an argument holding a 0 code unit is refused |
| AdminProcess.QuoteEscapedExample | devutils/src/admin_process.rs:201 | the test `quote_escaped`: a quote inside an argument gets one backslash |
| AdminProcess.BackslashQuoteExample | devutils/src/admin_process.rs:203 | the test `backslash_quote_both_escaped`: a backslash before a quote is doubled and the quote escaped |
| AdminProcess.TwoBackslashesQuoteExample | devutils/src/admin_process.rs:204 | the test `two_backslashes_quote_all_escaped`: two backslashes before a quote become four, then the escaped quote |
| AdminProcess.BackslashExamples | devutils/src/admin_process.rs:202-205 | the tests `backslash_not_escaped` and `backslash_at_end_escaped`: a backslash not before a quote stays single; one at the end is doubled before the closing quote |
| SystemRunner.ToStr | devutils/src/system_runner.rs:122-135 | an argument is a string iff it is valid Unicode |
| SystemRunner.DigitChar | devutils/src/system_runner.rs:57-61 | a digit's character reads back as that digit |
| SystemRunner.DigitValue | devutils/src/system_runner.rs:48-50 | a digit character stands for a digit below 10 |
| SystemRunner.DecimalString | devutils/src/system_runner.rs:57-61 | a number's decimal text is non-empty and all digits |
| SystemRunner.DecimalRoundTrip | devutils/src/system_runner.rs:48-61 | reading back the digits of a number gives the number |
| SystemRunner.ParseU32Cases | devutils/src/system_runner.rs:48-50 | a number's own text parses back to it; the empty string, a lone `+` and text with a non-digit do not parse |
| SystemRunner.FromId | devutils/src/system_runner.rs:81-89 | `from_id` gives only a stage whose id is the text |
| SystemRunner.StageIdRoundTrip | devutils/src/system_runner.rs:72-89 | `from_id` reads back every id and nothing else; ids are single digits without a dot |
| SystemRunner.Position | devutils/src/system_runner.rs:72-79 | a stage's position is at most 3 and its id is that digit |
| SystemRunner.NextStageOrder | devutils/src/system_runner.rs:91-98 | only `Payload` has no next stage; each next stage is one position on; every stage reaches `Payload` and no further |
| SystemRunner.InitialState | devutils/src/system_runner.rs:108-113 | the initial state is at `Initial`, in the pipeline named after the process |
| SystemRunner.Next | devutils/src/system_runner.rs:115-120 | the next state keeps the pipeline and moves to the next stage, if any |
| SystemRunner.UpToDot | devutils/src/system_runner.rs:122-135 | the text before the first dot, which has no dot |
| SystemRunner.SplitDots | devutils/src/system_runner.rs:122-135 | splitting at dots gives at least one part |
| SystemRunner.StripPrefix | devutils/src/system_runner.rs:122-135 | a prefix is stripped iff the text starts with it, and the rest follows it |
| SystemRunner.UpToDotOf | devutils/src/system_runner.rs:122-135 | the text before the first dot of a dot-free head and a dot is the head |
| SystemRunner.SplitTwo | devutils/src/system_runner.rs:122-135 | two dot-free parts joined by a dot split back into them |
| SystemRunner.ArgRoundTrip | devutils/src/system_runner.rs:122-139 | `from_arg` reads back what `to_arg` writes |
| SystemRunner.FromArgRefuses | devutils/src/system_runner.rs:122-135 | non-Unicode text or text without the prefix is no state; an accepted argument has a dot after the prefix |
| SystemRunner.SplitAtFirstDot | devutils/src/system_runner.rs:52-54 | two dot-free heads joined to tails by a dot are equal only when heads and tails are |
| SystemRunner.PipeNamesDistinct | devutils/src/system_runner.rs:52-54 | pipe names are equal iff the pipelines and the keys are |
| SystemRunner.FromArgs | devutils/src/system_runner.rs:149-163 | a first argument holding a state is taken off and used; otherwise all arguments are kept and the state is initial |
| SystemRunner.RerunArgs | devutils/src/system_runner.rs:232-262 | a rerun passes one argument more, then the arguments unchanged |
| SystemRunner.RerunSeesNextStage | devutils/src/system_runner.rs:232-262 | the rerun process reads the next state and the same arguments |
| SystemRunner.PipelineKeepsArgs | devutils/src/system_runner.rs:149-262 | through the three reruns the arguments reach `Payload` unchanged, in the same pipeline |
| SystemRunner.SystemWait | devutils/src/system_runner.rs:278-286 | exit codes at least 0 and the internal error code pass; any other negative code is a PAExec error with that code |

## Left out

- Foreign calls: the `ntdll` and `ntapi` functions are not part of this model. The kernel is the
  class `Kernel.Store` with the behaviour described above. Raw pointers, `unsafe` and memory
  layout are represented by byte sequences.
- Threads, `Mutex` and `catch_unwind`: a panic in a listener is the flag `panics`, and poisoning
  is a boolean of the context. Callbacks on other threads while a call runs are not modelled.
- `wait_blocking`, `wait_async` and the futures built on subscriptions are left out: they need
  threads and wakers. Their predicates, and the order in which each wait checks them, are
  modelled in `Predicates`. `wait_blocking` checks the data queried first again at `Changed`
  and so returns it at once (src/wait_blocking.rs:129, 143-146); `Predicates.Completes` follows
  `wait_async`, and `Predicates.CompletesBlockingAsWritten` follows the blocking wait.
- The kernel's status for a refused type id is not stated by the crate: it is the parameter
  `refusal`, any error status. A null type id is taken to be accepted by every state, as the
  untyped handles and the older generation (which passes a null pointer, src/raw_state.rs:99,
  169, 409-410) rely on.
- Apply.TryApplyAs: the handle carries the state's own type id, so the kernel's type-id refusal
  does not arise in the modelled retry loop; a mismatched handle is modelled by `Updates.Set`,
  `Updates.Update` and `Query.Reader`.
- Query.QueryAsValue: it reads the states call by call through `Kernel.QueryAt`, the kernel's
  answer to an accepted type id; a refused type id is modelled by `Query.Reader` only.
- Query.QueryAsSlice: the same as `Query.QueryAsValue`.
- The kernel choosing state names: the opaque value of a created state is a parameter.
- The security descriptor (src/security.rs): building the default one is an outcome passed in.
- GUID text and `u128` conversions, `Display`, `Debug` and tracing output: not modelled.
- `WnfStateInfo` queries (`exists`, `subscribers_present`, `is_quiescent`) are modelled only in
  how they map the kernel's answer (`RawStates.InfoResult`). The buffer of 0 or 1 is a
  precondition, because the source treats any other value as unreachable.
- The writes of other processes are a parameter: the states each kernel call of a loop sees, or
  one interfering write per retry round. An arbitrary interleaving with several writes per
  round is not modelled.
- Predicate: `FnMut` closure state is left out. A closure is a pure function of the data.
- `WnfChangeStamp::initial()` is not among the core files. It is taken to be the stamp 0, the
  default.
- The `Box<T>` readers (src/read.rs:134-248) and the `_boxed` variants read the same bytes as
  the value readers. They are modelled by the same members.
- `query_slice` (src/raw_state.rs:269-312) and the closure reader of src/buffer.rs:187-213:
  the operational models (`RawStates.SliceLoop`, `RawStates.QuerySlice`, `Buffer.SliceLoop`,
  `Buffer.SliceFromFnSource` and what is built on them) use the corrected reservation
  `reserve(len)`. Only `RawStates.SliceLoopAsWritten` and `Buffer.SliceLoopAsWritten` follow
  the source's `reserve(len - capacity)` (see ## Findings).
- `query_slice` divides the size by `Layout::pad_to_align().size()`. For the element types here
  that is the element size itself.
- RawStates.UpdateArgsFor: the `as u32` cast of the caller's byte size is not modelled. It
  differs only for data of 4 GiB or more, which no state accepts (a state's maximum is at most
  0x1000 bytes), but such a write would reach the kernel with the truncated size.
- Updates.UpdateArgsFor: the same as `RawStates.UpdateArgsFor` (src/update.rs:91).
- Query.Reader: the `as u32` cast of the offered size is not modelled. The offered sizes grow
  from sizes the kernel reported, far below 2^32.
- The kernel's status for data longer than a state's maximum size is not stated by the crate:
  it is the parameter `tooLarge`, any error status other than `STATUS_UNSUCCESSFUL` (which the
  crate reads as a stale stamp).
- The order of the kernel's checks on a write (deleted state, type id, size, stamp) is not
  stated by the crate; the model takes that order.
- The maximum size given at creation is not checked against the kernel's limit of 0x1000
  (tests/manage.rs:81-96): creation is an outcome passed in.
- The interfering writes in the `apply` and `replace` loops are writes the kernel carried out, so
  they are required to fit the state's maximum size; a refused interfering write changes
  nothing and is the same as none.
- Query.ChangeStampOf: the same as `Query.QueryAsValue`; the query through
  `cast::<WnfOpaqueData>()` keeps the handle's type id (src/query.rs:177), and its refusal is
  modelled by `Query.Reader` only.
- SystemRunner.SystemWait: the panic of `status.code().unwrap()` on a process without an exit
  code is not modelled.
- SystemRunner: `ensure_running_as_system`, the pipes and the threads that copy standard input
  and output, `Command::spawn`, `PayloadProcess::wait` and the `AdminProcess` process wrapper
  are not modelled: they are process and I/O plumbing. `PipelineId::new` takes the process id
  as a parameter.
- The `windows`, `winapi`, `uuid` and `zerocopy` feature conversions are not modelled.

## Findings

| source | as written | input that shows it | evidently intended | confidence | as-written member | corrected member |
|---|---|---|---|---|---|---|
| src/buffer.rs:205 | `data.reserve(len - data.capacity())` on a vector of length 0 only guarantees a capacity of `len - capacity`, which can already be met | a closure source of 2-byte elements reporting 2 bytes, then 10 bytes on every later call: capacity 0 becomes 4, then `reserve(1)` never grows it, so the loop never ends | `data.reserve(len)`, as `reserve(len - buffer.len())` does at src/read.rs:358 | not executed | Buffer.AsWrittenNeverEnds | Buffer.CorrectedEnds |
| src/raw_state.rs:296 | `buffer.reserve(len - buffer.capacity())` on a vector of length 0, the same pattern | a state holding 2 bytes of 2-byte elements at the first call and 10 bytes after that: capacity 4 is never exceeded and the loop never ends | `buffer.reserve(len)` | not executed | RawStates.AsWrittenNeverEnds | RawStates.CorrectedEnds |
| src/wait_blocking.rs:129 | the shared slot starts with the data queried first, and `wait_while` (lines 143-146) checks it at `Changed` before any update arrives | `wait_blocking` on any state: `ChangedPredicate` holds at `Changed` on the initial data, so the call returns without waiting for an update | only data delivered by an update is checked at `Changed`, as `wait_async` does | not executed | Predicates.WaitBlockingReturnsAtOnce | Predicates.ChangedWaitsForUpdate |

=== FILE: admin_process.dfy ===
/**
 * `make_params` (devutils/src/admin_process.rs): the parameter string handed to `ShellExecuteExW`
 * to start a process as administrator, as UTF-16 code units ending in a single 0. Each argument
 * is put in double quotes; a quote inside is escaped with a backslash, and backslashes that end
 * up in front of a quote (an escaped one, or the closing one) are doubled, so that the Windows
 * rules for splitting a command line give the arguments back. An argument containing a 0 code
 * unit is refused.
 */
module AdminProcess {
  import opened Wrappers

  /** A UTF-16 code unit, a `u16`. */
  type CodeUnit = x: int | 0 <= x < 0x1_0000

  const NUL: CodeUnit := 0
  const SPACE: CodeUnit := 0x20
  const QUOTE: CodeUnit := 0x22
  const BACKSLASH: CodeUnit := 0x5C

  /** The `io::Error` of kind `InvalidInput` for an argument containing a 0 code unit. */
  datatype ParamsError = InvalidInput

  /** `n` backslashes. */
  function Backslashes(n: nat): (s: seq<CodeUnit>)
    ensures |s| == n && forall i :: 0 <= i < n ==> s[i] == BACKSLASH
  {
    if n == 0 then [] else [BACKSLASH] + Backslashes(n - 1)
  }

  /** Runs of backslashes add up: `m` of them followed by `n` of them are `m + n` of them. */
  lemma {:induction false} BackslashesAdd(m: nat, n: nat)
    ensures Backslashes(m) + Backslashes(n) == Backslashes(m + n)
    decreases m
  {
    if m > 0 {
      BackslashesAdd(m - 1, n);
      assert Backslashes(m) + Backslashes(n) == [BACKSLASH] + (Backslashes(m - 1) + Backslashes(n));
    }
  }

  /**
   * The escaped body of an argument, read from `rest`, when `pending` backslashes directly precede
   * it and have been written once already: a backslash is written and counted; a quote gets the
   * pending backslashes again and one more; anything else ends the run; at the end the pending
   * backslashes are written again, in front of the closing quote.
   */
  function EscapeFrom(pending: nat, rest: seq<CodeUnit>): seq<CodeUnit>
    decreases |rest|
  {
    if rest == [] then Backslashes(pending)
    else if rest[0] == BACKSLASH then [BACKSLASH] + EscapeFrom(pending + 1, rest[1..])
    else if rest[0] == QUOTE then Backslashes(pending + 1) + [QUOTE] + EscapeFrom(0, rest[1..])
    else [rest[0]] + EscapeFrom(0, rest[1..])
  }

  /** One argument, quoted and escaped. */
  function Quoted(arg: seq<CodeUnit>): seq<CodeUnit>
  {
    [QUOTE] + EscapeFrom(0, arg) + [QUOTE]
  }

  /** The quoted arguments separated by single spaces. */
  function Joined(args: seq<seq<CodeUnit>>): seq<CodeUnit>
  {
    if |args| == 0 then []
    else if |args| == 1 then Quoted(args[0])
    else Joined(args[..|args| - 1]) + [SPACE] + Quoted(args[|args| - 1])
  }

  /** `Joined` grows by a separating space (after the first argument) and the next quoted argument. */
  lemma JoinedStep(args: seq<seq<CodeUnit>>, idx: nat)
    requires idx < |args|
    ensures Joined(args[..idx + 1]) == (if idx == 0 then [] else Joined(args[..idx]) + [SPACE]) + Quoted(args[idx])
  {
    assert args[..idx + 1][..idx] == args[..idx];
  }

  /** One step of `EscapeFrom`, on the code unit at `i`. */
  lemma EscapeStep(pending: nat, arg: seq<CodeUnit>, i: nat)
    requires i < |arg|
    ensures EscapeFrom(pending, arg[i..]) ==
      if arg[i] == BACKSLASH then [BACKSLASH] + EscapeFrom(pending + 1, arg[i + 1..])
      else if arg[i] == QUOTE then Backslashes(pending + 1) + [QUOTE] + EscapeFrom(0, arg[i + 1..])
      else [arg[i]] + EscapeFrom(0, arg[i + 1..])
  {
    assert arg[i..][1..] == arg[i + 1..];
  }

  /**
   * The invariant of `make_params`'s inner loop survives writing the code unit at `i`: what is
   * written, followed by the escaping of the rest, stays the same.
   */
  lemma EscapeOutStep(out: seq<CodeUnit>, pending: nat, arg: seq<CodeUnit>, i: nat, whole: seq<CodeUnit>)
    requires i < |arg| && out + EscapeFrom(pending, arg[i..]) == whole
    ensures var x := arg[i];
      (if x == QUOTE then out + Backslashes(pending + 1) + [x] else out + [x])
        + EscapeFrom(if x == BACKSLASH then pending + 1 else 0, arg[i + 1..]) == whole
  {
    EscapeStep(pending, arg, i);
  }

  /** Some argument contains a 0 code unit. */
  predicate HasNul(args: seq<seq<CodeUnit>>)
  {
    exists arg :: arg in args && NUL in arg
  }

  /**
   * The body of `make_params`'s outer loop for one argument: appends the argument quoted and
   * escaped to `params`, or gives `None` if the argument contains a 0 code unit.
   */
  method PushQuoted(params: seq<CodeUnit>, arg: seq<CodeUnit>) returns (r: Option<seq<CodeUnit>>)
    ensures r.None? <==> NUL in arg
    ensures r.Some? ==> r.value == params + Quoted(arg)
  {
    var out := params + [QUOTE];
    var backslashes: nat := 0;
    for i := 0 to |arg|
      invariant out + EscapeFrom(backslashes, arg[i..]) == params + [QUOTE] + EscapeFrom(0, arg)
      invariant NUL !in arg[..i]
    {
      var x := arg[i];
      if x == NUL {
        return None;
      }
      EscapeOutStep(out, backslashes, arg, i, params + [QUOTE] + EscapeFrom(0, arg));
      if x == BACKSLASH {
        backslashes := backslashes + 1;
      } else {
        if x == QUOTE {
          out := out + Backslashes(backslashes + 1);
        }
        backslashes := 0;
      }
      out := out + [x];
      assert arg[..i + 1] == arg[..i] + [x];
    }
    assert arg[|arg|..] == [] && arg[..|arg|] == arg;
    out := out + Backslashes(backslashes) + [QUOTE];
    return Some(out);
  }

  /** `make_params`: an error if an argument contains a 0 code unit, else the joined arguments and a 0. */
  method MakeParams(args: seq<seq<CodeUnit>>) returns (r: Result<seq<CodeUnit>, ParamsError>)
    ensures r.Err? <==> HasNul(args)
    ensures r.Ok? ==> r.value == Joined(args) + [NUL]
  {
    var params: seq<CodeUnit> := [];
    for idx := 0 to |args|
      invariant params == Joined(args[..idx])
      invariant forall k :: 0 <= k < idx ==> NUL !in args[k]
    {
      if idx > 0 {
        params := params + [SPACE];
      }
      var pushed := PushQuoted(params, args[idx]);
      if pushed.None? {
        return Err(InvalidInput);
      }
      JoinedStep(args, idx);
      params := pushed.value;
    }
    assert args[..|args|] == args;
    r := Ok(params + [NUL]);
  }

  /*
   * The inverse: the Windows rules for reading back an argument in double quotes. A run of `2n`
   * backslashes before a quote gives `n` backslashes and the quote ends the argument; a run of
   * `2n + 1` gives `n` backslashes and a literal quote; a run not followed by a quote is literal.
   */

  /** `prefix` put in front of the argument a parse gave, if any. */
  function Prepend(prefix: seq<CodeUnit>, r: Option<(seq<CodeUnit>, seq<CodeUnit>)>): Option<(seq<CodeUnit>, seq<CodeUnit>)>
  {
    match r
    case Some((arg, rest)) => Some((prefix + arg, rest))
    case None => None
  }

  /**
   * Reads the inside of a quoted argument, `run` backslashes into a run: the argument and what
   * follows its closing quote, or `None` when no quote closes it.
   */
  function ParseQuotedFrom(run: nat, s: seq<CodeUnit>): (r: Option<(seq<CodeUnit>, seq<CodeUnit>)>)
    ensures r.Some? ==> |r.value.1| < |s|
    decreases |s|
  {
    if s == [] then None
    else if s[0] == BACKSLASH then ParseQuotedFrom(run + 1, s[1..])
    else if s[0] == QUOTE then
      if run % 2 == 0 then Some((Backslashes(run / 2), s[1..]))
      else Prepend(Backslashes(run / 2) + [QUOTE], ParseQuotedFrom(0, s[1..]))
    else Prepend(Backslashes(run) + [s[0]], ParseQuotedFrom(0, s[1..]))
  }

  function ParseQuoted(s: seq<CodeUnit>): (r: Option<(seq<CodeUnit>, seq<CodeUnit>)>)
    ensures r.Some? ==> |r.value.1| < |s|
  {
    ParseQuotedFrom(0, s)
  }

  /** Reads quoted arguments separated by single spaces. */
  function ParseArgs(s: seq<CodeUnit>): (r: Option<seq<seq<CodeUnit>>>)
    decreases |s|
  {
    if s == [] then Some([])
    else if s[0] != QUOTE then None
    else
      match ParseQuoted(s[1..])
      case None => None
      case Some((arg, rest)) =>
        if rest == [] then Some([arg])
        else if rest[0] != SPACE then None
        else
          match ParseArgs(rest[1..])
          case None => None
          case Some(more) => Some([arg] + more)
  }

  /** Reads a parameter string that ends in its single 0 code unit. */
  function ParseCommandLine(p: seq<CodeUnit>): Option<seq<seq<CodeUnit>>>
  {
    if p == [] || p[|p| - 1] != NUL || NUL in p[..|p| - 1] then None
    else ParseArgs(p[..|p| - 1])
  }

  /** A run of backslashes only lengthens the run being read. */
  lemma {:induction false} ParseRun(run: nat, k: nat, t: seq<CodeUnit>)
    ensures ParseQuotedFrom(run, Backslashes(k) + t) == ParseQuotedFrom(run + k, t)
    decreases k
  {
    if k == 0 {
      assert Backslashes(k) + t == t;
    } else {
      var s := Backslashes(k) + t;
      assert s[1..] == Backslashes(k - 1) + t;
      ParseRun(run + 1, k - 1, t);
    }
  }

  /**
   * The quoted reading gives back what was escaped: after `m` backslashes already written (and
   * read), the rest of the escaped body and the closing quote are read as those backslashes and
   * the rest of the argument.
   */
  lemma {:induction false} ParseEscaped(m: nat, a: seq<CodeUnit>, r: seq<CodeUnit>)
    ensures ParseQuotedFrom(m, EscapeFrom(m, a) + [QUOTE] + r) == Some((Backslashes(m) + a, r))
    decreases |a|
  {
    if a == [] {
      ParseEscapedEnd(m, r);
    } else if a[0] == BACKSLASH {
      ParseEscaped(m + 1, a[1..], r);
      ParseEscapedBackslash(m, a, r);
    } else {
      ParseEscaped(0, a[1..], r);
      if a[0] == QUOTE {
        ParseEscapedQuote(m, a, r);
      } else {
        ParseEscapedOther(m, a, r);
      }
    }
  }

  /** The closing quote, after `m` backslashes written twice. */
  lemma ParseEscapedEnd(m: nat, r: seq<CodeUnit>)
    ensures ParseQuotedFrom(m, EscapeFrom(m, []) + [QUOTE] + r) == Some((Backslashes(m) + [], r))
  {
    var t := [QUOTE] + r;
    assert EscapeFrom(m, []) + [QUOTE] + r == Backslashes(m) + t;
    ParseRun(m, m, t);
    assert ParseQuotedFrom(m + m, t) == Some((Backslashes(m), r)) by {
      assert (m + m) % 2 == 0 && (m + m) / 2 == m;
      assert t[1..] == r;
    }
    assert Backslashes(m) + [] == Backslashes(m);
  }

  /** A backslash of the argument, written once, lengthens the run. */
  lemma ParseEscapedBackslash(m: nat, a: seq<CodeUnit>, r: seq<CodeUnit>)
    requires a != [] && a[0] == BACKSLASH
    requires ParseQuotedFrom(m + 1, EscapeFrom(m + 1, a[1..]) + [QUOTE] + r) == Some((Backslashes(m + 1) + a[1..], r))
    ensures ParseQuotedFrom(m, EscapeFrom(m, a) + [QUOTE] + r) == Some((Backslashes(m) + a, r))
  {
    EscapedBackslashShape(m, a, r);
    RunAbsorbsBackslash(m, a);
  }

  /** The escaped form of a backslash is that backslash, with the run one longer after it. */
  lemma EscapedBackslashShape(m: nat, a: seq<CodeUnit>, r: seq<CodeUnit>)
    requires a != [] && a[0] == BACKSLASH
    ensures ParseQuotedFrom(m, EscapeFrom(m, a) + [QUOTE] + r) == ParseQuotedFrom(m + 1, EscapeFrom(m + 1, a[1..]) + [QUOTE] + r)
  {
    var tail := EscapeFrom(m + 1, a[1..]) + [QUOTE] + r;
    var s := EscapeFrom(m, a) + [QUOTE] + r;
    assert s == [BACKSLASH] + tail;
    assert s[1..] == tail;
  }

  /** A run of `m + 1` backslashes followed by the rest is `m` backslashes followed by the argument. */
  lemma RunAbsorbsBackslash(m: nat, a: seq<CodeUnit>)
    requires a != [] && a[0] == BACKSLASH
    ensures Backslashes(m) + a == Backslashes(m + 1) + a[1..]
  {
    BackslashesAdd(m, 1);
    assert a == Backslashes(1) + a[1..];
  }

  /** A quote of the argument: the run is written twice and once more, then the quote. */
  lemma ParseEscapedQuote(m: nat, a: seq<CodeUnit>, r: seq<CodeUnit>)
    requires a != [] && a[0] == QUOTE
    requires ParseQuotedFrom(0, EscapeFrom(0, a[1..]) + [QUOTE] + r) == Some((Backslashes(0) + a[1..], r))
    ensures ParseQuotedFrom(m, EscapeFrom(m, a) + [QUOTE] + r) == Some((Backslashes(m) + a, r))
  {
    var tail := EscapeFrom(0, a[1..]) + [QUOTE] + r;
    var t := [QUOTE] + tail;
    EscapedQuoteShape(m, a, r);
    ParseRun(m, m + 1, t);
    assert ParseQuotedFrom(m + m + 1, t) == Prepend(Backslashes(m) + [QUOTE], ParseQuotedFrom(0, tail)) by {
      assert (m + m + 1) % 2 == 1 && (m + m + 1) / 2 == m;
      assert t[1..] == tail;
    }
  }

  lemma EscapedQuoteShape(m: nat, a: seq<CodeUnit>, r: seq<CodeUnit>)
    requires a != [] && a[0] == QUOTE
    ensures EscapeFrom(m, a) + [QUOTE] + r == Backslashes(m + 1) + ([QUOTE] + (EscapeFrom(0, a[1..]) + [QUOTE] + r))
    ensures Backslashes(m) + [QUOTE] + (Backslashes(0) + a[1..]) == Backslashes(m) + a
  {
    assert a == [QUOTE] + a[1..];
  }

  /** Any other code unit ends the run, which is then literal. */
  lemma ParseEscapedOther(m: nat, a: seq<CodeUnit>, r: seq<CodeUnit>)
    requires a != [] && a[0] != QUOTE && a[0] != BACKSLASH
    requires ParseQuotedFrom(0, EscapeFrom(0, a[1..]) + [QUOTE] + r) == Some((Backslashes(0) + a[1..], r))
    ensures ParseQuotedFrom(m, EscapeFrom(m, a) + [QUOTE] + r) == Some((Backslashes(m) + a, r))
  {
    EscapedOtherShape(m, a, r);
    assert Backslashes(m) + [a[0]] + (Backslashes(0) + a[1..]) == Backslashes(m) + a by {
      assert a == [a[0]] + a[1..];
    }
  }

  /** The escaped form of any other code unit is that code unit, which the reading puts after the run. */
  lemma EscapedOtherShape(m: nat, a: seq<CodeUnit>, r: seq<CodeUnit>)
    requires a != [] && a[0] != QUOTE && a[0] != BACKSLASH
    ensures ParseQuotedFrom(m, EscapeFrom(m, a) + [QUOTE] + r)
         == Prepend(Backslashes(m) + [a[0]], ParseQuotedFrom(0, EscapeFrom(0, a[1..]) + [QUOTE] + r))
  {
    var tail := EscapeFrom(0, a[1..]) + [QUOTE] + r;
    var s := EscapeFrom(m, a) + [QUOTE] + r;
    assert s == [a[0]] + tail;
    assert s[1..] == tail;
  }

  /** `Joined`, taken apart from the front. */
  lemma {:induction false} JoinedFront(args: seq<seq<CodeUnit>>)
    requires |args| >= 2
    ensures Joined(args) == Quoted(args[0]) + [SPACE] + Joined(args[1..])
    decreases |args|
  {
    var init, last := args[..|args| - 1], args[|args| - 1];
    if |args| > 2 {
      assert Joined(args[1..]) == Joined(init[1..]) + [SPACE] + Quoted(last) by {
        assert args[1..][..|args| - 2] == init[1..];
      }
      assert Joined(init) == Quoted(args[0]) + [SPACE] + Joined(init[1..]) by {
        JoinedFront(init);
      }
    } else {
      assert args[1..] == [last] && init == [args[0]];
    }
  }

  /** Reading the joined arguments gives them back. */
  lemma {:induction false} ParseJoined(args: seq<seq<CodeUnit>>)
    ensures ParseArgs(Joined(args)) == Some(args)
    decreases |args|
  {
    if |args| == 1 {
      ParseLast(args[0]);
      assert [args[0]] == args;
    } else if |args| >= 2 {
      JoinedFront(args);
      ParseJoined(args[1..]);
      ParseFront(args[0], Joined(args[1..]), args[1..]);
      assert [args[0]] + args[1..] == args;
    }
  }

  /** A quoted argument is read back, and what follows its closing quote is left. */
  lemma ParseQuotedArg(a: seq<CodeUnit>, rest: seq<CodeUnit>)
    ensures ParseQuoted(Quoted(a)[1..] + rest) == Some((a, rest))
  {
    assert Quoted(a)[1..] + rest == EscapeFrom(0, a) + [QUOTE] + rest;
    ParseEscaped(0, a, rest);
    assert Backslashes(0) + a == a;
  }

  /** One quoted argument alone is read back as itself. */
  lemma ParseLast(a: seq<CodeUnit>)
    ensures ParseArgs(Quoted(a)) == Some([a])
  {
    ParseQuotedArg(a, []);
    assert Quoted(a)[1..] + [] == Quoted(a)[1..];
  }

  /** A quoted argument, a space and more arguments: the argument, then what the rest reads as. */
  lemma ParseFront(a: seq<CodeUnit>, tail: seq<CodeUnit>, more: seq<seq<CodeUnit>>)
    requires ParseArgs(tail) == Some(more)
    ensures ParseArgs(Quoted(a) + [SPACE] + tail) == Some([a] + more)
  {
    var rest := [SPACE] + tail;
    var s := Quoted(a) + [SPACE] + tail;
    assert s[0] == QUOTE && s[1..] == Quoted(a)[1..] + rest;
    ParseQuotedArg(a, rest);
    assert rest[0] == SPACE && rest[1..] == tail;
  }

  /** Escaping adds only backslashes and quotes. */
  lemma {:induction false} EscapeAddsNoNul(m: nat, a: seq<CodeUnit>)
    requires NUL !in a
    ensures NUL !in EscapeFrom(m, a)
    decreases |a|
  {
    if a != [] {
      assert a[0] in a && forall x :: x in a[1..] ==> x in a;
      EscapeAddsNoNul(if a[0] == BACKSLASH then m + 1 else 0, a[1..]);
    }
  }

  lemma {:induction false} JoinedHasNoNul(args: seq<seq<CodeUnit>>)
    requires !HasNul(args)
    ensures NUL !in Joined(args)
    decreases |args|
  {
    if |args| >= 1 {
      assert args[|args| - 1] in args;
      EscapeAddsNoNul(0, args[|args| - 1]);
      if |args| >= 2 {
        assert !HasNul(args[..|args| - 1]) by {
          assert forall arg :: arg in args[..|args| - 1] ==> arg in args;
        }
        JoinedHasNoNul(args[..|args| - 1]);
      }
    }
  }

  /**
   * What `make_params` produces is a 0-terminated parameter string holding no other 0, and the
   * Windows rules read it back as exactly the arguments it was made from.
   */
  lemma MakeParamsRoundTrip(args: seq<seq<CodeUnit>>)
    requires !HasNul(args)
    ensures NUL !in Joined(args)
    ensures ParseCommandLine(Joined(args) + [NUL]) == Some(args)
  {
    JoinedHasNoNul(args);
    ParseJoined(args);
    var p := Joined(args) + [NUL];
    assert p[..|p| - 1] == Joined(args);
  }

  /** The unit tests `empty` and `single` (`a` and `b` are 0x61 and 0x62). */
  lemma SingleExamples()
    ensures Joined([]) + [NUL] == [0]
    ensures Joined([[0x61, 0x62]]) + [NUL] == [QUOTE, 0x61, 0x62, QUOTE, 0]
  {
    QuotedPair(0x61, 0x62);
  }

  /** The unit test `multiple` (`a` to `f` are 0x61 to 0x66). */
  lemma MultipleExample()
    ensures Joined([[0x61, 0x62], [0x63, 0x64], [0x65, 0x66]]) + [NUL]
         == [QUOTE, 0x61, 0x62, QUOTE, SPACE, QUOTE, 0x63, 0x64, QUOTE, SPACE, QUOTE, 0x65, 0x66, QUOTE, 0]
  {
    QuotedPair(0x61, 0x62);
    QuotedPair(0x63, 0x64);
    QuotedPair(0x65, 0x66);
    JoinedThree([0x61, 0x62], [0x63, 0x64], [0x65, 0x66]);
  }

  /** The unit test `fail_on_argument_containing_null`: `make_params` refuses these arguments. */
  lemma NulExample()
    ensures HasNul([[0x61, NUL, 0x62]])
  {
    assert [0x61, NUL, 0x62] in [[0x61, NUL, 0x62]];
  }

  /** Two code units that are neither quotes nor backslashes are quoted as they are. */
  lemma QuotedPair(x: CodeUnit, y: CodeUnit)
    requires x != QUOTE && x != BACKSLASH && y != QUOTE && y != BACKSLASH
    ensures Quoted([x, y]) == [QUOTE, x, y, QUOTE]
  {
    EscapePlain([x, y]);
  }

  /** Three arguments are joined by two spaces. */
  lemma JoinedThree(a: seq<CodeUnit>, b: seq<CodeUnit>, c: seq<CodeUnit>)
    ensures Joined([a, b, c]) == Quoted(a) + [SPACE] + Quoted(b) + [SPACE] + Quoted(c)
  {
    assert Joined([a, b]) == Quoted(a) + [SPACE] + Quoted(b) by {
      assert [a, b][..1] == [a];
    }
    assert Joined([a, b, c]) == Joined([a, b]) + [SPACE] + Quoted(c) by {
      assert [a, b, c][..2] == [a, b];
    }
  }

  /** An argument with neither quotes nor backslashes is written as it is. */
  lemma {:induction false} EscapePlain(a: seq<CodeUnit>)
    requires QUOTE !in a && BACKSLASH !in a
    ensures EscapeFrom(0, a) == a
    decreases |a|
  {
    if a != [] {
      assert a == [a[0]] + a[1..];
      EscapePlain(a[1..]);
    }
  }

  /** The unit test `quote_escaped`: a quote gets one backslash. */
  lemma QuoteEscapedExample()
    ensures Joined([[0x61, QUOTE, 0x62]]) == [QUOTE, 0x61, BACKSLASH, QUOTE, 0x62, QUOTE]
  {
    var b := [0x62];
    assert EscapeFrom(0, b) == b;
    var qb := [QUOTE, 0x62];
    assert qb[1..] == b;
    assert EscapeFrom(0, qb) == [BACKSLASH, QUOTE, 0x62];
    assert [0x61, QUOTE, 0x62][1..] == qb;
  }

  /** The unit test `backslash_quote_both_escaped`: a backslash before a quote is doubled, and the quote escaped. */
  lemma BackslashQuoteExample()
    ensures Joined([[0x61, BACKSLASH, QUOTE, 0x62]])
         == [QUOTE, 0x61, BACKSLASH, BACKSLASH, BACKSLASH, QUOTE, 0x62, QUOTE]
  {
    var b := [0x62];
    assert EscapeFrom(0, b) == b;
    var qb := [QUOTE, 0x62];
    assert qb[1..] == b;
    assert EscapeFrom(1, qb) == [BACKSLASH, BACKSLASH, QUOTE, 0x62];
    var bqb := [BACKSLASH, QUOTE, 0x62];
    assert bqb[1..] == qb;
    assert EscapeFrom(0, bqb) == [BACKSLASH, BACKSLASH, BACKSLASH, QUOTE, 0x62];
    assert [0x61, BACKSLASH, QUOTE, 0x62][1..] == bqb;
  }

  /** The unit test `two_backslashes_quote_all_escaped`: two backslashes before a quote become four. */
  lemma TwoBackslashesQuoteExample()
    ensures Joined([[0x61, BACKSLASH, BACKSLASH, QUOTE, 0x62]])
         == [QUOTE, 0x61, BACKSLASH, BACKSLASH, BACKSLASH, BACKSLASH, BACKSLASH, QUOTE, 0x62, QUOTE]
  {
    var b := [0x62];
    assert EscapeFrom(0, b) == b;
    var qb := [QUOTE, 0x62];
    assert qb[1..] == b;
    assert EscapeFrom(2, qb) == [BACKSLASH, BACKSLASH, BACKSLASH, QUOTE, 0x62];
    var bqb := [BACKSLASH, QUOTE, 0x62];
    assert bqb[1..] == qb;
    assert EscapeFrom(1, bqb) == [BACKSLASH, BACKSLASH, BACKSLASH, BACKSLASH, QUOTE, 0x62];
    var bbqb := [BACKSLASH, BACKSLASH, QUOTE, 0x62];
    assert bbqb[1..] == bqb;
    assert EscapeFrom(0, bbqb) == [BACKSLASH, BACKSLASH, BACKSLASH, BACKSLASH, BACKSLASH, QUOTE, 0x62];
    assert [0x61, BACKSLASH, BACKSLASH, QUOTE, 0x62][1..] == bbqb;
  }

  /** The unit tests `backslash_not_escaped` and `backslash_at_end_escaped`. */
  lemma BackslashExamples()
    ensures Joined([[0x61, BACKSLASH, 0x62]]) == [QUOTE, 0x61, BACKSLASH, 0x62, QUOTE]
    ensures Joined([[0x61, 0x62, BACKSLASH]]) == [QUOTE, 0x61, 0x62, BACKSLASH, BACKSLASH, QUOTE]
  {
    var b := [0x62];
    assert EscapeFrom(1, b) == [0x62];
    var bb := [BACKSLASH, 0x62];
    assert bb[1..] == b;
    assert EscapeFrom(0, bb) == [BACKSLASH, 0x62];
    var back := [BACKSLASH];
    assert back[1..] == [];
    assert EscapeFrom(0, back) == [BACKSLASH, BACKSLASH];
    var bback := [0x62, BACKSLASH];
    assert bback[1..] == back;
    assert EscapeFrom(0, bback) == [0x62, BACKSLASH, BACKSLASH];
    assert [0x61, BACKSLASH, 0x62][1..] == bb;
    assert [0x61, 0x62, BACKSLASH][1..] == bback;
  }
}

=== FILE: apply.dfy ===
/**
 * Read-modify-write on a `RawState<T>` (src/apply.rs): `try_apply_as` queries the state,
 * transforms the value, and writes the result conditionally on the stamp it just read, starting
 * over when another writer got in between; `apply_as` is the same with a transform that cannot fail.
 *
 * The query decodes the state's bytes with `decode` (`T::from_buffer` for the chosen `ReadInto`);
 * the transform's result is written as the bytes it borrows as. Another writer is modelled by
 * `others`: `others[j]` is written between the `j`-th query and its conditional update, and once
 * `others` is exhausted nobody interferes. The state was created with the maximum size `maxSize`,
 * and the kernel refuses a larger write with `tooLarge`; the interfering writes are ones the
 * kernel carried out.
 */
module Apply {
  import opened Wrappers
  import opened Bytes
  import opened Kernel
  import Read
  import Data
  import Updates

  /** The `io::Error` of these operations: a query error, the transform's error (kind `Other`), or the update's status. */
  datatype IoError<E> = QueryFailed(query: Read.ReadError<NtStatus>) | Other(error: E) | UpdateFailed(status: NtStatus)

  /** `query_as` on one state: the kernel's error on a deleted state, otherwise the decoded data and the stamp. */
  function QueryOn<D>(decode: seq<Byte> -> Result<D, Read.ReadError<NtStatus>>, s: Snapshot): (r: Result<(D, Stamp), Read.ReadError<NtStatus>>)
    ensures !s.live ==> r == Err(Read.Io(STATUS_OBJECT_NAME_NOT_FOUND))
    ensures s.live ==> (r.Ok? <==> decode(s.data).Ok?)
    ensures s.live && r.Ok? ==> r.value == (decode(s.data).value, s.stamp)
    ensures s.live && r.Err? ==> r.error == decode(s.data).error
  {
    if !s.live then Err(Read.Io(STATUS_OBJECT_NAME_NOT_FOUND))
    else match decode(s.data)
      case Ok(d) => Ok((d, s.stamp))
      case Err(e) => Err(e)
  }

  /** The outcome of a read-modify-write: the result, the final state, and the values the transform was called with. */
  datatype Run<D, E> = Run(result: Result<seq<Byte>, IoError<E>>, final: Snapshot, seen: seq<D>)

  /** `try_apply_as`, round by round. */
  function TryApplyRun<D, E>(decode: seq<Byte> -> Result<D, Read.ReadError<NtStatus>>, f: D -> Result<seq<Byte>, E>,
                             maxSize: nat, tooLarge: ErrorStatus, s: Snapshot, others: seq<seq<Byte>>): (r: Run<D, E>)
    decreases |others|
  {
    match QueryOn(decode, s)
    case Err(e) => Run(Err(QueryFailed(e)), s, [])
    case Ok((v, stamp)) =>
      match f(v)
      case Err(e) => Run(Err(Other(e)), s, [v])
      case Ok(w) =>
        var s1 := if others == [] then s else UpdateAt(s, others[0], 0, 0).0;
        var (s2, status) := UpdateWithin(s1, maxSize, tooLarge, w, stamp, 1);
        match Updates.UpdateOutcome(status)
        case Err(e) => Run(Err(UpdateFailed(e)), s2, [v])
        case Ok(true) => Run(Ok(w), s2, [v])
        case Ok(false) =>
          if others == [] then assert false; Run(Ok(w), s2, [v])
          else
            var rest := TryApplyRun(decode, f, maxSize, tooLarge, s2, others[1..]);
            Run(rest.result, rest.final, [v] + rest.seen)
  }

  /**
   * One round of `try_apply_as` after a successful query and transform: the interfering write, if
   * any, then the conditional write; a write refused for its stamp leaves the rest to the next round.
   */
  lemma TryApplyRound<D, E>(decode: seq<Byte> -> Result<D, Read.ReadError<NtStatus>>, f: D -> Result<seq<Byte>, E>,
                            maxSize: nat, tooLarge: ErrorStatus, s: Snapshot, others: seq<seq<Byte>>, seen: seq<D>)
    requires QueryOn(decode, s).Ok? && f(QueryOn(decode, s).value.0).Ok?
    ensures var (v, stamp) := QueryOn(decode, s).value;
      var w := f(v).value;
      var s1 := if others == [] then s else UpdateAt(s, others[0], 0, 0).0;
      var (s2, status) := UpdateWithin(s1, maxSize, tooLarge, w, stamp, 1);
      var run := TryApplyRun(decode, f, maxSize, tooLarge, s, others);
      && (Updates.UpdateOutcome(status) != Ok(false) ==>
            run == Run(match Updates.UpdateOutcome(status) case Err(e) => Err(UpdateFailed(e)) case Ok(_) => Ok(w), s2, [v]))
      && (Updates.UpdateOutcome(status) == Ok(false) ==>
            others != [] && run.result == TryApplyRun(decode, f, maxSize, tooLarge, s2, others[1..]).result
            && run.final == TryApplyRun(decode, f, maxSize, tooLarge, s2, others[1..]).final
            && seen + run.seen == (seen + [v]) + TryApplyRun(decode, f, maxSize, tooLarge, s2, others[1..]).seen)
  {
  }

  /** `try_apply_as`: the loop, run against the store. */
  method TryApplyAs<D, E>(store: Store, decode: seq<Byte> -> Result<D, Read.ReadError<NtStatus>>, f: D -> Result<seq<Byte>, E>,
                          tooLarge: ErrorStatus, others: seq<seq<Byte>>)
    returns (r: Result<seq<Byte>, IoError<E>>, seen: seq<D>)
    requires forall j :: 0 <= j < |others| ==> |others[j]| <= store.maxSize
    modifies store
    ensures Run(r, store.State(), seen) == TryApplyRun(decode, f, store.maxSize, tooLarge, old(store.State()), others)
  {
    var j := 0;
    seen := [];
    while true
      invariant 0 <= j <= |others|
      invariant var rest := TryApplyRun(decode, f, store.maxSize, tooLarge, store.State(), others[j..]);
        TryApplyRun(decode, f, store.maxSize, tooLarge, old(store.State()), others) == Run(rest.result, rest.final, seen + rest.seen)
      decreases |others| - j
    {
      var queried := QueryOn(decode, store.State());
      if queried.Err? {
        return Err(QueryFailed(queried.error)), seen;
      }
      var (v, stamp) := queried.value;
      var transformed := f(v);
      if transformed.Err? {
        return Err(Other(transformed.error)), seen + [v];
      }
      TryApplyRound(decode, f, store.maxSize, tooLarge, store.State(), others[j..], seen);
      if j < |others| {
        var _ := store.Update(tooLarge, others[j], 0, 0);
      }
      // The handle carries the state's own type id, which the kernel accepts: the refusal status
      // passed along never arises.
      var updated := Updates.Update(store, store.typeId, STATUS_UNSUCCESSFUL, tooLarge, transformed.value, Data.ChangeStamp(stamp));
      seen := seen + [v];
      if updated != Ok(false) {
        return (match updated case Err(e) => Err(UpdateFailed(e)) case Ok(_) => Ok(transformed.value)), seen;
      }
      assert others[j..][1..] == others[j + 1..];
      j := j + 1;
    }
  }

  /** `|data| Ok::<_, Infallible>(transform(data))`. */
  function Infallible<D, E>(f: D -> seq<Byte>): D -> Result<seq<Byte>, E>
  {
    v => Ok(f(v))
  }

  /** `apply_as`: `try_apply_as` with a transform that never fails. */
  method ApplyAs<D, E>(store: Store, decode: seq<Byte> -> Result<D, Read.ReadError<NtStatus>>, f: D -> seq<Byte>,
                       tooLarge: ErrorStatus, others: seq<seq<Byte>>)
    returns (r: Result<seq<Byte>, IoError<E>>, seen: seq<D>)
    requires forall j :: 0 <= j < |others| ==> |others[j]| <= store.maxSize
    modifies store
    ensures Run(r, store.State(), seen) == TryApplyRun(decode, Infallible(f), store.maxSize, tooLarge, old(store.State()), others)
    ensures r.Err? ==> !r.error.Other?
  {
    r, seen := TryApplyAs(store, decode, Infallible(f), tooLarge, others);
    NeverOther<D, E>(decode, f, store.maxSize, tooLarge, old(store.State()), others);
  }

  /** A transform that cannot fail never produces an error of kind `Other`. */
  lemma {:induction false} NeverOther<D, E>(decode: seq<Byte> -> Result<D, Read.ReadError<NtStatus>>, f: D -> seq<Byte>,
                                            maxSize: nat, tooLarge: ErrorStatus, s: Snapshot, others: seq<seq<Byte>>)
    ensures var r := TryApplyRun<D, E>(decode, Infallible(f), maxSize, tooLarge, s, others).result;
      r.Err? ==> !r.error.Other?
    decreases |others|
  {
    if others != [] {
      var q := QueryOn(decode, s);
      if q.Ok? {
        var s1 := UpdateAt(s, others[0], 0, 0).0;
        var s2 := UpdateWithin(s1, maxSize, tooLarge, f(q.value.0), q.value.1, 1).0;
        NeverOther<D, E>(decode, f, maxSize, tooLarge, s2, others[1..]);
      }
    }
  }

  /**
   * A successful `try_apply_as` returns what it wrote, and wrote the transform of the state as it
   * was after every interfering write, one stamp later; the last value the transform saw is that
   * state's value, and it fits the state's maximum size. Every interfering write cost exactly one
   * more round.
   */
  lemma {:induction false} TryApplyWritesLatest<D, E>(decode: seq<Byte> -> Result<D, Read.ReadError<NtStatus>>,
                                                      f: D -> Result<seq<Byte>, E>, maxSize: nat, tooLarge: ErrorStatus,
                                                      s: Snapshot, others: seq<seq<Byte>>)
    ensures var run := TryApplyRun(decode, f, maxSize, tooLarge, s, others);
      var latest := WriteAll(s, others);
      run.result.Ok? ==>
        && QueryOn(decode, latest).Ok?
        && |run.seen| == |others| + 1
        && run.seen[|others|] == QueryOn(decode, latest).value.0
        && f(run.seen[|others|]) == Ok(run.result.value)
        && run.final == Snapshot(true, run.result.value, NextStamp(latest.stamp))
        && |run.result.value| <= maxSize
    decreases |others|
  {
    var q := QueryOn(decode, s);
    if others != [] && q.Ok? && f(q.value.0).Ok? {
      var s1 := UpdateAt(s, others[0], 0, 0).0;
      var s2 := UpdateWithin(s1, maxSize, tooLarge, f(q.value.0).value, q.value.1, 1).0;
      assert s2 == s1;
      TryApplyWritesLatest(decode, f, maxSize, tooLarge, s2, others[1..]);
    }
  }

  /**
   * Without interference `try_apply_as` is one round: a query error, or a transform error with no
   * write, or the transformed value written one stamp later and returned if it fits the maximum
   * size, or the kernel's `tooLarge` with no write if it does not.
   */
  lemma TryApplyAlone<D, E>(decode: seq<Byte> -> Result<D, Read.ReadError<NtStatus>>, f: D -> Result<seq<Byte>, E>,
                            maxSize: nat, tooLarge: ErrorStatus, s: Snapshot)
    ensures var run := TryApplyRun(decode, f, maxSize, tooLarge, s, []);
      var q := QueryOn(decode, s);
      && (q.Err? ==> run == Run(Err(QueryFailed(q.error)), s, []))
      && (q.Ok? && f(q.value.0).Err? ==> run == Run(Err(Other(f(q.value.0).error)), s, [q.value.0]))
      && (q.Ok? && f(q.value.0).Ok? && |f(q.value.0).value| <= maxSize ==>
            run == Run(Ok(f(q.value.0).value), Snapshot(true, f(q.value.0).value, NextStamp(s.stamp)), [q.value.0]))
      && (q.Ok? && f(q.value.0).Ok? && |f(q.value.0).value| > maxSize ==>
            run == Run(Err(UpdateFailed(tooLarge)), s, [q.value.0]))
  {
  }
}

=== FILE: arith.dfy ===
/** Facts about multiplication and Euclidean division by an element size. */
module Arith {
  lemma MulAtLeast(x: int, b: int)
    requires x >= 1 && b > 0
    ensures x * b >= b
  {
    if x > 1 {
      MulAtLeast(x - 1, b);
      assert x * b == (x - 1) * b + b;
    }
  }

  /** Euclidean division has one quotient and one remainder. */
  lemma DivModUnique(a: int, b: int, q: int, r: int)
    requires b > 0 && 0 <= r < b && a == q * b + r
    ensures a / b == q && a % b == r
  {
    var q', r' := a / b, a % b;
    assert a == q' * b + r';
    if q' > q {
      assert (q' - q) * b == r - r';
      MulAtLeast(q' - q, b);
    } else if q' < q {
      assert (q - q') * b == r' - r;
      MulAtLeast(q - q', b);
    }
  }

  /** Removing one element's worth of bytes from a multiple leaves a multiple with one element less. */
  lemma DivStep(n: nat, size: nat)
    requires size > 0 && n >= size && n % size == 0
    ensures (n - size) % size == 0 && (n - size) / size == n / size - 1
  {
    var q := n / size;
    assert n == q * size;
    assert n - size == (q - 1) * size + 0;
    DivModUnique(n - size, size, q - 1, 0);
  }

  /** Multiplying by a positive size keeps the order of element counts, both ways. */
  lemma MulMonotone(a: nat, b: nat, size: nat)
    requires size > 0
    ensures a <= b <==> a * size <= b * size
  {
    if a < b {
      MulAtLeast(b - a, size);
      assert b * size - a * size == (b - a) * size;
    } else if b < a {
      MulAtLeast(a - b, size);
      assert a * size - b * size == (a - b) * size;
    }
  }

  /** A size that is a multiple of the element size holds `size / k` elements, no more. */
  lemma ElementCount(size: nat, k: nat, cap: nat)
    requires k > 0 && size % k == 0
    ensures size == (size / k) * k
    ensures size / k <= size
    ensures size / k <= cap <==> size <= cap * k
  {
    var len := size / k;
    assert size == len * k;
    MulMonotone(len, cap, k);
    if len > 0 {
      MulAtLeast(k, len);
    }
  }
}

=== FILE: buffer.dfy ===
/**
 * `FromByteSource` (src/buffer.rs): decoding a value, a boxed value or a boxed slice from a
 * `ByteSource`, which is either a buffer whose size is known up front or a closure that reports
 * the size only after it has been called.
 */
module Buffer {
  import opened Wrappers
  import opened Arith
  import opened Bytes
  import opened Replies
  import VecCapacity

  /**
   * A `ByteSource`: `BufferByteSource` holds bytes of known size; `FnByteSource` is a closure
   * scripted by its replies (the metadata of a reply is unused here).
   */
  datatype Source<E> = BufferSource(data: seq<Byte>) | FnSource(script: seq<Reply<(), E>>)

  predicate WellFormed<E>(source: Source<E>)
  {
    source.FnSource? ==> |source.script| > 0
  }

  /** `FromByteSourceError`. */
  datatype SourceError<E> = ReadFailed(error: E) | WrongSize | Invalid

  /** A decoding result together with the byte sizes of the `read` calls made on the source. */
  datatype Outcome<T, E> = Outcome(result: Result<T, SourceError<E>>, calls: seq<nat>)

  /** `ByteSource::known_size`. */
  function KnownSize<E>(source: Source<E>): (r: Option<nat>)
    ensures r.Some? <==> source.BufferSource?
    ensures r.Some? ==> r.value == |source.data|
  {
    match source
    case BufferSource(data) => Some(|data|)
    case FnSource(_) => None
  }

  /**
   * `read`: fills a buffer of `n` bytes. A known size other than `n` is refused before the source
   * is read; an unknown size is read first and refused afterwards.
   */
  function ReadBits<E>(source: Source<E>, n: nat): (r: Outcome<seq<Byte>, E>)
    requires WellFormed(source)
    ensures r.result.Ok? ==> |r.result.value| == n
    ensures r.result.Ok? ==> r.calls == [n]
    ensures KnownSize(source).Some? && KnownSize(source).value != n ==> r == Outcome(Err(WrongSize), [])
    ensures KnownSize(source) == Some(n) ==> r == Outcome(Ok(source.data), [n])
    ensures source.FnSource? ==> r.calls == [n]
    ensures source.FnSource? ==>
      (r.result.Ok? <==> (ReplyAt(source.script, 0).Reply? && |ReplyAt(source.script, 0).data| == n))
    ensures source.FnSource? && ReplyAt(source.script, 0).Failure? ==>
      r.result == Err(ReadFailed(ReplyAt(source.script, 0).error))
  {
    match source
    case BufferSource(data) =>
      if |data| == n then Outcome(Ok(data), [n]) else Outcome(Err(WrongSize), [])
    case FnSource(script) =>
      match ReplyAt(script, 0)
      case Failure(e) => Outcome(Err(ReadFailed(e)), [n])
      case Reply(data, _) =>
        if |data| != n then Outcome(Err(WrongSize), [n]) else Outcome(Ok(Copied(data, n)), [n])
  }

  /**
   * `FromByteSource for T` and `FromByteSource<Boxed> for Box<T>`: read the bits of `T`, then
   * check that they are a valid bit pattern.
   */
  function ValueFromSource<E>(t: Checked, source: Source<E>): (r: Outcome<seq<Byte>, E>)
    requires WellFormed(source)
    ensures r.calls == ReadBits(source, SizeOf(t)).calls
    ensures ReadBits(source, SizeOf(t)).result.Err? ==> r.result == ReadBits(source, SizeOf(t)).result
    ensures r.result.Ok? <==>
      (ReadBits(source, SizeOf(t)).result.Ok? && IsValidBitPattern(t, ReadBits(source, SizeOf(t)).result.value))
    ensures r.result == Err(Invalid) <==>
      (ReadBits(source, SizeOf(t)).result.Ok? && !IsValidBitPattern(t, ReadBits(source, SizeOf(t)).result.value))
    ensures r.result.Ok? ==> r.result.value == ReadBits(source, SizeOf(t)).result.value
  {
    var read := ReadBits(source, SizeOf(t));
    match read.result
    case Err(e) => Outcome(Err(e), read.calls)
    case Ok(bits) =>
      if IsValidBitPattern(t, bits) then Outcome(Ok(bits), read.calls) else Outcome(Err(Invalid), read.calls)
  }

  /**
   * The unknown-size loop of `FromByteSource for Box<[T]>` as written: a reply that does not fit
   * makes it call `data.reserve(len - data.capacity())` on the empty vector. `fuel` bounds the
   * number of reader calls; `None` means the loop was still running when it ran out.
   */
  function SliceLoopAsWritten<E>(k: nat, script: seq<Reply<(), E>>, i: nat, cap: nat, fuel: nat): (r: Option<Outcome<seq<seq<Byte>>, E>>)
    requires |script| > 0 && k > 0
    ensures r.Some? ==> |r.value.calls| >= 1 && r.value.calls[0] == cap * k
    decreases fuel
  {
    if fuel == 0 then None
    else
      match ReplyAt(script, i)
      case Failure(e) => Some(Outcome(Err(ReadFailed(e)), [cap * k]))
      case Reply(data, _) =>
        if |data| % k != 0 then Some(Outcome(Err(WrongSize), [cap * k]))
        else
          var len := |data| / k;
          if len <= cap then Some(Outcome(Ok(Chunks(Copied(data, cap * k), k)), [cap * k]))
          else
            match SliceLoopAsWritten(k, script, i + 1, VecCapacity.Reserve(0, cap, len - cap, k), fuel - 1)
            case None => None
            case Some(next) => Some(Outcome(next.result, [cap * k] + next.calls))
  }

  /**
   * The same loop with the corrected reservation that makes room for `len` elements,
   * `reserve(len)` (the vector's length is 0), as the reader loop of src/read.rs does; the source
   * of this loop reserves `len - capacity`, which `SliceLoopAsWritten` follows.
   */
  function SliceLoop<E>(k: nat, script: seq<Reply<(), E>>, i: nat, cap: nat): (r: Outcome<seq<seq<Byte>>, E>)
    requires |script| > 0 && k > 0
    ensures |r.calls| >= 1 && r.calls[0] == cap * k
    decreases Bound(script, cap)
  {
    match ReplyAt(script, i)
    case Failure(e) => Outcome(Err(ReadFailed(e)), [cap * k])
    case Reply(data, _) =>
      if |data| % k != 0 then Outcome(Err(WrongSize), [cap * k])
      else
        var len := |data| / k;
        ElementCount(|data|, k, cap);
        if len <= cap then Outcome(Ok(Chunks(Copied(data, cap * k), k)), [cap * k])
        else
          var next := SliceLoop(k, script, i + 1, VecCapacity.Reserve(0, cap, len, k));
          Outcome(next.result, [cap * k] + next.calls)
  }

  /**
   * The corrected loop run in place: `capacity` is the vector's, grown by each reservation of
   * `len` elements (the source reserves `len - capacity`).
   */
  method SliceFromFnSource<E>(k: nat, script: seq<Reply<(), E>>) returns (r: Outcome<seq<seq<Byte>>, E>)
    requires |script| > 0 && k > 0
    ensures r == SliceLoop(k, script, 0, 0)
  {
    var capacity: nat := 0;
    var i: nat := 0;
    var calls: seq<nat> := [];
    ghost var whole := SliceLoop(k, script, 0, 0);
    while true
      invariant whole == Outcome(SliceLoop(k, script, i, capacity).result, calls + SliceLoop(k, script, i, capacity).calls)
      decreases Bound(script, capacity)
    {
      var reply := ReplyAt(script, i);
      var offered: nat := capacity * k;
      calls := calls + [offered];
      if reply.Failure? {
        return Outcome(Err(ReadFailed(reply.error)), calls);
      }
      var size := |reply.data|;
      if size % k != 0 {
        return Outcome(Err(WrongSize), calls);
      }
      var len := size / k;
      ElementCount(size, k, capacity);
      if len <= capacity {
        return Outcome(Ok(Chunks(Copied(reply.data, capacity * k), k)), calls);
      }
      capacity := VecCapacity.Reserve(0, capacity, len, k);
      i := i + 1;
    }
  }

  /**
   * The elements `FromByteSource for Box<[T]>` reads before checking them: for a zero-sized
   * element only a size of 0 is accepted (asked of the source with a read of 0 bytes when it is not
   * known); a known size must be a multiple of the element size and is read in one call; an
   * unknown size goes through the growing loop.
   */
  function SliceBits<E>(k: nat, source: Source<E>): (r: Outcome<seq<seq<Byte>>, E>)
    requires WellFormed(source)
  {
    if k == 0 then
      match source
      case BufferSource(data) =>
        if |data| == 0 then Outcome(Ok([]), []) else Outcome(Err(WrongSize), [])
      case FnSource(script) =>
        match ReplyAt(script, 0)
        case Failure(e) => Outcome(Err(ReadFailed(e)), [0])
        case Reply(data, _) =>
          if |data| == 0 then Outcome(Ok([]), [0]) else Outcome(Err(WrongSize), [0])
    else
      match source
      case BufferSource(data) =>
        if |data| % k == 0 then Outcome(Ok(Chunks(data, k)), [|data|]) else Outcome(Err(WrongSize), [])
      case FnSource(script) => SliceLoop(k, script, 0, 0)
  }

  /**
   * `FromByteSource for Box<[T]>`: the elements read, provided every one of them is valid; a
   * closure source is read by the corrected loop `SliceLoop`.
   */
  function SliceFromSource<E>(t: Checked, source: Source<E>): (r: Outcome<seq<seq<Byte>>, E>)
    requires WellFormed(source)
    ensures r.calls == SliceBits(SizeOf(t), source).calls
    ensures SliceBits(SizeOf(t), source).result.Err? ==> r.result == SliceBits(SizeOf(t), source).result
    ensures r.result.Ok? <==>
      (SliceBits(SizeOf(t), source).result.Ok? && AllValid(t, SliceBits(SizeOf(t), source).result.value))
    ensures r.result.Ok? ==> r.result.value == SliceBits(SizeOf(t), source).result.value
    ensures r.result.Err? && SliceBits(SizeOf(t), source).result.Ok? ==> r.result == Err(Invalid)
  {
    var read := SliceBits(SizeOf(t), source);
    match read.result
    case Err(e) => Outcome(Err(e), read.calls)
    case Ok(elems) =>
      if AllValid(t, elems) then Outcome(Ok(elems), read.calls) else Outcome(Err(Invalid), read.calls)
  }

  /** A closure reporting 2 bytes, then 10 bytes on every later call, for 2-byte elements. */
  function GrowingScript<E>(first: seq<Byte>, second: seq<Byte>): seq<Reply<(), E>>
  {
    [Reply(first, ()), Reply(second, ())]
  }

  lemma {:induction false} AsWrittenStuckAtFour<E>(second: seq<Byte>, i: nat, fuel: nat, first: seq<Byte>)
    requires |second| == 10 && i >= 1
    ensures SliceLoopAsWritten(2, GrowingScript<E>(first, second), i, 4, fuel).None?
    decreases fuel
  {
    var script := GrowingScript<E>(first, second);
    if fuel > 0 {
      assert ReplyAt(script, i) == Reply(second, ());
      assert VecCapacity.Reserve(0, 4, 5 - 4, 2) == 4;
      AsWrittenStuckAtFour<E>(second, i + 1, fuel - 1, first);
    }
  }

  /**
   * As written, the loop never ends on the growing closure: the first call grows the capacity from
   * 0 to 4 elements, after which 5 elements do not fit but `reserve(5 - 4)` finds room for one more
   * and leaves the capacity at 4, so every further call asks for the same 8 bytes.
   */
  lemma AsWrittenNeverEnds<E>(first: seq<Byte>, second: seq<Byte>, fuel: nat)
    requires |first| == 2 && |second| == 10
    ensures SliceLoopAsWritten(2, GrowingScript<E>(first, second), 0, 0, fuel).None?
  {
    var script := GrowingScript<E>(first, second);
    if fuel > 0 {
      assert ReplyAt(script, 0) == Reply(first, ());
      assert VecCapacity.Reserve(0, 0, 1 - 0, 2) == 4;
      AsWrittenStuckAtFour<E>(second, 1, fuel - 1, first);
    }
  }

  /** With `reserve(len)` the same closure is read three times and its last reply is returned. */
  lemma CorrectedEnds<E>(first: seq<Byte>, second: seq<Byte>)
    requires |first| == 2 && |second| == 10
    ensures SliceLoop(2, GrowingScript<E>(first, second), 0, 0) == Outcome(Ok(Chunks(second, 2)), [0, 8, 16])
  {
    var script := GrowingScript<E>(first, second);
    assert ReplyAt(script, 2) == Reply(second, ());
    assert SliceLoop(2, script, 2, 8) == Outcome(Ok(Chunks(second, 2)), [16]);
    assert ReplyAt(script, 1) == Reply(second, ());
    assert VecCapacity.Reserve(0, 4, 5, 2) == 8;
    assert SliceLoop(2, script, 1, 4) == Outcome(Ok(Chunks(second, 2)), [8, 16]);
    assert ReplyAt(script, 0) == Reply(first, ());
    assert VecCapacity.Reserve(0, 0, 1, 2) == 4;
  }

  /** Each call of the corrected loop after the first offers strictly more room: it always ends. */
  lemma {:induction false} SliceLoopCallsGrow<E>(k: nat, script: seq<Reply<(), E>>, i: nat, cap: nat, j: nat)
    requires |script| > 0 && k > 0 && j + 1 < |SliceLoop(k, script, i, cap).calls|
    ensures SliceLoop(k, script, i, cap).calls[j] < SliceLoop(k, script, i, cap).calls[j + 1]
    ensures ReplyAt(script, i + j).Reply? && |ReplyAt(script, i + j).data| > SliceLoop(k, script, i, cap).calls[j]
    decreases j
  {
    var reply := ReplyAt(script, i);
    var r := SliceLoop(k, script, i, cap);
    if reply.Reply? && |reply.data| % k == 0 {
      var len := |reply.data| / k;
      ElementCount(|reply.data|, k, cap);
      if len > cap {
        var cap' := VecCapacity.Reserve(0, cap, len, k);
        var next := SliceLoop(k, script, i + 1, cap');
        assert r.calls == [cap * k] + next.calls;
        if j == 0 {
          MulMonotone(cap', cap, k);
        } else {
          SliceLoopCallsGrow(k, script, i + 1, cap', j - 1);
          assert i + j == (i + 1) + (j - 1);
        }
      }
    }
  }

  /** A successful loop returns exactly the bytes of the reply of its last call. */
  lemma {:induction false} SliceLoopReturnsLastReply<E>(k: nat, script: seq<Reply<(), E>>, i: nat, cap: nat)
    requires |script| > 0 && k > 0
    ensures var r := SliceLoop(k, script, i, cap);
      var last := ReplyAt(script, i + |r.calls| - 1);
      r.result.Ok? ==> (last.Reply? && Flatten(r.result.value) == last.data
                        && |r.result.value| == |last.data| / k)
    decreases Bound(script, cap)
  {
    var reply := ReplyAt(script, i);
    if reply.Reply? && |reply.data| % k == 0 {
      var len := |reply.data| / k;
      ElementCount(|reply.data|, k, cap);
      if len > cap {
        SliceLoopReturnsLastReply(k, script, i + 1, VecCapacity.Reserve(0, cap, len, k));
      } else {
        FlattenChunks(reply.data, k);
        ChunksLength(reply.data, k);
      }
    }
  }

  /** A buffer source gives the elements of its bytes, if its size is a whole number of them. */
  lemma SliceFromBufferSource<E>(t: Checked, data: seq<Byte>)
    ensures var r := SliceFromSource<E>(t, BufferSource(data));
      && (SizeOf(t) == 0 ==> (r.result.Ok? <==> |data| == 0) && (r.result.Ok? ==> r.result.value == []))
      && (SizeOf(t) > 0 ==> (r.result.Ok? <==> |data| % SizeOf(t) == 0 && AllValid(t, Chunks(data, SizeOf(t)))))
      && (SizeOf(t) > 0 && |data| % SizeOf(t) != 0 ==> r == Outcome(Err(WrongSize), []))
      && (SizeOf(t) > 0 && r.result.Ok? ==>
            Flatten(r.result.value) == data && |r.result.value| == |data| / SizeOf(t) && r.calls == [|data|])
  {
    if SizeOf(t) > 0 && |data| % SizeOf(t) == 0 {
      FlattenChunks(data, SizeOf(t));
      ChunksLength(data, SizeOf(t));
    }
  }

  /** A closure that reports the same bytes on every call: the corrected loop gives their elements. */
  lemma {:induction false} SliceLoopStable<E>(k: nat, data: seq<Byte>, i: nat, cap: nat)
    requires k > 0
    ensures SliceLoop<E>(k, [Reply(data, ())], i, cap).result
      == if |data| % k == 0 then Ok(Chunks(data, k)) else Err(WrongSize)
    decreases Bound<(), E>([Reply(data, ())], cap)
  {
    if |data| % k == 0 {
      var len := |data| / k;
      ElementCount(|data|, k, cap);
      if len > cap {
        SliceLoopStable<E>(k, data, i + 1, VecCapacity.Reserve(0, cap, len, k));
      }
    }
  }

  /**
   * Both kinds of source agree: a closure that reports the same bytes on every call decodes to what
   * a buffer of those bytes decodes to, for a single value and for a slice.
   */
  lemma SourcesAgree<E>(t: Checked, data: seq<Byte>)
    ensures ValueFromSource<E>(t, FnSource([Reply(data, ())])).result == ValueFromSource<E>(t, BufferSource(data)).result
    ensures SliceFromSource<E>(t, FnSource([Reply(data, ())])).result == SliceFromSource<E>(t, BufferSource(data)).result
  {
    if SizeOf(t) > 0 {
      SliceLoopStable<E>(SizeOf(t), data, 0, 0);
    }
  }
}

=== FILE: bytes.dfy ===
/**
 * `CheckedBitPattern` (src/bytes.rs): a type is read through its `Bits` type, a byte pattern of a
 * fixed size, and a predicate deciding which patterns are values of the type.
 */
module Bytes {
  import opened Wrappers
  import opened Arith

  type Byte = bv8

  /**
   * The implementations of `CheckedBitPattern` in the crate: the blanket one over `AnyBitPattern`
   * types (`Bits = Self`, of the given size), `bool` (`Bits = u8`), `char` (`Bits = u32`), and one
   * delegated to a bytemuck implementation, which brings its own size and predicate.
   */
  datatype Checked =
    | AnyBitPattern(size: nat)
    | Bool
    | Char
    | Bytemuck(bitsSize: nat, isValid: seq<Byte> -> bool)

  /** `mem::size_of::<T::Bits>()`. */
  function SizeOf(t: Checked): nat
  {
    match t
    case AnyBitPattern(size) => size
    case Bool => 1
    case Char => 4
    case Bytemuck(size, _) => size
  }

  /** The value of a little-endian byte pattern, as a `u32` is laid out on Windows targets. */
  function LittleEndian(bits: seq<Byte>): (v: nat)
    ensures v < Power256(|bits|)
  {
    if bits == [] then 0 else bits[0] as nat + 256 * LittleEndian(bits[1..])
  }

  function Power256(n: nat): (p: nat)
    ensures p > 0
  {
    if n == 0 then 1 else 256 * Power256(n - 1)
  }

  /** The code of a character. */
  function Code(c: char): int { c as int }

  /** `char::from_u32`: a value is a `char` iff it is a Unicode scalar value. */
  function CharFromU32(v: nat): (r: Option<char>)
    ensures r.Some? ==> r.value as int == v
  {
    if v < 0xD800 || (0xE000 <= v < 0x11_0000) then Some(v as char) else None
  }

  /** `<T as CheckedBitPattern>::is_valid_bit_pattern`. */
  predicate IsValidBitPattern(t: Checked, bits: seq<Byte>)
    requires |bits| == SizeOf(t)
  {
    match t
    case AnyBitPattern(_) => true
    case Bool => bits[0] == 0 || bits[0] == 1
    case Char => CharFromU32(LittleEndian(bits)).Some?
    case Bytemuck(_, isValid) => isValid(bits)
  }

  /** Every pattern of an `AnyBitPattern` type is valid. */
  lemma AnyBitPatternAlwaysValid(size: nat, bits: seq<Byte>)
    requires |bits| == size
    ensures IsValidBitPattern(AnyBitPattern(size), bits)
  {
  }

  /** A `bool` is read from one byte, and exactly the bytes 0 and 1 are booleans. */
  lemma BoolValidity(b: Byte)
    ensures IsValidBitPattern(Bool, [b]) <==> b as int in {0, 1}
  {
  }

  /**
   * A `char` is read from four bytes, and a pattern is valid exactly when its value is the code of
   * some character: at most 0x10FFFF and not a surrogate.
   */
  lemma CharValidity(bits: seq<Byte>)
    requires |bits| == 4
    ensures IsValidBitPattern(Char, bits) <==> exists c: char :: Code(c) == LittleEndian(bits)
  {
    var v := LittleEndian(bits);
    if exists c: char :: Code(c) == v {
      var c: char :| Code(c) == v;
      assert CharFromU32(v).Some?;
    }
    if CharFromU32(v).Some? {
      assert Code(CharFromU32(v).value) == v;
    }
  }

  /** `char::from_u32` is the inverse of taking a character's code. */
  lemma CharRoundTrip(c: char)
    ensures CharFromU32(c as int) == Some(c)
  {
  }

  /** A delegated implementation keeps the bytemuck predicate unchanged. */
  lemma BytemuckDelegates(size: nat, isValid: seq<Byte> -> bool, bits: seq<Byte>)
    requires |bits| == size
    ensures IsValidBitPattern(Bytemuck(size, isValid), bits) == isValid(bits)
  {
  }

  /** The one-byte type of tests/bytes.rs, valid below 128, delegated through bytemuck. */
  function Below128(): (t: Checked)
    ensures SizeOf(t) == 1
  {
    Bytemuck(1, (bits: seq<Byte>) => |bits| == 1 && bits[0] < 128)
  }

  lemma Below128Boundary()
    ensures IsValidBitPattern(Below128(), [127])
    ensures !IsValidBitPattern(Below128(), [128])
  {
  }

  /** The `T::Bits` elements of a byte buffer whose size is a multiple of the element size. */
  function Chunks(data: seq<Byte>, size: nat): (elems: seq<seq<Byte>>)
    requires size > 0 && |data| % size == 0
    ensures forall i :: 0 <= i < |elems| ==> |elems[i]| == size
    decreases |data|
  {
    if |data| == 0 then []
    else
      DivStep(|data|, size);
      [data[..size]] + Chunks(data[size..], size)
  }

  /** A buffer of `size` bytes holds `size / k` elements. */
  lemma {:induction false} ChunksLength(data: seq<Byte>, size: nat)
    requires size > 0 && |data| % size == 0
    ensures |Chunks(data, size)| == |data| / size
    decreases |data|
  {
    if |data| > 0 {
      DivStep(|data|, size);
      ChunksLength(data[size..], size);
    }
  }

  /** `buffer.iter().all(T::is_valid_bit_pattern)`. */
  predicate AllValid(t: Checked, elems: seq<seq<Byte>>)
  {
    forall i :: 0 <= i < |elems| ==> |elems[i]| == SizeOf(t) && IsValidBitPattern(t, elems[i])
  }

  /** Concatenating the elements gives back the buffer. */
  function Flatten(elems: seq<seq<Byte>>): seq<Byte>
  {
    if elems == [] then [] else elems[0] + Flatten(elems[1..])
  }

  lemma {:induction false} FlattenChunks(data: seq<Byte>, size: nat)
    requires size > 0 && |data| % size == 0
    ensures Flatten(Chunks(data, size)) == data
    decreases |data|
  {
    if |data| > 0 {
      DivStep(|data|, size);
      var c := Chunks(data, size);
      assert c[1..] == Chunks(data[size..], size);
      FlattenChunks(data[size..], size);
      assert data[..size] + data[size..] == data;
    }
  }
}

=== FILE: change_stamp.dfy ===
/**
 * The value types as src/change_stamp.rs defines them: `WnfChangeStamp` wrapping a `u32`, and
 * `WnfStampedData<T>` built with `from_data_and_change_stamp` (src/data.rs defines the same pair).
 */
module ChangeStamps {
  import opened Kernel

  /** `WnfChangeStamp(u32)`. */
  datatype ChangeStamp = ChangeStamp(value: Stamp)

  /** `WnfChangeStamp::default()` (derived): the stamp 0. */
  function Default(): (c: ChangeStamp)
    ensures ToU32(c) == 0
  {
    ChangeStamp(0)
  }

  /** `From<u32> for WnfChangeStamp`. */
  function FromU32(value: Stamp): ChangeStamp
  {
    ChangeStamp(value)
  }

  /** `From<WnfChangeStamp> for u32`. */
  function ToU32(c: ChangeStamp): Stamp
  {
    c.value
  }

  /** The conversions are mutual inverses. */
  lemma ConversionsInverse(value: Stamp, c: ChangeStamp)
    ensures ToU32(FromU32(value)) == value
    ensures FromU32(ToU32(c)) == c
  {
  }

  /** `WnfStampedData<T>`; equality (derived) compares both fields. */
  datatype StampedData<T> = StampedData(data: T, changeStamp: ChangeStamp)

  /** `WnfStampedData::from_data_and_change_stamp`, with the stamp given as a `u32`. */
  function FromDataAndChangeStamp<T>(data: T, changeStamp: Stamp): (s: StampedData<T>)
    ensures s.data == data && ToU32(s.changeStamp) == changeStamp
  {
    StampedData(data, FromU32(changeStamp))
  }

  /** Stamped data built from two pairs are equal exactly when the data and the stamps are. */
  lemma StampedDataEquality<T>(a: T, sa: Stamp, b: T, sb: Stamp)
    ensures FromDataAndChangeStamp(a, sa) == FromDataAndChangeStamp(b, sb) <==> a == b && sa == sb
  {
  }
}

=== FILE: data.dfy ===
/**
 * The value types of the `Wnf*` generation (src/data.rs): a change stamp wrapping a `u32`, data
 * paired with the stamp it was read at, and the size and stamp reported by `info`.
 */
module Data {
  import opened Kernel

  /** `WnfChangeStamp(u32)`. */
  datatype ChangeStamp = ChangeStamp(value: Stamp)

  /** `WnfChangeStamp::default()`, the stamp of a state that was never written. */
  function Default(): (c: ChangeStamp)
    ensures ToU32(c) == 0
  {
    ChangeStamp(0)
  }

  /** `From<u32> for WnfChangeStamp`. */
  function FromU32(value: Stamp): (c: ChangeStamp)
  {
    ChangeStamp(value)
  }

  /** `From<WnfChangeStamp> for u32`. */
  function ToU32(c: ChangeStamp): (value: Stamp)
  {
    c.value
  }

  /** The two conversions are inverse to each other, so distinct stamps stay distinct. */
  lemma ChangeStampRoundTrip(value: Stamp, c: ChangeStamp)
    ensures ToU32(FromU32(value)) == value
    ensures FromU32(ToU32(c)) == c
    ensures FromU32(value) == c <==> value == ToU32(c)
  {
  }

  /** `WnfStampedData<T>`. */
  datatype StampedData<T> = StampedData(data: T, changeStamp: ChangeStamp)

  /** `WnfStampedData::from_data_change_stamp`, with the stamp given as a `u32`. */
  function FromDataChangeStamp<T>(data: T, changeStamp: Stamp): (s: StampedData<T>)
    ensures IntoDataChangeStamp(s) == (data, FromU32(changeStamp))
  {
    StampedData(data, FromU32(changeStamp))
  }

  /** `into_data_change_stamp`. */
  function IntoDataChangeStamp<T>(s: StampedData<T>): (T, ChangeStamp)
  {
    (s.data, s.changeStamp)
  }

  /** `into_data` (and `data`, which borrows the same field). */
  function IntoData<T>(s: StampedData<T>): T
  {
    s.data
  }

  /** Taking stamped data apart and putting it back together gives what it was; each accessor returns its field. */
  lemma StampedDataRoundTrip<T>(data: T, changeStamp: Stamp, s: StampedData<T>)
    ensures var (d, c) := IntoDataChangeStamp(s); FromDataChangeStamp(d, ToU32(c)) == s
    ensures IntoData(FromDataChangeStamp(data, changeStamp)) == data
    ensures ToU32(FromDataChangeStamp(data, changeStamp).changeStamp) == changeStamp
  {
  }

  /** A byte size as the crate stores it: a `u32`. */
  type Size = x: int | 0 <= x < 0x1_0000_0000

  /** `WnfStateInfo`: the size of the data and its change stamp. */
  datatype StateInfo = StateInfo(size: Size, changeStamp: ChangeStamp)

  /** `WnfStateInfo::from_size_change_stamp`. */
  function FromSizeChangeStamp(size: Size, changeStamp: ChangeStamp): (i: StateInfo)
    ensures i.size == size && i.changeStamp == changeStamp
  {
    StateInfo(size, changeStamp)
  }
}

=== FILE: kernel.dfy ===
/**
 * The WNF store behind the native calls (`NtQueryWnfStateData`, `NtUpdateWnfStateData`,
 * `NtDeleteWnfStateName`), as far as the crate documents and tests rely on it: a state holds a
 * byte buffer and a 32-bit change stamp, and keeps the type id and the maximum data size it was
 * created with; every write that happens advances the stamp by one; a conditional write whose
 * expected stamp is not the current one is refused with `STATUS_UNSUCCESSFUL`; a write of more
 * bytes than the maximum size is refused with an error status; a query with a buffer that is too
 * small reports the full size with `STATUS_BUFFER_TOO_SMALL`; a query or write that passes a type
 * id other than the state's is refused with an error status.
 */
module Kernel {
  import opened Bytes
  import TypeIds

  /** `NTSTATUS`: a signed 32-bit code, negative on failure. */
  newtype NtStatus = x: int | -0x8000_0000 <= x < 0x8000_0000

  const STATUS_SUCCESS: NtStatus := 0
  /** 0xC0000001 read as a signed 32-bit value. */
  const STATUS_UNSUCCESSFUL: NtStatus := -0x3FFF_FFFF
  /** 0xC0000023 read as a signed 32-bit value. */
  const STATUS_BUFFER_TOO_SMALL: NtStatus := -0x3FFF_FFDD
  /** 0xC0000034 read as a signed 32-bit value. */
  const STATUS_OBJECT_NAME_NOT_FOUND: NtStatus := -0x3FFF_FFCC

  /** `NTSTATUS::is_err`. */
  predicate IsErr(status: NtStatus)
  {
    status < 0
  }

  /**
   * A failure that `update` does not read as a stale stamp: an error status other than
   * `STATUS_UNSUCCESSFUL`. The kernel's answer to data over a state's maximum size is one; the
   * crate does not say which.
   */
  type ErrorStatus = status: NtStatus | IsErr(status) && status != STATUS_UNSUCCESSFUL
    witness STATUS_BUFFER_TOO_SMALL

  /** `MAXIMUM_STATE_SIZE` (src/manage.rs): the largest state the kernel allows, and the default maximum size. */
  const MAXIMUM_STATE_SIZE: nat := 0x1000

  const STAMP_MODULUS: nat := 0x1_0000_0000

  /** A change stamp, a `u32`. */
  type Stamp = x: nat | x < STAMP_MODULUS

  /** The stamp after one more write: a `u32` counter that wraps around. */
  function NextStamp(s: Stamp): (n: Stamp)
    ensures n != s
    ensures s + 1 < STAMP_MODULUS ==> n == s + 1
  {
    (s + 1) % STAMP_MODULUS
  }

  /** What a state holds at one moment; `live` is false once the state name has been deleted. */
  datatype Snapshot = Snapshot(live: bool, data: seq<Byte>, stamp: Stamp)

  /** The outcome of `NtQueryWnfStateData`: status, the size written back, the stamp and the bytes copied. */
  datatype QueryReply = QueryReply(status: NtStatus, size: nat, stamp: Stamp, bytes: seq<Byte>)

  /**
   * `NtQueryWnfStateData` with a buffer of `bufferSize` bytes: the data is copied if it fits;
   * otherwise only its size is reported. A deleted state fails and leaves the size and stamp as the
   * caller initialised them.
   */
  function QueryAt(s: Snapshot, bufferSize: nat): (r: QueryReply)
    ensures !s.live ==> r == QueryReply(STATUS_OBJECT_NAME_NOT_FOUND, bufferSize, 0, [])
    ensures s.live ==> r.size == |s.data| && r.stamp == s.stamp
    ensures s.live ==> (r.status == STATUS_SUCCESS <==> |s.data| <= bufferSize)
    ensures s.live && |s.data| > bufferSize ==> r.status == STATUS_BUFFER_TOO_SMALL && r.bytes == []
    ensures r.status == STATUS_SUCCESS ==> r.bytes == s.data
  {
    if !s.live then QueryReply(STATUS_OBJECT_NAME_NOT_FOUND, bufferSize, 0, [])
    else if |s.data| <= bufferSize then QueryReply(STATUS_SUCCESS, |s.data|, s.stamp, s.data)
    else QueryReply(STATUS_BUFFER_TOO_SMALL, |s.data|, s.stamp, [])
  }

  /**
   * `NtUpdateWnfStateData`: with `checkStamp == 1` the write happens only if the current stamp is
   * `matchingStamp`, and is otherwise refused with `STATUS_UNSUCCESSFUL`; a write replaces the data
   * and advances the stamp.
   */
  function UpdateAt(s: Snapshot, buffer: seq<Byte>, matchingStamp: Stamp, checkStamp: nat): (r: (Snapshot, NtStatus))
    ensures !s.live ==> r == (s, STATUS_OBJECT_NAME_NOT_FOUND)
    ensures s.live && checkStamp == 1 && matchingStamp != s.stamp ==> r == (s, STATUS_UNSUCCESSFUL)
    ensures s.live && (checkStamp != 1 || matchingStamp == s.stamp) ==>
      r == (Snapshot(true, buffer, NextStamp(s.stamp)), STATUS_SUCCESS)
  {
    if !s.live then (s, STATUS_OBJECT_NAME_NOT_FOUND)
    else if checkStamp == 1 && matchingStamp != s.stamp then (s, STATUS_UNSUCCESSFUL)
    else (Snapshot(true, buffer, NextStamp(s.stamp)), STATUS_SUCCESS)
  }

  /**
   * `NtUpdateWnfStateData` on a state created with the maximum size `maxSize`: a live state refuses
   * more bytes than that with `tooLarge` and is left as it is; otherwise as `UpdateAt`.
   */
  function UpdateWithin(s: Snapshot, maxSize: nat, tooLarge: ErrorStatus, buffer: seq<Byte>, matchingStamp: Stamp,
                        checkStamp: nat): (Snapshot, NtStatus)
  {
    if s.live && |buffer| > maxSize then (s, tooLarge)
    else UpdateAt(s, buffer, matchingStamp, checkStamp)
  }

  /**
   * The size check: data within the maximum is written as by `UpdateAt`; larger data is refused
   * with `tooLarge` and nothing changes; so a state that holds no more than its maximum never does.
   */
  lemma WritesWithin(s: Snapshot, maxSize: nat, tooLarge: ErrorStatus, buffer: seq<Byte>, matchingStamp: Stamp, checkStamp: nat)
    ensures |buffer| <= maxSize || !s.live ==>
      UpdateWithin(s, maxSize, tooLarge, buffer, matchingStamp, checkStamp) == UpdateAt(s, buffer, matchingStamp, checkStamp)
    ensures s.live && |buffer| > maxSize ==> UpdateWithin(s, maxSize, tooLarge, buffer, matchingStamp, checkStamp) == (s, tooLarge)
    ensures |s.data| <= maxSize ==> |UpdateWithin(s, maxSize, tooLarge, buffer, matchingStamp, checkStamp).0.data| <= maxSize
    ensures !IsErr(UpdateWithin(s, maxSize, tooLarge, buffer, matchingStamp, checkStamp).1) ==> |buffer| <= maxSize
  {
  }

  /**
   * Whether a call that passes the type id `given` may touch a state created with `stateTypeId`: a
   * call without a type id (a null pointer) may; one with a type id only if it is the state's.
   */
  predicate TypeIdAccepted(stateTypeId: TypeIds.TypeId, given: TypeIds.TypeId)
  {
    given.guid.None? || given == stateTypeId
  }

  /**
   * `NtQueryWnfStateData` passing the type id `given`: a live state that does not accept it answers
   * with `refusal` and reports nothing; otherwise as `QueryAt`.
   */
  function QueryTyped(s: Snapshot, stateTypeId: TypeIds.TypeId, given: TypeIds.TypeId, refusal: NtStatus, bufferSize: nat): QueryReply
  {
    if s.live && !TypeIdAccepted(stateTypeId, given) then QueryReply(refusal, bufferSize, 0, [])
    else QueryAt(s, bufferSize)
  }

  /**
   * `NtUpdateWnfStateData` passing the type id `given` to a state created with `stateTypeId` and
   * `maxSize`: a live state that does not accept the type id is left as it is and the call fails
   * with `refusal`; otherwise as `UpdateWithin`.
   */
  function UpdateTyped(s: Snapshot, stateTypeId: TypeIds.TypeId, maxSize: nat, given: TypeIds.TypeId, refusal: NtStatus,
                       tooLarge: ErrorStatus, buffer: seq<Byte>, matchingStamp: Stamp, checkStamp: nat): (Snapshot, NtStatus)
  {
    if s.live && !TypeIdAccepted(stateTypeId, given) then (s, refusal)
    else UpdateWithin(s, maxSize, tooLarge, buffer, matchingStamp, checkStamp)
  }

  /**
   * The type-id check: a call without a type id, or with the state's own, behaves as the untyped
   * call; a call with another type id touches nothing on a live state and gets the refusal, both
   * for a query and for a write; a deleted state is not found either way.
   */
  lemma TypedCalls(s: Snapshot, stateTypeId: TypeIds.TypeId, maxSize: nat, given: TypeIds.TypeId, refusal: NtStatus,
                   tooLarge: ErrorStatus, bufferSize: nat, buffer: seq<Byte>, matchingStamp: Stamp, checkStamp: nat)
    ensures TypeIdAccepted(stateTypeId, TypeIds.NoType()) && TypeIdAccepted(stateTypeId, stateTypeId)
    ensures given.guid.Some? && given != stateTypeId ==> !TypeIdAccepted(stateTypeId, given)
    ensures TypeIdAccepted(stateTypeId, given) || !s.live ==>
      QueryTyped(s, stateTypeId, given, refusal, bufferSize) == QueryAt(s, bufferSize)
      && UpdateTyped(s, stateTypeId, maxSize, given, refusal, tooLarge, buffer, matchingStamp, checkStamp)
         == UpdateWithin(s, maxSize, tooLarge, buffer, matchingStamp, checkStamp)
    ensures s.live && !TypeIdAccepted(stateTypeId, given) ==>
      QueryTyped(s, stateTypeId, given, refusal, bufferSize).status == refusal
      && QueryTyped(s, stateTypeId, given, refusal, bufferSize).bytes == []
      && UpdateTyped(s, stateTypeId, maxSize, given, refusal, tooLarge, buffer, matchingStamp, checkStamp) == (s, refusal)
  {
  }

  /** One WNF state as the kernel keeps it. */
  class Store {
    var live: bool
    var data: seq<Byte>
    var stamp: Stamp
    /** The type id the state was created with. */
    const typeId: TypeIds.TypeId
    /** The maximum size of its data, in bytes, as it was created with. */
    const maxSize: nat

    function State(): Snapshot
      reads this
    {
      Snapshot(live, data, stamp)
    }

    /**
     * A freshly created state as `create_temporary` asks for it: no type id, the default maximum
     * size, empty, stamp 0.
     */
    constructor ()
      ensures State() == Snapshot(true, [], 0) && typeId == TypeIds.NoType() && maxSize == MAXIMUM_STATE_SIZE
    {
      live := true;
      data := [];
      stamp := 0;
      typeId := TypeIds.NoType();
      maxSize := MAXIMUM_STATE_SIZE;
    }

    /** A freshly created state with the type id `typeId` and the maximum size `maxSize`: empty, stamp 0. */
    constructor Typed(typeId: TypeIds.TypeId, maxSize: nat)
      ensures State() == Snapshot(true, [], 0) && this.typeId == typeId && this.maxSize == maxSize
    {
      live := true;
      data := [];
      stamp := 0;
      this.typeId := typeId;
      this.maxSize := maxSize;
    }

    method Query(bufferSize: nat) returns (reply: QueryReply)
      ensures reply == QueryAt(State(), bufferSize)
    {
      if !live {
        reply := QueryReply(STATUS_OBJECT_NAME_NOT_FOUND, bufferSize, 0, []);
      } else if |data| <= bufferSize {
        reply := QueryReply(STATUS_SUCCESS, |data|, stamp, data);
      } else {
        reply := QueryReply(STATUS_BUFFER_TOO_SMALL, |data|, stamp, []);
      }
    }

    /** `NtUpdateWnfStateData` without a type id; `tooLarge` is the answer to data over the maximum size. */
    method Update(tooLarge: ErrorStatus, buffer: seq<Byte>, matchingStamp: Stamp, checkStamp: nat) returns (status: NtStatus)
      modifies this
      ensures (State(), status) == UpdateWithin(old(State()), maxSize, tooLarge, buffer, matchingStamp, checkStamp)
    {
      if !live {
        status := STATUS_OBJECT_NAME_NOT_FOUND;
      } else if |buffer| > maxSize {
        status := tooLarge;
      } else if checkStamp == 1 && matchingStamp != stamp {
        status := STATUS_UNSUCCESSFUL;
      } else {
        data := buffer;
        stamp := NextStamp(stamp);
        status := STATUS_SUCCESS;
      }
    }

    /** `NtQueryWnfStateData` passing the type id `given`. */
    method QueryWithType(given: TypeIds.TypeId, refusal: NtStatus, bufferSize: nat) returns (reply: QueryReply)
      ensures reply == QueryTyped(State(), typeId, given, refusal, bufferSize)
    {
      if live && !TypeIdAccepted(typeId, given) {
        reply := QueryReply(refusal, bufferSize, 0, []);
      } else {
        reply := Query(bufferSize);
      }
    }

    /** `NtUpdateWnfStateData` passing the type id `given`. */
    method UpdateWithType(given: TypeIds.TypeId, refusal: NtStatus, tooLarge: ErrorStatus, buffer: seq<Byte>,
                          matchingStamp: Stamp, checkStamp: nat)
      returns (status: NtStatus)
      modifies this
      ensures (State(), status) == UpdateTyped(old(State()), typeId, maxSize, given, refusal, tooLarge, buffer, matchingStamp, checkStamp)
    {
      if live && !TypeIdAccepted(typeId, given) {
        status := refusal;
      } else {
        status := Update(tooLarge, buffer, matchingStamp, checkStamp);
      }
    }

    /** `NtDeleteWnfStateName`. */
    method Delete() returns (status: NtStatus)
      modifies this
      ensures old(live) ==> status == STATUS_SUCCESS && State() == old(State()).(live := false)
      ensures !old(live) ==> status == STATUS_OBJECT_NAME_NOT_FOUND && State() == old(State())
    {
      if live {
        live := false;
        status := STATUS_SUCCESS;
      } else {
        status := STATUS_OBJECT_NAME_NOT_FOUND;
      }
    }
  }

  /**
   * Writes that take place leave the stamp counting them: from a fresh state, `n` writes (fewer
   * than 2^32) give stamp `n`.
   */
  lemma {:induction false} StampCountsWrites(s: Snapshot, writes: seq<seq<Byte>>)
    requires s.live && s.stamp + |writes| < STAMP_MODULUS
    ensures WriteAll(s, writes).stamp == s.stamp + |writes|
    ensures |writes| > 0 ==> WriteAll(s, writes).data == writes[|writes| - 1]
    decreases |writes|
  {
    if |writes| > 0 {
      var s' := UpdateAt(s, writes[0], 0, 0).0;
      StampCountsWrites(s', writes[1..]);
      if |writes| > 1 {
        assert writes[1..][|writes[1..]| - 1] == writes[|writes| - 1];
      }
    }
  }

  /** A sequence of unconditional writes. */
  function WriteAll(s: Snapshot, writes: seq<seq<Byte>>): (r: Snapshot)
    ensures r.live == s.live
    decreases |writes|
  {
    if writes == [] then s else WriteAll(UpdateAt(s, writes[0], 0, 0).0, writes[1..])
  }
}

=== FILE: manage.dfy ===
/**
 * Creating states (src/manage.rs): the lifetimes a state can be created with, the
 * `WnfStateCreation` builder, and the arguments `create_raw` hands to `NtCreateWnfStateName`.
 *
 * The builder's type parameters `L` and `S` are the lifetime and scope once set, or the marker
 * `Unspecified` before; the security descriptor is a type parameter as well. Building the default
 * security descriptor and the kernel call are outside the model: their outcomes are parameters.
 */
module Manage {
  import opened Wrappers
  import opened Kernel
  import StateName
  import TypeIds
  import States
  import Updates
  import opened Bytes

  /** `UnspecifiedLifetime`, `UnspecifiedScope`, `UnspecifiedSecurityDescriptor`: a builder field not yet set. */
  datatype Unspecified = Unspecified

  /** `WnfCreatableStateLifetime`: the lifetimes a state can be created with (never `WellKnown`). */
  datatype CreatableLifetime = Permanent(persistData: bool) | Persistent | Temporary

  /** `persist_data`: only a permanent state asked to persist its data does. */
  function PersistData(l: CreatableLifetime): bool
  {
    l.Permanent? && l.persistData
  }

  /** `From<WnfCreatableStateLifetime> for WnfStateNameLifetime`. */
  function ToLifetime(l: CreatableLifetime): StateName.Lifetime
  {
    match l
    case Permanent(_) => StateName.Permanent
    case Persistent => StateName.Persistent
    case Temporary => StateName.Temporary
  }

  /**
   * The conversion never yields `WellKnown`, keeps the kind of lifetime, and forgets only whether
   * data is persisted, which `persist_data` keeps.
   */
  lemma LifetimeConversion(l: CreatableLifetime, m: CreatableLifetime)
    ensures ToLifetime(l) != StateName.WellKnown
    ensures ToLifetime(l) == StateName.Permanent <==> l.Permanent?
    ensures ToLifetime(l) == StateName.Persistent <==> l.Persistent?
    ensures ToLifetime(l) == StateName.Temporary <==> l.Temporary?
    ensures ToLifetime(l) == ToLifetime(m) && PersistData(l) == PersistData(m) ==> l == m
    ensures PersistData(l) <==> l == Permanent(true)
  {
  }

  /** `WnfStateCreation<L, S, SD>`. */
  datatype Creation<L, S, SD> = Creation(lifetime: L, scope: S, maximumStateSize: Option<nat>, securityDescriptor: SD,
                                         typeId: TypeIds.TypeId)

  /** `WnfStateCreation::default` (and `new`): nothing set, no maximum size, no type id. */
  function New(): (c: Creation<Unspecified, Unspecified, Unspecified>)
    ensures c.maximumStateSize.None? && c.typeId == TypeIds.NoType()
  {
    Creation(Unspecified, Unspecified, None, Unspecified, TypeIds.NoType())
  }

  /** `lifetime`: sets the lifetime. */
  function WithLifetime<L, S, SD>(c: Creation<L, S, SD>, lifetime: CreatableLifetime): (r: Creation<CreatableLifetime, S, SD>)
    ensures r.lifetime == lifetime
  {
    Creation(lifetime, c.scope, c.maximumStateSize, c.securityDescriptor, c.typeId)
  }

  /** `scope`: sets the scope. */
  function WithScope<L, S, SD>(c: Creation<L, S, SD>, scope: StateName.DataScope): (r: Creation<L, StateName.DataScope, SD>)
    ensures r.scope == scope
  {
    Creation(c.lifetime, scope, c.maximumStateSize, c.securityDescriptor, c.typeId)
  }

  /** `maximum_state_size`: sets the maximum size. */
  function WithMaximumStateSize<L, S, SD>(c: Creation<L, S, SD>, size: nat): (r: Creation<L, S, SD>)
    ensures r.maximumStateSize == Some(size)
  {
    c.(maximumStateSize := Some(size))
  }

  /** `security_descriptor`: sets the security descriptor. */
  function WithSecurityDescriptor<L, S, SD, NewSD>(c: Creation<L, S, SD>, sd: NewSD): (r: Creation<L, S, NewSD>)
    ensures r.securityDescriptor == sd
  {
    Creation(c.lifetime, c.scope, c.maximumStateSize, sd, c.typeId)
  }

  /** `type_id`: sets the type id to the given GUID. */
  function WithTypeId<L, S, SD>(c: Creation<L, S, SD>, guid: TypeIds.Guid): (r: Creation<L, S, SD>)
    ensures r.typeId == TypeIds.From(guid)
  {
    c.(typeId := TypeIds.From(guid))
  }

  /** Each setter changes its own field and leaves every other field as it was. */
  lemma SettersTouchOneField<L, S, SD, NewSD>(c: Creation<L, S, SD>, lifetime: CreatableLifetime,
                                                scope: StateName.DataScope, size: nat, sd: NewSD, guid: TypeIds.Guid)
    ensures var r := WithLifetime(c, lifetime);
      r.scope == c.scope && r.maximumStateSize == c.maximumStateSize && r.securityDescriptor == c.securityDescriptor
      && r.typeId == c.typeId
    ensures var r := WithScope(c, scope);
      r.lifetime == c.lifetime && r.maximumStateSize == c.maximumStateSize && r.securityDescriptor == c.securityDescriptor
      && r.typeId == c.typeId
    ensures WithMaximumStateSize(c, size) == c.(maximumStateSize := Some(size))
    ensures var r := WithSecurityDescriptor(c, sd);
      r.lifetime == c.lifetime && r.scope == c.scope && r.maximumStateSize == c.maximumStateSize && r.typeId == c.typeId
    ensures WithTypeId(c, guid) == c.(typeId := TypeIds.FromGuid(guid))
  {
  }

  /** The arguments of `NtCreateWnfStateName`, each as the `u32` or `u8` it is cast to. */
  datatype CreateArgs = CreateArgs(nameLifetime: bv64, dataScope: bv64, persistData: nat, typeId: TypeIds.TypeId,
                                   maximumStateSize: nat)

  /**
   * The arguments `create_raw` passes: the lifetime and scope as their numbers, whether data is
   * persisted as 0 or 1, the type id, and the maximum size, `MAXIMUM_STATE_SIZE` when none was
   * given, cast to `u32` (so it is taken modulo 2^32).
   */
  function CreateRawArgs<SD>(c: Creation<CreatableLifetime, StateName.DataScope, SD>): (a: CreateArgs)
    ensures a.nameLifetime == StateName.LifetimeValue(ToLifetime(c.lifetime))
    ensures a.dataScope == StateName.ScopeValue(c.scope)
    ensures a.persistData == 1 <==> PersistData(c.lifetime)
    ensures a.persistData == 0 <==> !PersistData(c.lifetime)
    ensures a.typeId == c.typeId
    ensures c.maximumStateSize.None? ==> a.maximumStateSize == MAXIMUM_STATE_SIZE
    ensures c.maximumStateSize.Some? && c.maximumStateSize.value < 0x1_0000_0000 ==> a.maximumStateSize == c.maximumStateSize.value
    ensures a.maximumStateSize < 0x1_0000_0000
  {
    var size := match c.maximumStateSize case Some(s) => s case None => MAXIMUM_STATE_SIZE;
    CreateArgs(StateName.LifetimeValue(ToLifetime(c.lifetime)), StateName.ScopeValue(c.scope),
               if PersistData(c.lifetime) then 1 else 0, c.typeId, size % 0x1_0000_0000)
  }

  /** The `io::Error` of creating a state: building the security descriptor failed, or the kernel refused. */
  datatype CreateError<E> = SecurityDescriptor(error: E) | Os(status: NtStatus)

  /**
   * `create_raw` (through `RawWnfState::create`): `descriptor` is the outcome of
   * `try_into_security_descriptor`, and the kernel answers with `status` and the opaque value of
   * the new state name. The state carries the type id that was asked for.
   */
  function CreateRaw<T, SD, D, E>(c: Creation<CreatableLifetime, StateName.DataScope, SD>, descriptor: Result<D, E>,
                                  status: NtStatus, opaqueValue: bv64): Result<States.RawWnfState<T>, CreateError<E>>
  {
    match descriptor
    case Err(e) => Err(SecurityDescriptor(e))
    case Ok(_) =>
      if IsErr(status) then Err(Os(status))
      else Ok(States.FromStateNameAndTypeId(StateName.FromOpaqueValue(opaqueValue), c.typeId))
  }

  /** `create_owned`: the created raw state, owned. */
  function CreateOwned<T, SD, D, E>(c: Creation<CreatableLifetime, StateName.DataScope, SD>, descriptor: Result<D, E>,
                                    status: NtStatus, opaqueValue: bv64): Result<States.Owned<T>, CreateError<E>>
  {
    match CreateRaw<T, SD, D, E>(c, descriptor, status, opaqueValue)
    case Ok(raw) => Ok(States.Owned(raw))
    case Err(e) => Err(e)
  }

  /** `create_static`: the created raw state, borrowed for good. */
  function CreateStatic<T, SD, D, E>(c: Creation<CreatableLifetime, StateName.DataScope, SD>, descriptor: Result<D, E>,
                                     status: NtStatus, opaqueValue: bv64): Result<States.Borrowed<T>, CreateError<E>>
  {
    match CreateRaw<T, SD, D, E>(c, descriptor, status, opaqueValue)
    case Ok(raw) => Ok(States.Borrowed(raw))
    case Err(e) => Err(e)
  }

  /**
   * Creating fails with the descriptor's error when the security descriptor could not be built, and
   * otherwise exactly when the kernel reports an error, with that status. A created state, raw,
   * owned or borrowed, is named by the opaque value the kernel returned and carries the type id the
   * builder asked for.
   */
  lemma CreateOutcome<T, SD, D, E>(c: Creation<CreatableLifetime, StateName.DataScope, SD>, descriptor: Result<D, E>, status: NtStatus, opaqueValue: bv64)
    ensures var r := CreateRaw<T, SD, D, E>(c, descriptor, status, opaqueValue);
      && (descriptor.Err? ==> r == Err(SecurityDescriptor(descriptor.error)))
      && (descriptor.Ok? ==> (r.Ok? <==> !IsErr(status)))
      && (descriptor.Ok? && r.Err? ==> r.error == Os(status))
      && (r.Ok? ==> r.value.stateName == StateName.FromOpaqueValue(opaqueValue) && r.value.typeId == c.typeId)
    ensures var r := CreateOwned<T, SD, D, E>(c, descriptor, status, opaqueValue);
      && (descriptor.Err? ==> r == Err(SecurityDescriptor(descriptor.error)))
      && (descriptor.Ok? ==> (r.Ok? <==> !IsErr(status)))
      && (descriptor.Ok? && r.Err? ==> r.error == Os(status))
      && (r.Ok? ==> r.value.raw.stateName == StateName.FromOpaqueValue(opaqueValue) && r.value.raw.typeId == c.typeId)
    ensures var r := CreateStatic<T, SD, D, E>(c, descriptor, status, opaqueValue);
      && (descriptor.Err? ==> r == Err(SecurityDescriptor(descriptor.error)))
      && (descriptor.Ok? ==> (r.Ok? <==> !IsErr(status)))
      && (descriptor.Ok? && r.Err? ==> r.error == Os(status))
      && (r.Ok? ==> r.value.raw.stateName == StateName.FromOpaqueValue(opaqueValue) && r.value.raw.typeId == c.typeId)
  {
  }

  /** The builder `create_temporary` uses: temporary, machine-scoped, everything else left at its default. */
  function TemporaryCreation(): (c: Creation<CreatableLifetime, StateName.DataScope, Unspecified>)
  {
    WithScope(WithLifetime(New(), Temporary), StateName.Machine)
  }

  /**
   * `create_temporary` asks the kernel for a temporary, machine-scoped state of at most
   * `MAXIMUM_STATE_SIZE` bytes, without persisted data or a type id.
   */
  lemma CreateTemporaryArgs()
    ensures var a := CreateRawArgs(TemporaryCreation());
      && a.nameLifetime == StateName.LifetimeValue(StateName.Temporary)
      && a.dataScope == StateName.ScopeValue(StateName.Machine)
      && a.persistData == 0
      && a.typeId == TypeIds.NoType()
      && a.maximumStateSize == MAXIMUM_STATE_SIZE
  {
  }

  /**
   * The test `create_state_with_type_id`: a temporary state created with the type id `right` can be
   * set (to `()`, no bytes) through its owned handle, which carries that type id, but not through a
   * borrowed handle of the same name with another GUID. `refusal` is the kernel's error for the
   * wrong type id.
   */
  method TypeIdTest(right: TypeIds.Guid, wrong: TypeIds.Guid, refusal: NtStatus, tooLarge: ErrorStatus, opaqueValue: bv64)
    returns (viaOwned: Result<(), NtStatus>, viaWrong: Result<(), NtStatus>)
    requires right != wrong && IsErr(refusal)
    ensures viaOwned == Ok(()) && viaWrong == Err(refusal)
  {
    var creation := WithTypeId(TemporaryCreation(), right);
    CreateOutcome<(), Unspecified, (), ()>(creation, Ok(()), STATUS_SUCCESS, opaqueValue);
    var owned := CreateOwned<(), Unspecified, (), ()>(creation, Ok(()), STATUS_SUCCESS, opaqueValue).value;
    var args := CreateRawArgs(creation);
    var store := new Store.Typed(args.typeId, args.maximumStateSize);
    viaOwned := Updates.Set(store, owned.raw.typeId, refusal, tooLarge, []);
    var borrowed := States.BorrowedFromStateNameAndTypeId<()>(States.OwnedStateName(owned), wrong);
    viaWrong := Updates.Set(store, borrowed.raw.typeId, refusal, tooLarge, []);
  }

  /**
   * The test `create_state_with_maximum_state_size`: a temporary state created with the maximum
   * size 1 takes one byte, refuses two with the kernel's error `tooLarge`, and keeps the one byte.
   * The owned handle carries the state's own type id, so the refusal status passed along never
   * arises.
   */
  method MaximumSizeTest(tooLarge: ErrorStatus, opaqueValue: bv64)
    returns (first: Result<(), NtStatus>, second: Result<(), NtStatus>, stored: seq<Byte>)
    ensures first == Ok(()) && second == Err(tooLarge) && stored == [1]
  {
    var creation := WithMaximumStateSize(TemporaryCreation(), 1);
    CreateOutcome<seq<Byte>, Unspecified, (), ()>(creation, Ok(()), STATUS_SUCCESS, opaqueValue);
    var owned := CreateOwned<seq<Byte>, Unspecified, (), ()>(creation, Ok(()), STATUS_SUCCESS, opaqueValue).value;
    var args := CreateRawArgs(creation);
    var store := new Store.Typed(args.typeId, args.maximumStateSize);
    first := Updates.Set(store, owned.raw.typeId, STATUS_UNSUCCESSFUL, tooLarge, [1]);
    second := Updates.Set(store, owned.raw.typeId, STATUS_UNSUCCESSFUL, tooLarge, [1, 2]);
    stored := store.data;
  }
}

=== FILE: predicate.dfy ===
/**
 * The predicates the waits check (src/predicate.rs): a closure on the data, which ignores the
 * stage, and `ChangedPredicate`, which ignores the data and holds once the state has changed.
 * The asynchronous wait (src/wait_async.rs:262-288) checks the predicate on the data it queries
 * first (stage `Initial`) and then on the data of each update it is told about (stage `Changed`),
 * and completes at the first check that holds. The blocking wait (src/wait_blocking.rs:117-152)
 * also checks the data queried first at `Changed`, before any update.
 */
module Predicates {
  import opened Wrappers

  /** `PredicateStage`. */
  datatype Stage = Initial | Changed

  /** The two implementations of `Predicate<T>`: a closure `FnMut(&T) -> bool`, or `ChangedPredicate`. */
  datatype Predicate<-T> = Closure(f: T -> bool) | ChangedPredicate

  /** `Predicate::check`. */
  function Check<T>(p: Predicate<T>, data: T, stage: Stage): bool
  {
    match p
    case Closure(f) => f(data)
    case ChangedPredicate => stage == Changed
  }

  /** A closure ignores the stage; `ChangedPredicate` ignores the data and holds exactly at `Changed`. */
  lemma CheckByKind<T>(p: Predicate<T>, data: T, other: T)
    ensures p.Closure? ==> Check(p, data, Initial) == Check(p, data, Changed) == p.f(data)
    ensures p.ChangedPredicate? ==> !Check(p, data, Initial) && Check(p, other, Changed)
  {
  }

  /**
   * The check at which the asynchronous wait completes: 0 for the data queried first, `i + 1` for
   * the `i`-th update; `None` while no check has held yet.
   */
  function Completes<T>(p: Predicate<T>, initial: T, updates: seq<T>): (r: Option<nat>)
  {
    if Check(p, initial, Initial) then Some(0) else FirstChanged(p, updates, 0)
  }

  /** The position of the first of `updates[i..]` for which the check at `Changed` holds, counted from 1. */
  function FirstChanged<T>(p: Predicate<T>, updates: seq<T>, i: nat): (r: Option<nat>)
    requires i <= |updates|
    ensures r.Some? ==> i < r.value <= |updates| && Check(p, updates[r.value - 1], Changed)
    ensures r.Some? ==> forall j :: i <= j < r.value - 1 ==> !Check(p, updates[j], Changed)
    ensures r.None? ==> forall j :: i <= j < |updates| ==> !Check(p, updates[j], Changed)
    decreases |updates| - i
  {
    if i == |updates| then None
    else if Check(p, updates[i], Changed) then Some(i + 1)
    else FirstChanged(p, updates, i + 1)
  }

  /**
   * A wait completes at the first check that holds: the initial one if it holds, otherwise the
   * first update whose check holds, and not before.
   */
  lemma CompletesAtFirst<T>(p: Predicate<T>, initial: T, updates: seq<T>)
    ensures var r := Completes(p, initial, updates);
      && (r == Some(0) <==> Check(p, initial, Initial))
      && (r.Some? && r.value > 0 ==> r.value <= |updates| && Check(p, updates[r.value - 1], Changed))
      && (r.Some? && r.value > 0 ==> forall j :: 0 <= j < r.value - 1 ==> !Check(p, updates[j], Changed))
      && (r.None? <==> !Check(p, initial, Initial) && forall j :: 0 <= j < |updates| ==> !Check(p, updates[j], Changed))
  {
  }

  /**
   * A wait that checks only delivered updates at `Changed` (`wait_async`), built on
   * `ChangedPredicate`, never completes on the initial read: it completes at the first update it
   * is told about, and only if there is one.
   */
  lemma ChangedWaitsForUpdate<T>(initial: T, updates: seq<T>)
    ensures Completes(ChangedPredicate, initial, updates) == if updates == [] then None else Some(1)
  {
  }

  /** A closure that already holds on the data queried first completes the wait without an update. */
  lemma ClosureMayCompleteAtOnce<T>(f: T -> bool, initial: T, updates: seq<T>)
    ensures Completes(Closure(f), initial, updates) == Some(0) <==> f(initial)
  {
  }

  /**
   * The blocking wait as written: when the check at `Initial` fails, the shared slot still holds
   * the data queried first, and `Condvar::wait_while` checks it at `Changed` before waiting.
   */
  function CompletesBlockingAsWritten<T>(p: Predicate<T>, initial: T, updates: seq<T>): (r: Option<nat>)
  {
    if Check(p, initial, Initial) || Check(p, initial, Changed) then Some(0) else FirstChanged(p, updates, 0)
  }

  /**
   * `wait_blocking` passes `ChangedPredicate`, so as written it returns on the data queried first
   * and does not wait for the update that the asynchronous wait waits for.
   */
  lemma WaitBlockingReturnsAtOnce<T>(initial: T, updates: seq<T>)
    ensures CompletesBlockingAsWritten(ChangedPredicate, initial, updates) == Some(0)
    ensures updates != [] ==> Completes(ChangedPredicate, initial, updates) == Some(1)
  {
  }

  /** Closures ignore the stage, so for them the blocking wait as written agrees with `Completes`. */
  lemma BlockingAgreesForClosures<T>(f: T -> bool, initial: T, updates: seq<T>)
    ensures CompletesBlockingAsWritten(Closure(f), initial, updates) == Completes(Closure(f), initial, updates)
  {
  }
}

=== FILE: query.dfy ===
/**
 * Querying a `RawWnfState<T>` of the `Wnf*` generation (src/query.rs): the reader closure handed
 * to `WnfRead::from_reader`, which calls `NtQueryWnfStateData` and filters its status, and the
 * queries built on it.
 *
 * The state may change between two calls of the closure, so a query runs against the sequence of
 * snapshots its calls see; on the store of module Kernel the closure answers exactly like a
 * scripted reader of module Replies, which is how the readers of module Read are reused here.
 */
module Query {
  import opened Wrappers
  import opened Bytes
  import opened Replies
  import opened Kernel
  import Read
  import Data
  import TypeIds

  /**
   * The closure's check on the kernel's answer: a failed call is an error, except
   * `STATUS_BUFFER_TOO_SMALL` with a size larger than the buffer, which reports that size so that
   * the reader can retry with a larger buffer.
   */
  function ReaderFilter(status: NtStatus, readSize: nat, size: nat, stamp: Stamp): (r: Result<(nat, Stamp), NtStatus>)
    ensures r.Err? <==> IsErr(status) && (status != STATUS_BUFFER_TOO_SMALL || readSize <= size)
    ensures r.Err? ==> r.error == status
    ensures r.Ok? ==> r.value == (readSize, stamp)
  {
    if IsErr(status) && (status != STATUS_BUFFER_TOO_SMALL || readSize <= size) then Err(status)
    else Ok((readSize, stamp))
  }

  /** What one call of the closure with a buffer of `size` bytes returns on the state `s`. */
  function ReaderOutcome(s: Snapshot, size: nat): Result<(nat, Stamp), NtStatus>
  {
    var reply := QueryAt(s, size);
    ReaderFilter(reply.status, reply.size, size, reply.stamp)
  }

  /**
   * The closure itself: the stamp starts at its default, the size in-out parameter starts at the
   * buffer size, and the kernel call, which passes the handle's type id `typeId`, overwrites both
   * before the filter runs. `bytes` is what lands in the buffer. A live state that does not accept
   * the type id answers with the error `refusal`, which the closure returns.
   */
  method Reader(store: Store, typeId: TypeIds.TypeId, refusal: NtStatus, size: nat) returns (r: Result<(nat, Stamp), NtStatus>, bytes: seq<Byte>)
    requires IsErr(refusal)
    ensures store.live && !TypeIdAccepted(store.typeId, typeId) ==> r == Err(refusal) && bytes == []
    ensures !store.live || TypeIdAccepted(store.typeId, typeId) ==>
      r == ReaderOutcome(store.State(), size) && bytes == QueryAt(store.State(), size).bytes
  {
    var changeStamp: Stamp := 0;
    var readSize := size;
    var reply := store.QueryWithType(typeId, refusal, readSize);
    readSize := reply.size;
    changeStamp := reply.stamp;
    if IsErr(reply.status) && (reply.status != STATUS_BUFFER_TOO_SMALL || readSize <= size) {
      r := Err(reply.status);
    } else {
      r := Ok((readSize, changeStamp));
    }
    bytes := reply.bytes;
  }

  /** The scripted reply that stands for one call of the closure on `s`. */
  function AsReply(s: Snapshot): (r: Reply<Stamp, NtStatus>)
  {
    if s.live then Reply(s.data, s.stamp) else Failure(STATUS_OBJECT_NAME_NOT_FOUND)
  }

  /**
   * On the store the closure never fails for want of space: it fails exactly on a deleted state,
   * and otherwise reports the full size and the stamp whatever the buffer size, with the bytes
   * copied when they fit; so it answers like the scripted reply `AsReply(s)`.
   */
  lemma ReaderAnswersLikeReply(s: Snapshot, size: nat)
    ensures ReaderOutcome(s, size).Ok? <==> AsReply(s).Reply?
    ensures AsReply(s).Reply? ==> ReaderOutcome(s, size).value == (|AsReply(s).data|, AsReply(s).meta)
    ensures AsReply(s).Failure? ==> ReaderOutcome(s, size).error == AsReply(s).error
    ensures AsReply(s).Reply? && |AsReply(s).data| <= size ==> QueryAt(s, size).bytes == Copied(AsReply(s).data, size)
  {
  }

  /** The replies of the closure's successive calls. */
  function Script(states: seq<Snapshot>): (script: seq<Reply<Stamp, NtStatus>>)
    ensures |script| == |states|
    ensures forall i :: 0 <= i < |states| ==> script[i] == AsReply(states[i])
  {
    if states == [] then [] else [AsReply(states[0])] + Script(states[1..])
  }

  /** `Ok(result?.into())`: reader errors pass unchanged; a value becomes stamped data. */
  function IntoStamped<D>(r: Result<(D, Stamp), Read.ReadError<NtStatus>>): (q: Result<Data.StampedData<D>, Read.ReadError<NtStatus>>)
    ensures q.Ok? <==> r.Ok?
    ensures q.Ok? ==> q.value.data == r.value.0 && Data.ToU32(q.value.changeStamp) == r.value.1
    ensures q.Err? ==> q.error == r.error
  {
    match r
    case Ok((d, stamp)) => Ok(Data.FromDataChangeStamp(d, stamp))
    case Err(e) => Err(e)
  }

  /** `query_as::<T>` (and `::<Box<T>>`, which reads the same bytes): one call offering `size_of::<T::Bits>()` bytes. */
  function QueryAsValue(t: Checked, states: seq<Snapshot>): Result<Data.StampedData<seq<Byte>>, Read.ReadError<NtStatus>>
    requires |states| > 0
  {
    IntoStamped(Read.ValueFromReader(t, Script(states)).result)
  }

  /** `query_as::<Box<[T]>>`: the growing-buffer loop of `<[T]>::from_reader`. */
  function QueryAsSlice(t: Checked, states: seq<Snapshot>): Result<Data.StampedData<seq<seq<Byte>>>, Read.ReadError<NtStatus>>
    requires |states| > 0
  {
    IntoStamped(Read.SliceLoop(t, Script(states), 0, 0).result)
  }

  /**
   * A value query sees the first state only: a deleted state is the kernel's error; otherwise the
   * bits if they have the right size and are valid, stamped with the state's stamp.
   */
  lemma QueryAsValueOnState(t: Checked, s: Snapshot, later: seq<Snapshot>)
    ensures var q := QueryAsValue(t, [s] + later);
      && (!s.live ==> q == Err(Read.Io(STATUS_OBJECT_NAME_NOT_FOUND)))
      && (s.live && |s.data| != SizeOf(t) ==> q == Err(Read.WrongSize(SizeOf(t), |s.data|)))
      && (s.live && |s.data| == SizeOf(t) && !IsValidBitPattern(t, s.data) ==> q == Err(Read.InvalidBitPattern))
      && (q.Ok? <==> s.live && |s.data| == SizeOf(t) && IsValidBitPattern(t, s.data))
      && (q.Ok? ==> q.value == Data.StampedData(s.data, Data.ChangeStamp(s.stamp)))
  {
    assert Script([s] + later)[0] == AsReply(s);
  }

  /**
   * When nobody writes while a slice query runs, it decodes the state's data as `<[T]>::from_buffer`
   * would and stamps it with the state's stamp.
   */
  lemma QueryAsSliceOnState(t: Checked, s: Snapshot)
    ensures s.live ==> QueryAsSlice(t, [s]) == IntoStamped(Read.WithMeta(Read.SliceFromBuffer(t, s.data), s.stamp))
    ensures !s.live ==> QueryAsSlice(t, [s]) == Err(Read.Io(STATUS_OBJECT_NAME_NOT_FOUND))
  {
    assert Script([s]) == [AsReply(s)];
    if s.live {
      Read.SliceLoopStable<Stamp, NtStatus>(t, s.data, s.stamp, 0, 0);
    }
  }

  /** `get` and `get_boxed`: the query's data without its stamp. */
  function Get(t: Checked, states: seq<Snapshot>): (r: Result<seq<Byte>, Read.ReadError<NtStatus>>)
    requires |states| > 0
    ensures r.Ok? <==> QueryAsValue(t, states).Ok?
    ensures r.Ok? ==> r.value == Data.IntoData(QueryAsValue(t, states).value)
    ensures r.Err? ==> r.error == QueryAsValue(t, states).error
  {
    match QueryAsValue(t, states)
    case Ok(stamped) => Ok(Data.IntoData(stamped))
    case Err(e) => Err(e)
  }

  /**
   * `change_stamp`: a query of the state cast to `WnfOpaqueData`, whose reader makes one call with
   * a buffer of 0 bytes; only the stamp is kept.
   */
  function ChangeStampOf(states: seq<Snapshot>): (r: Result<Data.ChangeStamp, Read.ReadError<NtStatus>>)
    requires |states| > 0
    ensures r.Ok? <==> states[0].live
    ensures r.Ok? ==> Data.ToU32(r.value) == states[0].stamp
    ensures r.Err? ==> r.error == Read.Io(STATUS_OBJECT_NAME_NOT_FOUND)
    ensures Read.OpaqueFromReader(Script(states)).calls == [0]
  {
    match IntoStamped(Read.OpaqueFromReader(Script(states)).result)
    case Ok(stamped) => Ok(stamped.changeStamp)
    case Err(e) => Err(e)
  }
}

=== FILE: raw_state.dfy ===
/**
 * `RawWnfState<T>` of the first API generation (src/raw_state.rs): a state name with typed
 * queries, updates and read-modify-write loops on top of the kernel store, the decoders that turn
 * a callback's buffer into a value, and the callback that hands it to the listener.
 *
 * A value of `T` is its bit pattern (`T::Bits`), checked against an element kind of module Bytes.
 */
module RawStates {
  import opened Wrappers
  import opened Arith
  import opened Bytes
  import opened Kernel
  import StateName
  import VecCapacity
  import Subscriptions

  /** `RawWnfState<T>`: only the state name; `T` is a marker. */
  datatype RawState<T> = RawState(stateName: StateName.Name)

  /** `PartialEq`: two raw states are equal when their state names are. */
  predicate Equal<T>(a: RawState<T>, b: RawState<T>)
  {
    a.stateName == b.stateName
  }

  /** What `Hash` feeds to the hasher: the state name's opaque value and nothing else. */
  function HashInput<T>(s: RawState<T>): bv64
  {
    s.stateName.opaqueValue
  }

  /** `cast`: the same state name under another marker type. */
  function Cast<T, U>(s: RawState<T>): RawState<U>
  {
    RawState(s.stateName)
  }

  /** Equal states hash alike, and equality is exactly sameness of the state name. */
  lemma EqualityByName<T>(a: RawState<T>, b: RawState<T>)
    ensures Equal(a, b) <==> a == b
    ensures Equal(a, b) ==> HashInput(a) == HashInput(b)
    ensures Equal(a, b) <==> HashInput(a) == HashInput(b)
  {
  }

  /** A cast keeps the state name, and a cast there and back gives the state it started from. */
  lemma CastRoundTrip<T, U>(s: RawState<T>)
    ensures Cast<T, U>(s).stateName == s.stateName
    ensures Cast<U, T>(Cast<T, U>(s)) == s
  {
  }

  /** The arguments of `ZwCreateWnfStateName`. */
  datatype CreateParams = CreateParams(nameLifetime: nat, dataScope: nat, persistData: nat, maximumStateSize: nat)

  /** `create_temporary`: a temporary, machine-scoped state of at most 0x1000 bytes, not persisted. */
  function CreateTemporaryParams(): (p: CreateParams)
    ensures p.nameLifetime == StateName.LifetimeValue(StateName.Temporary) as nat
    ensures p.dataScope == StateName.ScopeValue(StateName.Machine) as nat
    ensures p.persistData == 0 && p.maximumStateSize == 0x1000
  {
    CreateParams(3, 4, 0, 0x1000)
  }

  /**
   * `info_internal`: a failed call is an error; otherwise the kernel writes a boolean as a `u32`
   * (anything but 0 or 1 is `unreachable!`, which callers of the kernel never see).
   */
  function InfoResult(status: NtStatus, buffer: nat): (r: Result<bool, NtStatus>)
    requires IsErr(status) || buffer <= 1
    ensures r.Err? <==> IsErr(status)
    ensures r.Err? ==> r.error == status
    ensures r.Ok? ==> (r.value <==> buffer == 1)
  {
    if !IsErr(status) then Ok(buffer == 1) else Err(status)
  }

  /** `WnfQueryError`. */
  datatype QueryError =
    | WrongSize(expected: nat, actual: nat)
    | WrongSizeMultiple(expectedModulus: nat, actual: nat)
    | InvalidBitPattern
    | Windows(status: NtStatus)

  /**
   * `query_internal`: a failed call is an error, except `STATUS_BUFFER_TOO_SMALL` reporting a size
   * larger than the buffer, which hands back that size so that the caller can retry.
   */
  function QueryInternal(reply: QueryReply, bufferSize: nat): (r: Result<(nat, Stamp), NtStatus>)
    ensures r.Err? <==> IsErr(reply.status) && (reply.status != STATUS_BUFFER_TOO_SMALL || reply.size <= bufferSize)
    ensures r.Err? ==> r.error == reply.status
    ensures r.Ok? ==> r.value == (reply.size, reply.stamp)
  {
    if IsErr(reply.status) && (reply.status != STATUS_BUFFER_TOO_SMALL || reply.size <= bufferSize) then
      Err(reply.status)
    else
      Ok((reply.size, reply.stamp))
  }

  /**
   * On the store, `query_internal` reports the size and stamp of a live state whatever the buffer
   * size, the bytes only when they fit, and fails on a deleted state.
   */
  lemma QueryInternalOnStore(s: Snapshot, bufferSize: nat)
    ensures s.live ==> QueryInternal(QueryAt(s, bufferSize), bufferSize) == Ok((|s.data|, s.stamp))
    ensures s.live && |s.data| <= bufferSize ==> QueryAt(s, bufferSize).bytes == s.data
    ensures !s.live ==> QueryInternal(QueryAt(s, bufferSize), bufferSize) == Err(STATUS_OBJECT_NAME_NOT_FOUND)
  {
  }

  /**
   * `query` and `query_boxed`: one kernel call with a buffer of `size_of::<T::Bits>()` bytes; a
   * different size is `WrongSize`, invalid bits are `InvalidBitPattern`; otherwise the value with
   * the stamp.
   */
  function Query(t: Checked, s: Snapshot): (r: Result<(seq<Byte>, Stamp), QueryError>)
    ensures !s.live ==> r == Err(Windows(STATUS_OBJECT_NAME_NOT_FOUND))
    ensures s.live && |s.data| != SizeOf(t) ==> r == Err(WrongSize(SizeOf(t), |s.data|))
    ensures s.live && |s.data| == SizeOf(t) ==>
      r == if IsValidBitPattern(t, s.data) then Ok((s.data, s.stamp)) else Err(InvalidBitPattern)
  {
    var n := SizeOf(t);
    var reply := QueryAt(s, n);
    match QueryInternal(reply, n)
    case Err(e) => Err(Windows(e))
    case Ok((size, stamp)) =>
      if size != n then Err(WrongSize(n, size))
      else if IsValidBitPattern(t, reply.bytes) then Ok((reply.bytes, stamp))
      else Err(InvalidBitPattern)
  }

  /** `get` and `get_boxed`: `query` without the stamp. */
  function Get(t: Checked, s: Snapshot): (r: Result<seq<Byte>, QueryError>)
    ensures r.Ok? <==> Query(t, s).Ok?
    ensures r.Ok? ==> r.value == Query(t, s).value.0
    ensures r.Err? ==> r.error == Query(t, s).error
  {
    match Query(t, s)
    case Ok((data, _)) => Ok(data)
    case Err(e) => Err(e)
  }

  /** The state seen by the `i`-th kernel call of a loop; other writers may change it between calls. */
  function SnapshotAt(states: seq<Snapshot>, i: nat): (s: Snapshot)
    requires |states| > 0
    ensures s in states
  {
    states[if i < |states| then i else |states| - 1]
  }

  /** The largest data any of the states holds. */
  function MaxData(states: seq<Snapshot>): (m: nat)
    ensures forall s :: s in states ==> |s.data| <= m
  {
    if states == [] then 0
    else
      var rest := MaxData(states[1..]);
      assert forall s :: s in states ==> s == states[0] || s in states[1..];
      if |states[0].data| > rest then |states[0].data| else rest
  }

  function Bound(states: seq<Snapshot>, cap: nat): nat
  {
    if cap < MaxData(states) then MaxData(states) - cap else 0
  }

  /** A slice query: its result and the buffer sizes (in bytes) of the kernel calls made. */
  datatype SliceQuery = SliceQuery(result: Result<(seq<seq<Byte>>, Stamp), QueryError>, calls: seq<nat>)

  /** `query_slice` once its loop has settled on `len` elements: every element must be valid. */
  function CheckedSlice(t: Checked, elems: seq<seq<Byte>>, stamp: Stamp): (r: Result<(seq<seq<Byte>>, Stamp), QueryError>)
    ensures r.Ok? <==> AllValid(t, elems)
    ensures r.Ok? ==> r.value == (elems, stamp)
    ensures r.Err? ==> r.error == InvalidBitPattern
  {
    if AllValid(t, elems) then Ok((elems, stamp)) else Err(InvalidBitPattern)
  }

  /** What one round of the `query_slice` loop decides: stop with a result, or grow to `len` elements. */
  datatype Step = Done(result: Result<(seq<seq<Byte>>, Stamp), QueryError>) | Grow(len: nat)

  /**
   * One round of `query_slice` on state `s` with a buffer of `cap` elements: a failed call is an error; a size
   * of 0 is the empty slice; a zero-sized element with a non-zero size is `WrongSize`; a size that
   * is not a multiple is `WrongSizeMultiple`; more elements than fit ask for a larger buffer;
   * otherwise the elements copied, if all are valid.
   */
  function SliceStep(t: Checked, s: Snapshot, cap: nat): (r: Step)
    ensures r.Grow? ==> SizeOf(t) > 0 && cap < r.len <= |s.data| && r.len * SizeOf(t) == |s.data|
  {
    var k := SizeOf(t);
    var reply := QueryAt(s, cap * k);
    match QueryInternal(reply, cap * k)
    case Err(e) => Done(Err(Windows(e)))
    case Ok((size, stamp)) =>
      if size == 0 then Done(CheckedSlice(t, [], stamp))
      else if k == 0 then Done(Err(WrongSize(0, size)))
      else if size % k != 0 then Done(Err(WrongSizeMultiple(k, size)))
      else
        var len := size / k;
        ElementCount(size, k, cap);
        if len > cap then Grow(len)
        else Done(CheckedSlice(t, Chunks(reply.bytes, k), stamp))
  }

  /**
   * The loop of `query_slice`, from the `i`-th kernel call with a buffer of `cap` elements, with
   * the corrected reservation that makes room for `len` elements (`reserve(len)`; the vector is
   * empty). src/raw_state.rs:296 reserves `len - capacity`; `SliceLoopAsWritten` follows that.
   */
  function SliceLoop(t: Checked, states: seq<Snapshot>, i: nat, cap: nat): (r: SliceQuery)
    requires |states| > 0
    ensures |r.calls| >= 1 && r.calls[0] == cap * SizeOf(t)
    decreases Bound(states, cap)
  {
    var k := SizeOf(t);
    match SliceStep(t, SnapshotAt(states, i), cap)
    case Done(result) => SliceQuery(result, [cap * k])
    case Grow(len) =>
      var next := SliceLoop(t, states, i + 1, VecCapacity.Reserve(0, cap, len, k));
      SliceQuery(next.result, [cap * k] + next.calls)
  }

  /**
   * The same loop as written, growing with `reserve(len - capacity)`; `fuel` bounds the number of
   * kernel calls and `None` means the loop was still running when it ran out.
   */
  function SliceLoopAsWritten(t: Checked, states: seq<Snapshot>, i: nat, cap: nat, fuel: nat): (r: Option<SliceQuery>)
    requires |states| > 0
    decreases fuel
  {
    if fuel == 0 then None
    else
      var k := SizeOf(t);
      match SliceStep(t, SnapshotAt(states, i), cap)
      case Done(result) => Some(SliceQuery(result, [cap * k]))
      case Grow(len) =>
        match SliceLoopAsWritten(t, states, i + 1, VecCapacity.Reserve(0, cap, len - cap, k), fuel - 1)
        case None => None
        case Some(next) => Some(SliceQuery(next.result, [cap * k] + next.calls))
  }

  /**
   * `query_slice`: the loop run on a vector whose capacity grows in place, with the corrected
   * reservation of `SliceLoop` rather than the `reserve(len - capacity)` of the source.
   */
  method QuerySlice(t: Checked, states: seq<Snapshot>) returns (r: SliceQuery)
    requires |states| > 0
    ensures r == SliceLoop(t, states, 0, 0)
  {
    var k := SizeOf(t);
    var capacity: nat := 0;
    var i: nat := 0;
    var calls: seq<nat> := [];
    ghost var whole := SliceLoop(t, states, 0, 0);
    assert After([], whole) == whole;
    while true
      invariant whole == After(calls, SliceLoop(t, states, i, capacity))
      decreases Bound(states, capacity)
    {
      var step := SliceStep(t, SnapshotAt(states, i), capacity);
      var offered: nat := capacity * k;
      if step.Done? {
        assert whole == SliceQuery(step.result, calls + [offered]) by {
          SliceLoopDone(t, states, i, capacity, calls);
        }
        return SliceQuery(step.result, calls + [offered]);
      }
      var next := VecCapacity.Reserve(0, capacity, step.len, k);
      assert Bound(states, next) < Bound(states, capacity)
        && whole == After(calls + [offered], SliceLoop(t, states, i + 1, next)) by {
        SliceLoopGrow(t, states, i, capacity, calls);
      }
      calls := calls + [offered];
      capacity := next;
      i := i + 1;
    }
  }

  /** A slice query preceded by the kernel calls `calls`. */
  function After(calls: seq<nat>, q: SliceQuery): SliceQuery
  {
    SliceQuery(q.result, calls + q.calls)
  }

  /** A final round of the loop: its result after one more call. */
  lemma SliceLoopDone(t: Checked, states: seq<Snapshot>, i: nat, cap: nat, calls: seq<nat>)
    requires |states| > 0 && SliceStep(t, SnapshotAt(states, i), cap).Done?
    ensures After(calls, SliceLoop(t, states, i, cap))
      == SliceQuery(SliceStep(t, SnapshotAt(states, i), cap).result, calls + [cap * SizeOf(t)])
  {
  }

  /** A round that grows the buffer: the rest of the loop runs on the larger buffer, which is nearer the bound. */
  lemma SliceLoopGrow(t: Checked, states: seq<Snapshot>, i: nat, cap: nat, calls: seq<nat>)
    requires |states| > 0 && SliceStep(t, SnapshotAt(states, i), cap).Grow?
    ensures var next := VecCapacity.Reserve(0, cap, SliceStep(t, SnapshotAt(states, i), cap).len, SizeOf(t));
      && Bound(states, next) < Bound(states, cap)
      && After(calls, SliceLoop(t, states, i, cap)) == After(calls + [cap * SizeOf(t)], SliceLoop(t, states, i + 1, next))
  {
    var next := VecCapacity.Reserve(0, cap, SliceStep(t, SnapshotAt(states, i), cap).len, SizeOf(t));
    assert calls + ([cap * SizeOf(t)] + SliceLoop(t, states, i + 1, next).calls)
      == (calls + [cap * SizeOf(t)]) + SliceLoop(t, states, i + 1, next).calls;
  }

  /** `get_slice`: `query_slice` without the stamp. */
  function GetSlice(t: Checked, states: seq<Snapshot>): (r: Result<seq<seq<Byte>>, QueryError>)
    requires |states| > 0
    ensures r.Ok? <==> SliceLoop(t, states, 0, 0).result.Ok?
    ensures r.Ok? ==> r.value == SliceLoop(t, states, 0, 0).result.value.0
    ensures r.Err? ==> r.error == SliceLoop(t, states, 0, 0).result.error
  {
    match SliceLoop(t, states, 0, 0).result
    case Ok((elems, _)) => Ok(elems)
    case Err(e) => Err(e)
  }

  /**
   * The decoding of a state's whole data as a slice: no bytes give no elements; otherwise the
   * size must be a non-zero multiple of the element size and every element valid.
   */
  function SliceOf(t: Checked, s: Snapshot): (r: Result<(seq<seq<Byte>>, Stamp), QueryError>)
    ensures r.Ok? ==> Flatten(r.value.0) == s.data && AllValid(t, r.value.0)
  {
    var k := SizeOf(t);
    if !s.live then Err(Windows(STATUS_OBJECT_NAME_NOT_FOUND))
    else if |s.data| == 0 then CheckedSlice(t, [], s.stamp)
    else if k == 0 then Err(WrongSize(0, |s.data|))
    else if |s.data| % k != 0 then Err(WrongSizeMultiple(k, |s.data|))
    else
      FlattenChunks(s.data, k);
      CheckedSlice(t, Chunks(s.data, k), s.stamp)
  }

  /**
   * When nobody writes while the loop runs, `query_slice` with the corrected reservation returns
   * the decoding of the state's data with its stamp, after at most two kernel calls.
   */
  lemma SliceLoopStable(t: Checked, s: Snapshot, i: nat, cap: nat)
    ensures SliceLoop(t, [s], i, cap).result == SliceOf(t, s)
    ensures |SliceLoop(t, [s], i, cap).calls| <= 2
  {
    assert SnapshotAt([s], i) == s && SnapshotAt([s], i + 1) == s;
    StepStable(t, s, cap);
    var step := SliceStep(t, s, cap);
    if step.Done? {
      SliceLoopDone(t, [s], i, cap, []);
    } else {
      var cap' := VecCapacity.Reserve(0, cap, step.len, SizeOf(t));
      StepStable(t, s, cap');
      SliceLoopGrow(t, [s], i, cap, []);
      SliceLoopDone(t, [s], i + 1, cap', [cap * SizeOf(t)]);
    }
  }

  /**
   * One round on a state that does not change: it settles on the decoding of the state's data, or
   * it grows to exactly the room the data needs, after which the next round settles.
   */
  lemma StepStable(t: Checked, s: Snapshot, cap: nat)
    ensures SliceStep(t, s, cap).Done? ==> SliceStep(t, s, cap).result == SliceOf(t, s)
    ensures SliceStep(t, s, cap).Grow? ==>
      SliceStep(t, s, VecCapacity.Reserve(0, cap, SliceStep(t, s, cap).len, SizeOf(t))).Done?
  {
    var k := SizeOf(t);
    if s.live && |s.data| > 0 && k > 0 && |s.data| % k == 0 {
      var len := |s.data| / k;
      var cap' := VecCapacity.Reserve(0, cap, len, k);
      assert SliceStep(t, s, cap) == if len > cap then Grow(len) else Done(SliceOf(t, s)) by {
        StepOnElements(t, s, cap);
      }
      assert SliceStep(t, s, cap') == Done(SliceOf(t, s)) by {
        StepOnElements(t, s, cap');
      }
    } else {
      StepOnOther(t, s, cap);
    }
  }

  /** On a deleted state, an empty one or a size that is not a whole number of elements: decode at once. */
  lemma StepOnOther(t: Checked, s: Snapshot, cap: nat)
    requires !(s.live && |s.data| > 0 && SizeOf(t) > 0 && |s.data| % SizeOf(t) == 0)
    ensures SliceStep(t, s, cap) == Done(SliceOf(t, s))
  {
    QueryInternalOnStore(s, cap * SizeOf(t));
  }

  /** On a live state holding a whole number of elements: grow if they do not fit, otherwise decode them. */
  lemma StepOnElements(t: Checked, s: Snapshot, cap: nat)
    requires s.live && |s.data| > 0 && SizeOf(t) > 0 && |s.data| % SizeOf(t) == 0
    ensures |s.data| / SizeOf(t) > cap ==> SliceStep(t, s, cap) == Grow(|s.data| / SizeOf(t))
    ensures |s.data| / SizeOf(t) <= cap ==> SliceStep(t, s, cap) == Done(SliceOf(t, s))
  {
    var k := SizeOf(t);
    QueryInternalOnStore(s, cap * k);
    ElementCount(|s.data|, k, cap);
  }

  /** The states seen when the data grows from one element of 2 bytes to five between two calls. */
  function GrowingStates(first: seq<Byte>, second: seq<Byte>): seq<Snapshot>
  {
    [Snapshot(true, first, 1), Snapshot(true, second, 2)]
  }

  lemma {:induction false} AsWrittenStuckAtFour(first: seq<Byte>, second: seq<Byte>, i: nat, fuel: nat)
    requires |second| == 10 && i >= 1
    ensures SliceLoopAsWritten(AnyBitPattern(2), GrowingStates(first, second), i, 4, fuel).None?
    decreases fuel
  {
    var states := GrowingStates(first, second);
    if fuel > 0 {
      assert SnapshotAt(states, i) == Snapshot(true, second, 2);
      assert VecCapacity.Reserve(0, 4, 5 - 4, 2) == 4;
      AsWrittenStuckAtFour(first, second, i + 1, fuel - 1);
    }
  }

  /**
   * As written, `query_slice` never returns once another writer has grown a 2-byte state to 10
   * bytes between its first two calls: the capacity gets stuck at 4 elements while the state holds 5.
   */
  lemma AsWrittenNeverEnds(first: seq<Byte>, second: seq<Byte>, fuel: nat)
    requires |first| == 2 && |second| == 10
    ensures SliceLoopAsWritten(AnyBitPattern(2), GrowingStates(first, second), 0, 0, fuel).None?
  {
    var states := GrowingStates(first, second);
    if fuel > 0 {
      assert SnapshotAt(states, 0) == Snapshot(true, first, 1);
      assert VecCapacity.Reserve(0, 0, 1 - 0, 2) == 4;
      AsWrittenStuckAtFour(first, second, 1, fuel - 1);
    }
  }

  /** With `reserve(len)` the same run ends after three calls with the five elements. */
  lemma CorrectedEnds(first: seq<Byte>, second: seq<Byte>)
    requires |first| == 2 && |second| == 10
    ensures SliceLoop(AnyBitPattern(2), GrowingStates(first, second), 0, 0)
      == SliceQuery(Ok((Chunks(second, 2), 2)), [0, 8, 16])
  {
    var t := AnyBitPattern(2);
    var states := GrowingStates(first, second);
    assert SnapshotAt(states, 2) == Snapshot(true, second, 2);
    assert AllValid(t, Chunks(second, 2));
    assert SliceLoop(t, states, 2, 8) == SliceQuery(Ok((Chunks(second, 2), 2)), [16]);
    assert SnapshotAt(states, 1) == Snapshot(true, second, 2);
    assert VecCapacity.Reserve(0, 4, 5, 2) == 8;
    assert SliceLoop(t, states, 1, 4) == SliceQuery(Ok((Chunks(second, 2), 2)), [8, 16]);
    assert SnapshotAt(states, 0) == Snapshot(true, first, 1);
    assert VecCapacity.Reserve(0, 0, 1, 2) == 4;
  }

  /** The kernel arguments of `update_slice_internal`: byte size, stamp to match, and whether to check it. */
  datatype UpdateArgs = UpdateArgs(bufferSize: nat, matchingStamp: Stamp, checkStamp: nat)

  function UpdateArgsFor(data: seq<Byte>, expected: Option<Stamp>): (a: UpdateArgs)
    ensures a.bufferSize == |data|
    ensures a.checkStamp == 1 <==> expected.Some?
    ensures a.checkStamp <= 1
    ensures a.matchingStamp == if expected.Some? then expected.value else 0
  {
    match expected
    case Some(stamp) => UpdateArgs(|data|, stamp, 1)
    case None => UpdateArgs(|data|, 0, 0)
  }

  /** `update_slice`: refused (`STATUS_UNSUCCESSFUL`) is `false`, any other failure an error, success `true`. */
  function UpdateResult(status: NtStatus): (r: Result<bool, NtStatus>)
    ensures r == Ok(false) <==> status == STATUS_UNSUCCESSFUL
    ensures r == Ok(true) <==> !IsErr(status)
    ensures r.Err? <==> IsErr(status) && status != STATUS_UNSUCCESSFUL
    ensures r.Err? ==> r.error == status
  {
    if status == STATUS_UNSUCCESSFUL then Ok(false)
    else if IsErr(status) then Err(status)
    else Ok(true)
  }

  /**
   * `update` and `update_slice`: a write that happens only if the state's stamp is `expected` (and
   * the data fits the state's maximum size; `tooLarge` is the kernel's answer when it does not).
   */
  method UpdateSlice(store: Store, tooLarge: ErrorStatus, data: seq<Byte>, expected: Stamp) returns (r: Result<bool, NtStatus>)
    modifies store
    ensures var (s, status) := UpdateWithin(old(store.State()), store.maxSize, tooLarge, data, expected, 1);
      store.State() == s && r == UpdateResult(status)
  {
    var args := UpdateArgsFor(data, Some(expected));
    var status := store.Update(tooLarge, data, args.matchingStamp, args.checkStamp);
    r := UpdateResult(status);
  }

  /** `set` and `set_slice`: an unconditional write; any failure is an error. */
  method SetSlice(store: Store, tooLarge: ErrorStatus, data: seq<Byte>) returns (r: Result<(), NtStatus>)
    modifies store
    ensures var (s, status) := UpdateWithin(old(store.State()), store.maxSize, tooLarge, data, 0, 0);
      store.State() == s && (r.Ok? <==> !IsErr(status)) && (r.Err? ==> r.error == status)
  {
    var args := UpdateArgsFor(data, None);
    var status := store.Update(tooLarge, data, args.matchingStamp, args.checkStamp);
    r := if IsErr(status) then Err(status) else Ok(());
  }

  /**
   * A conditional update on a state created with `maxSize`: `true` and the new data with the next
   * stamp exactly when the data fits and the expected stamp is current; `false` with nothing
   * changed when the data fits and the stamp is not current; the error `tooLarge` with nothing
   * changed when the data does not fit; an error on a deleted state.
   */
  lemma UpdateOnStore(s: Snapshot, maxSize: nat, tooLarge: ErrorStatus, data: seq<Byte>, expected: Stamp)
    ensures var (s', status) := UpdateWithin(s, maxSize, tooLarge, data, expected, 1);
      && (UpdateResult(status) == Ok(true) <==> s.live && |data| <= maxSize && expected == s.stamp)
      && (UpdateResult(status) == Ok(true) ==> s' == Snapshot(true, data, NextStamp(s.stamp)))
      && (UpdateResult(status) == Ok(false) <==> s.live && |data| <= maxSize && expected != s.stamp)
      && (UpdateResult(status) == Ok(false) ==> s' == s)
      && (UpdateResult(status).Err? <==> !s.live || |data| > maxSize)
      && (s.live && |data| > maxSize ==> s' == s && UpdateResult(status) == Err(tooLarge))
  {
  }

  /** `WnfApplyError<E>`. */
  datatype ApplyError<E> = QueryFailed(query: QueryError) | TransformFailed(error: E) | UpdateFailed(status: NtStatus)

  /**
   * `try_apply` (and `try_apply_boxed`): query, transform, then update conditionally on the stamp
   * just read, starting over when the update is refused. `others[j]` is what another writer puts
   * into the state between the `j`-th query and its update; once `others` is exhausted nobody
   * interferes. The update of a value longer than `maxSize` is refused with `tooLarge`. The
   * result comes with the final state.
   */
  function TryApplyRun<E>(t: Checked, f: seq<Byte> -> Result<Option<seq<Byte>>, E>,
                          maxSize: nat, tooLarge: ErrorStatus, s: Snapshot, others: seq<seq<Byte>>)
    : (r: (Result<bool, ApplyError<E>>, Snapshot))
    decreases |others|
  {
    match Query(t, s)
    case Err(e) => (Err(QueryFailed(e)), s)
    case Ok((v, stamp)) =>
      match f(v)
      case Err(e) => (Err(TransformFailed(e)), s)
      case Ok(None) => (Ok(false), s)
      case Ok(Some(w)) =>
        var s1 := if others == [] then s else UpdateAt(s, others[0], 0, 0).0;
        var (s2, status) := UpdateWithin(s1, maxSize, tooLarge, w, stamp, 1);
        match UpdateResult(status)
        case Err(e) => (Err(UpdateFailed(e)), s2)
        case Ok(true) => (Ok(true), s2)
        case Ok(false) =>
          if others == [] then assert false; (Ok(false), s2)
          else TryApplyRun(t, f, maxSize, tooLarge, s2, others[1..])
  }

  /** `try_apply`: the loop, run against the store, with the writes of others in between. */
  method TryApply<E>(store: Store, t: Checked, f: seq<Byte> -> Result<Option<seq<Byte>>, E>, tooLarge: ErrorStatus,
                     others: seq<seq<Byte>>)
    returns (r: Result<bool, ApplyError<E>>)
    requires forall j :: 0 <= j < |others| ==> |others[j]| <= store.maxSize
    modifies store
    ensures (r, store.State()) == TryApplyRun(t, f, store.maxSize, tooLarge, old(store.State()), others)
  {
    var j := 0;
    while true
      invariant 0 <= j <= |others|
      invariant TryApplyRun(t, f, store.maxSize, tooLarge, old(store.State()), others)
        == TryApplyRun(t, f, store.maxSize, tooLarge, store.State(), others[j..])
      decreases |others| - j
    {
      var queried := Query(t, store.State());
      if queried.Err? {
        return Err(QueryFailed(queried.error));
      }
      var (v, stamp) := queried.value;
      var transformed := f(v);
      if transformed.Err? {
        return Err(TransformFailed(transformed.error));
      }
      if transformed.value.None? {
        return Ok(false);
      }
      if j < |others| {
        var _ := store.Update(tooLarge, others[j], 0, 0);
      }
      var updated := UpdateSlice(store, tooLarge, transformed.value.value, stamp);
      if updated != Ok(false) {
        return match updated case Err(e) => Err(UpdateFailed(e)) case Ok(_) => Ok(true);
      }
      assert others[j..] != [] && others[j..][1..] == others[j + 1..];
      j := j + 1;
    }
  }

  /** `apply` (and `apply_boxed`): `try_apply` with a transform that cannot fail. */
  method Apply<E>(store: Store, t: Checked, f: seq<Byte> -> Option<seq<Byte>>, tooLarge: ErrorStatus, others: seq<seq<Byte>>)
    returns (r: Result<bool, ApplyError<E>>)
    requires forall j :: 0 <= j < |others| ==> |others[j]| <= store.maxSize
    modifies store
    ensures (r, store.State()) == TryApplyRun(t, v => Ok(f(v)), store.maxSize, tooLarge, old(store.State()), others)
    ensures r.Err? ==> !r.error.TransformFailed?
  {
    r := TryApply(store, t, v => Ok(f(v)), tooLarge, others);
    TryApplyNeverTransformFailed<E>(t, f, store.maxSize, tooLarge, old(store.State()), others);
  }

  lemma {:induction false} TryApplyNeverTransformFailed<E>(t: Checked, f: seq<Byte> -> Option<seq<Byte>>,
                                                           maxSize: nat, tooLarge: ErrorStatus, s: Snapshot, others: seq<seq<Byte>>)
    ensures var r := TryApplyRun<E>(t, v => Ok(f(v)), maxSize, tooLarge, s, others).0;
      r.Err? ==> !r.error.TransformFailed?
    decreases |others|
  {
    if others != [] {
      var q := Query(t, s);
      if q.Ok? && f(q.value.0).Some? {
        var s1 := UpdateAt(s, others[0], 0, 0).0;
        var s2 := UpdateWithin(s1, maxSize, tooLarge, f(q.value.0).value, q.value.1, 1).0;
        TryApplyNeverTransformFailed<E>(t, f, maxSize, tooLarge, s2, others[1..]);
      }
    }
  }

  /**
   * A successful `try_apply` wrote the transform of what the state held after all interfering
   * writes, one stamp later: the state never loses an update by another writer.
   */
  lemma {:induction false} TryApplyWritesTransformOfLatest<E>(t: Checked, f: seq<Byte> -> Result<Option<seq<Byte>>, E>,
                                                              maxSize: nat, tooLarge: ErrorStatus, s: Snapshot, others: seq<seq<Byte>>)
    ensures var (r, s') := TryApplyRun(t, f, maxSize, tooLarge, s, others);
      var latest := WriteAll(s, others);
      r == Ok(true) ==>
        Query(t, latest).Ok? && f(Query(t, latest).value.0) == Ok(Some(s'.data))
        && s'.stamp == NextStamp(latest.stamp) && s'.live && |s'.data| <= maxSize
    decreases |others|
  {
    if others != [] {
      var q := Query(t, s);
      if q.Ok? && f(q.value.0).Ok? && f(q.value.0).value.Some? {
        var s1 := UpdateAt(s, others[0], 0, 0).0;
        var s2 := UpdateWithin(s1, maxSize, tooLarge, f(q.value.0).value.value, q.value.1, 1).0;
        assert s2 == s1;
        TryApplyWritesTransformOfLatest(t, f, maxSize, tooLarge, s2, others[1..]);
      }
    }
  }

  /**
   * Without interference `try_apply` is one round: a query error, a transform error, `false` with
   * the state untouched, or `true` with the transformed value written one stamp later.
   */
  lemma TryApplyAlone<E>(t: Checked, f: seq<Byte> -> Result<Option<seq<Byte>>, E>, maxSize: nat, tooLarge: ErrorStatus, s: Snapshot)
    ensures var (r, s') := TryApplyRun(t, f, maxSize, tooLarge, s, []);
      && (Query(t, s).Err? ==> r == Err(QueryFailed(Query(t, s).error)) && s' == s)
      && (Query(t, s).Ok? && f(Query(t, s).value.0).Err? ==>
            r == Err(TransformFailed(f(Query(t, s).value.0).error)) && s' == s)
      && (Query(t, s).Ok? && f(Query(t, s).value.0) == Ok(None) ==> r == Ok(false) && s' == s)
      && (Query(t, s).Ok? && f(Query(t, s).value.0).Ok? && f(Query(t, s).value.0).value.Some?
          && |f(Query(t, s).value.0).value.value| <= maxSize ==>
            r == Ok(true) && s' == Snapshot(true, f(Query(t, s).value.0).value.value, NextStamp(s.stamp)))
      && (Query(t, s).Ok? && f(Query(t, s).value.0).Ok? && f(Query(t, s).value.0).value.Some?
          && |f(Query(t, s).value.0).value.value| > maxSize ==>
            r == Err(UpdateFailed(tooLarge)) && s' == s)
  {
  }

  /**
   * `try_apply_slice`: the loop of `try_apply` with `query_slice` and `update_slice`. Nobody writes
   * while a `query_slice` runs, so each round reads the decoding of the current state as a slice
   * (see `SliceLoopStable`); `others[j]` comes between the `j`-th query and its update. The
   * transform returns elements, and their bytes are written.
   */
  function TryApplySliceRun<E>(t: Checked, f: seq<seq<Byte>> -> Result<Option<seq<seq<Byte>>>, E>, maxSize: nat, tooLarge: ErrorStatus,
                                   s: Snapshot, others: seq<seq<Byte>>): (r: (Result<bool, ApplyError<E>>, Snapshot))
    decreases |others|
  {
    match SliceOf(t, s)
    case Err(e) => (Err(QueryFailed(e)), s)
    case Ok((v, stamp)) =>
      match f(v)
      case Err(e) => (Err(TransformFailed(e)), s)
      case Ok(None) => (Ok(false), s)
      case Ok(Some(w)) =>
        var s1 := if others == [] then s else UpdateAt(s, others[0], 0, 0).0;
        var (s2, status) := UpdateWithin(s1, maxSize, tooLarge, Flatten(w), stamp, 1);
        match UpdateResult(status)
        case Err(e) => (Err(UpdateFailed(e)), s2)
        case Ok(true) => (Ok(true), s2)
        case Ok(false) =>
          if others == [] then assert false; (Ok(false), s2)
          else TryApplySliceRun(t, f, maxSize, tooLarge, s2, others[1..])
  }

  /** `try_apply_slice`: the loop, run against the store with `query_slice` and `update_slice`. */
  method TryApplySlice<E>(store: Store, t: Checked, f: seq<seq<Byte>> -> Result<Option<seq<seq<Byte>>>, E>, tooLarge: ErrorStatus,
                          others: seq<seq<Byte>>)
    returns (r: Result<bool, ApplyError<E>>)
    requires forall j :: 0 <= j < |others| ==> |others[j]| <= store.maxSize
    modifies store
    ensures (r, store.State()) == TryApplySliceRun(t, f, store.maxSize, tooLarge, old(store.State()), others)
  {
    var j := 0;
    while true
      invariant 0 <= j <= |others|
      invariant TryApplySliceRun(t, f, store.maxSize, tooLarge, old(store.State()), others)
        == TryApplySliceRun(t, f, store.maxSize, tooLarge, store.State(), others[j..])
      decreases |others| - j
    {
      var queried := QuerySlice(t, [store.State()]);
      assert queried.result == SliceOf(t, store.State()) by {
        SliceLoopStable(t, store.State(), 0, 0);
      }
      if queried.result.Err? {
        return Err(QueryFailed(queried.result.error));
      }
      var (v, stamp) := queried.result.value;
      var transformed := f(v);
      if transformed.Err? {
        return Err(TransformFailed(transformed.error));
      }
      if transformed.value.None? {
        return Ok(false);
      }
      if j < |others| {
        var _ := store.Update(tooLarge, others[j], 0, 0);
      }
      var updated := UpdateSlice(store, tooLarge, Flatten(transformed.value.value), stamp);
      if updated != Ok(false) {
        return match updated case Err(e) => Err(UpdateFailed(e)) case Ok(_) => Ok(true);
      }
      assert others[j..] != [] && others[j..][1..] == others[j + 1..];
      j := j + 1;
    }
  }

  /** `apply_slice`: `try_apply_slice` with a transform that cannot fail. */
  method ApplySlice<E>(store: Store, t: Checked, f: seq<seq<Byte>> -> Option<seq<seq<Byte>>>, tooLarge: ErrorStatus,
                        others: seq<seq<Byte>>)
    returns (r: Result<bool, ApplyError<E>>)
    requires forall j :: 0 <= j < |others| ==> |others[j]| <= store.maxSize
    modifies store
    ensures (r, store.State()) == TryApplySliceRun(t, v => Ok(f(v)), store.maxSize, tooLarge, old(store.State()), others)
    ensures r.Err? ==> !r.error.TransformFailed?
  {
    r := TryApplySlice(store, t, v => Ok(f(v)), tooLarge, others);
    TryApplySliceNeverTransformFailed<E>(t, f, store.maxSize, tooLarge, old(store.State()), others);
  }

  lemma {:induction false} TryApplySliceNeverTransformFailed<E>(t: Checked, f: seq<seq<Byte>> -> Option<seq<seq<Byte>>>,
                                                                maxSize: nat, tooLarge: ErrorStatus, s: Snapshot, others: seq<seq<Byte>>)
    ensures var r := TryApplySliceRun<E>(t, v => Ok(f(v)), maxSize, tooLarge, s, others).0;
      r.Err? ==> !r.error.TransformFailed?
    decreases |others|
  {
    if others != [] {
      var q := SliceOf(t, s);
      if q.Ok? && f(q.value.0).Some? {
        var s1 := UpdateAt(s, others[0], 0, 0).0;
        var s2 := UpdateWithin(s1, maxSize, tooLarge, Flatten(f(q.value.0).value), q.value.1, 1).0;
        TryApplySliceNeverTransformFailed<E>(t, f, maxSize, tooLarge, s2, others[1..]);
      }
    }
  }

  /**
   * A successful `try_apply_slice` wrote the bytes of the transform of what the state held after
   * all interfering writes, read as a slice, one stamp later.
   */
  lemma {:induction false} TryApplySliceWritesTransformOfLatest<E>(t: Checked, f: seq<seq<Byte>> -> Result<Option<seq<seq<Byte>>>, E>,
                                                                   maxSize: nat, tooLarge: ErrorStatus, s: Snapshot, others: seq<seq<Byte>>)
    ensures var (r, s') := TryApplySliceRun(t, f, maxSize, tooLarge, s, others);
      var latest := WriteAll(s, others);
      r == Ok(true) ==>
        SliceOf(t, latest).Ok? && f(SliceOf(t, latest).value.0).Ok? && f(SliceOf(t, latest).value.0).value.Some?
        && Flatten(f(SliceOf(t, latest).value.0).value.value) == s'.data
        && s'.stamp == NextStamp(latest.stamp) && s'.live && |s'.data| <= maxSize
    decreases |others|
  {
    if others != [] {
      var q := SliceOf(t, s);
      if q.Ok? && f(q.value.0).Ok? && f(q.value.0).value.Some? {
        var s1 := UpdateAt(s, others[0], 0, 0).0;
        var s2 := UpdateWithin(s1, maxSize, tooLarge, Flatten(f(q.value.0).value.value), q.value.1, 1).0;
        assert s2 == s1;
        TryApplySliceWritesTransformOfLatest(t, f, maxSize, tooLarge, s2, others[1..]);
      }
    }
  }

  /**
   * Without interference `try_apply_slice` is one round: a query error, a transform error, `false`
   * with the state untouched, or `true` with the transformed elements written one stamp later.
   */
  lemma TryApplySliceAlone<E>(t: Checked, f: seq<seq<Byte>> -> Result<Option<seq<seq<Byte>>>, E>,
                              maxSize: nat, tooLarge: ErrorStatus, s: Snapshot)
    ensures var (r, s') := TryApplySliceRun(t, f, maxSize, tooLarge, s, []);
      && (SliceOf(t, s).Err? ==> r == Err(QueryFailed(SliceOf(t, s).error)) && s' == s)
      && (SliceOf(t, s).Ok? && f(SliceOf(t, s).value.0).Err? ==>
            r == Err(TransformFailed(f(SliceOf(t, s).value.0).error)) && s' == s)
      && (SliceOf(t, s).Ok? && f(SliceOf(t, s).value.0) == Ok(None) ==> r == Ok(false) && s' == s)
      && (SliceOf(t, s).Ok? && f(SliceOf(t, s).value.0).Ok? && f(SliceOf(t, s).value.0).value.Some?
          && |Flatten(f(SliceOf(t, s).value.0).value.value)| <= maxSize ==>
            r == Ok(true) && s' == Snapshot(true, Flatten(f(SliceOf(t, s).value.0).value.value), NextStamp(s.stamp)))
      && (SliceOf(t, s).Ok? && f(SliceOf(t, s).value.0).Ok? && f(SliceOf(t, s).value.0).value.Some?
          && |Flatten(f(SliceOf(t, s).value.0).value.value)| > maxSize ==>
            r == Err(UpdateFailed(tooLarge)) && s' == s)
  {
  }

  /** `FromByteBuffer for Value<T>` and `Boxed<T>`: the bits, if the size is right and they are valid. */
  function ValueFromByteBuffer(t: Checked, buffer: seq<Byte>): (r: Option<seq<Byte>>)
    ensures r.Some? <==> |buffer| == SizeOf(t) && IsValidBitPattern(t, buffer)
    ensures r.Some? ==> r.value == buffer
  {
    if |buffer| != SizeOf(t) then None
    else if IsValidBitPattern(t, buffer) then Some(buffer)
    else None
  }

  /**
   * `FromByteBuffer for BoxedSlice<T>`: for a zero-sized `T` the empty slice exactly when the
   * buffer is empty; otherwise the elements, if the size is a multiple and all of them are valid.
   */
  function SliceFromByteBuffer(t: Checked, buffer: seq<Byte>): (r: Option<seq<seq<Byte>>>)
    ensures SizeOf(t) == 0 ==> (r.Some? <==> |buffer| == 0) && (r.Some? ==> r.value == [])
    ensures SizeOf(t) > 0 ==> (r.Some? <==> |buffer| % SizeOf(t) == 0 && AllValid(t, Chunks(buffer, SizeOf(t))))
    ensures r.Some? ==> Flatten(r.value) == buffer && AllValid(t, r.value)
    ensures SizeOf(t) > 0 && r.Some? ==> |r.value| == |buffer| / SizeOf(t)
  {
    var k := SizeOf(t);
    if k == 0 then (if |buffer| == 0 then Some([]) else None)
    else if |buffer| % k != 0 then None
    else
      FlattenChunks(buffer, k);
      ChunksLength(buffer, k);
      var elems := Chunks(buffer, k);
      if AllValid(t, elems) then Some(elems) else None
  }

  /** A call on a listener: `call_valid` with the data and the stamp, or `call_invalid` with the stamp. */
  datatype ListenerCall<D> = CallValid(data: D, stamp: Stamp) | CallInvalid(stamp: Stamp)

  function CallFor<D>(decoded: Option<D>, stamp: Stamp): (c: ListenerCall<D>)
    ensures c.stamp == stamp
    ensures c.CallValid? <==> decoded.Some?
    ensures c.CallValid? ==> c.data == decoded.value
  {
    match decoded
    case Some(d) => CallValid(d, stamp)
    case None => CallInvalid(stamp)
  }

  /**
   * The callback registered by `subscribe_internal`: decode the buffer the kernel passes with
   * `decode`, which is `B::from_byte_buffer` (`ValueFromByteBuffer(t, _)` for `subscribe` and
   * `subscribe_boxed`, `SliceFromByteBuffer(t, _)` for `subscribe_slice`), hand the result to the
   * listener if it is still there, and report `STATUS_SUCCESS` to the kernel in every case.
   */
  method Callback<D>(context: Subscriptions.Context<ListenerCall<D>>, decode: seq<Byte> -> Option<D>, buffer: seq<Byte>,
                     stamp: Stamp, panics: bool)
    returns (status: NtStatus)
    modifies context
    ensures status == STATUS_SUCCESS
    ensures context.calls == if old(context.present) && !old(context.poisoned)
      then old(context.calls) + [CallFor(decode(buffer), stamp)] else old(context.calls)
  {
    var maybeData := decode(buffer);
    context.WithListener(CallFor(maybeData, stamp), panics);
    status := STATUS_SUCCESS;
  }

  /**
   * `subscribe_internal`, where the kernel answers the registration with `status` and a handle:
   * success gives a subscription handle holding a fresh context; failure gives the error.
   */
  method Subscribe<D>(status: NtStatus, subscription: bv64) returns (r: Result<Subscriptions.Handle<ListenerCall<D>>, NtStatus>)
    ensures r.Err? <==> IsErr(status)
    ensures r.Err? ==> r.error == status
    ensures r.Ok? ==> fresh(r.value) && r.value.inner.Some?
    ensures r.Ok? ==> r.value.inner.value.subscription == subscription && fresh(r.value.inner.value.context)
    ensures r.Ok? ==> r.value.inner.value.context.present && r.value.inner.value.context.calls == []
  {
    var context := new Subscriptions.Context<ListenerCall<D>>();
    if IsErr(status) {
      return Err(status);
    }
    var handle := new Subscriptions.Handle(context, subscription);
    r := Ok(handle);
  }
}

=== FILE: read.dfy ===
/**
 * `WnfRead` (src/read.rs): reading opaque data, a single value (plain or boxed) or a slice, either
 * from a buffer of known contents or through a reader closure.
 */
module Read {
  import opened Wrappers
  import opened Arith
  import opened Bytes
  import opened Replies
  import VecCapacity

  /** `WnfReadError`, plus the reader's own `io::Error`, which is passed on unchanged. */
  datatype ReadError<E> =
    | WrongSize(expected: nat, actual: nat)
    | WrongSizeMultiple(expectedModulus: nat, actual: nat)
    | InvalidBitPattern
    | Io(error: E)

  /** `WnfOpaqueData`: a marker carrying no bytes. */
  datatype OpaqueData = OpaqueData

  /** The outcome of a reading through a reader, and the buffer size in bytes of each reader call. */
  datatype Reading<T, M, E> = Reading(result: Result<(T, M), ReadError<E>>, calls: seq<nat>)

  /** Pairs a decoded value with the reader's metadata, keeping errors. */
  function WithMeta<T, M, E>(r: Result<T, ReadError<E>>, meta: M): Result<(T, M), ReadError<E>>
  {
    match r
    case Ok(v) => Ok((v, meta))
    case Err(e) => Err(e)
  }

  // ---- WnfOpaqueData ----

  /** `WnfOpaqueData::from_buffer`: never fails and never looks at the buffer. */
  function OpaqueFromBuffer<E>(data: seq<Byte>): Result<OpaqueData, ReadError<E>>
  {
    Ok(OpaqueData)
  }

  lemma OpaqueFromBufferIgnoresData<E>(a: seq<Byte>, b: seq<Byte>)
    ensures OpaqueFromBuffer<E>(a) == OpaqueFromBuffer<E>(b) == Ok(OpaqueData)
  {
  }

  /** `WnfOpaqueData::from_reader`: one call with a zero-size buffer, only for its metadata. */
  function OpaqueFromReader<M, E>(script: seq<Reply<M, E>>): (r: Reading<OpaqueData, M, E>)
    requires |script| > 0
    ensures r.calls == [0]
    ensures r.result.Ok? <==> script[0].Reply?
    ensures script[0].Reply? ==> r.result.value == (OpaqueData, script[0].meta)
    ensures script[0].Failure? ==> r.result == Err(Io(script[0].error))
  {
    match ReplyAt(script, 0)
    case Failure(e) => Reading(Err(Io(e)), [0])
    case Reply(_, meta) => Reading(Ok((OpaqueData, meta)), [0])
  }

  // ---- T and Box<T>: CheckedBitPattern ----

  /** The checks shared by all single-value readers: exact size, then a valid bit pattern. */
  function CheckValue<E>(t: Checked, size: nat, bits: seq<Byte>): (r: Result<seq<Byte>, ReadError<E>>)
    requires size == SizeOf(t) ==> |bits| == size
  {
    if size != SizeOf(t) then Err(WrongSize(SizeOf(t), size))
    else if IsValidBitPattern(t, bits) then Ok(bits)
    else Err(InvalidBitPattern)
  }

  /** `T::from_buffer` (and the `Box<T>` variant, which checks the same). */
  function ValueFromBuffer<E>(t: Checked, data: seq<Byte>): Result<seq<Byte>, ReadError<E>>
  {
    CheckValue(t, |data|, data)
  }

  /** A value decodes exactly when the buffer has its size and a valid bit pattern, and is then those bytes. */
  lemma ValueFromBufferChecks<E>(t: Checked, data: seq<Byte>)
    ensures var r := ValueFromBuffer<E>(t, data);
      && (r.Ok? <==> |data| == SizeOf(t) && IsValidBitPattern(t, data))
      && (r.Ok? ==> r.value == data)
      && (|data| != SizeOf(t) ==> r == Err(WrongSize(SizeOf(t), |data|)))
      && (|data| == SizeOf(t) && r.Err? ==> r == Err(InvalidBitPattern))
  {
  }

  /** `T::from_reader` (and the `Box<T>` variant): one call offering exactly `size_of::<T::Bits>()` bytes. */
  function ValueFromReader<M, E>(t: Checked, script: seq<Reply<M, E>>): (r: Reading<seq<Byte>, M, E>)
    requires |script| > 0
    ensures r.calls == [SizeOf(t)]
    ensures script[0].Failure? ==> r.result == Err(Io(script[0].error))
    ensures script[0].Reply? ==> r.result == WithMeta(ValueFromBuffer(t, script[0].data), script[0].meta)
  {
    match ReplyAt(script, 0)
    case Failure(e) => Reading(Err(Io(e)), [SizeOf(t)])
    case Reply(data, meta) => Reading(WithMeta(CheckValue(t, |data|, Copied(data, SizeOf(t))), meta), [SizeOf(t)])
  }

  // ---- [T]: CheckedBitPattern ----

  /** `buffer.iter().all(T::is_valid_bit_pattern)` after `set_len`. */
  function CheckSlice<E>(t: Checked, elems: seq<seq<Byte>>): Result<seq<seq<Byte>>, ReadError<E>>
  {
    if AllValid(t, elems) then Ok(elems) else Err(InvalidBitPattern)
  }

  /** The elements pass exactly when each is a valid bit pattern, and pass unchanged. */
  lemma CheckSliceChecks<E>(t: Checked, elems: seq<seq<Byte>>)
    ensures var r := CheckSlice<E>(t, elems);
      && (r.Ok? <==> AllValid(t, elems))
      && (r.Ok? ==> r.value == elems)
      && (r.Err? ==> r == Err(InvalidBitPattern))
  {
  }

  /** `<[T]>::from_buffer`. */
  function SliceFromBuffer<E>(t: Checked, data: seq<Byte>): Result<seq<seq<Byte>>, ReadError<E>>
  {
    var k := SizeOf(t);
    if k == 0 then
      if |data| == 0 then Ok([]) else Err(WrongSize(0, |data|))
    else if |data| % k != 0 then Err(WrongSizeMultiple(k, |data|))
    else CheckSlice(t, Chunks(data, k))
  }

  /**
   * A slice decodes exactly when the buffer is a whole number of valid elements (nothing, for a
   * zero-sized element); the elements then flatten back to the buffer.
   */
  lemma SliceFromBufferChecks<E>(t: Checked, data: seq<Byte>)
    ensures var r := SliceFromBuffer<E>(t, data);
      && (SizeOf(t) == 0 ==> (r.Ok? <==> |data| == 0))
      && (SizeOf(t) == 0 && |data| != 0 ==> r == Err(WrongSize(0, |data|)))
      && (SizeOf(t) > 0 && |data| % SizeOf(t) != 0 ==> r == Err(WrongSizeMultiple(SizeOf(t), |data|)))
      && (SizeOf(t) > 0 && |data| % SizeOf(t) == 0 ==> (r.Ok? <==> AllValid(t, Chunks(data, SizeOf(t)))))
      && (r.Ok? ==> Flatten(r.value) == data && AllValid(t, r.value))
      && (r.Ok? && SizeOf(t) > 0 ==> |r.value| == |data| / SizeOf(t))
  {
    var k := SizeOf(t);
    if k > 0 && |data| % k == 0 {
      FlattenChunks(data, k);
      ChunksLength(data, k);
    }
  }

  /**
   * Whether a reply makes the loop of `<[T]>::from_reader` grow its buffer of `cap` elements and
   * call again: a non-zero size, a whole number of non-zero-sized elements, more than fit.
   */
  predicate Grows<M, E>(t: Checked, reply: Reply<M, E>, cap: nat)
  {
    reply.Reply? && |reply.data| > 0 && SizeOf(t) > 0 && |reply.data| % SizeOf(t) == 0
    && |reply.data| / SizeOf(t) > cap
  }

  /**
   * How a round that does not grow ends the loop: the reader's error; no elements for a size of 0;
   * an error for a zero-sized `T` or a size that is not a multiple; otherwise the elements read,
   * checked.
   */
  function Settle<M, E>(t: Checked, reply: Reply<M, E>, cap: nat): (r: Result<(seq<seq<Byte>>, M), ReadError<E>>)
    requires !Grows(t, reply, cap)
  {
    var k := SizeOf(t);
    match reply
    case Failure(e) => Err(Io(e))
    case Reply(data, meta) =>
      if |data| == 0 then WithMeta(CheckSlice(t, []), meta)
      else if k == 0 then Err(WrongSize(0, |data|))
      else if |data| % k != 0 then Err(WrongSizeMultiple(k, |data|))
      else
        ElementCount(|data|, k, cap);
        WithMeta(CheckSlice(t, Chunks(Copied(data, cap * k), k)), meta)
  }

  /**
   * The retry loop of `<[T]>::from_reader`, from the `i`-th reader call on, with a buffer of `cap`
   * elements: a round that grows reserves `len - buffer.len()` more elements and calls again;
   * any other round ends the loop as `Settle` says.
   */
  function SliceLoop<M, E>(t: Checked, script: seq<Reply<M, E>>, i: nat, cap: nat): (r: Reading<seq<seq<Byte>>, M, E>)
    requires |script| > 0
    ensures |r.calls| >= 1 && r.calls[0] == cap * SizeOf(t)
    decreases Bound(script, cap)
  {
    var reply := ReplyAt(script, i);
    if Grows(t, reply, cap) then
      var k := SizeOf(t);
      var len := |reply.data| / k;
      ElementCount(|reply.data|, k, cap);
      var next := SliceLoop(t, script, i + 1, VecCapacity.Reserve(0, cap, len - 0, k));
      Reading(next.result, [cap * k] + next.calls)
    else
      Reading(Settle(t, reply, cap), [cap * SizeOf(t)])
  }

  /** A round that grows is followed by the rest of the loop, from a larger capacity. */
  lemma SliceLoopGrows<M, E>(t: Checked, script: seq<Reply<M, E>>, i: nat, cap: nat, calls: seq<nat>)
    requires |script| > 0 && Grows(t, ReplyAt(script, i), cap)
    ensures var k := SizeOf(t);
      var grown := VecCapacity.Reserve(0, cap, |ReplyAt(script, i).data| / k, k);
      var next := SliceLoop(t, script, i + 1, grown);
      && Bound(script, grown) < Bound(script, cap)
      && SliceLoop(t, script, i, cap).result == next.result
      && calls + SliceLoop(t, script, i, cap).calls == (calls + [cap * k]) + next.calls
  {
    var k := SizeOf(t);
    ElementCount(|ReplyAt(script, i).data|, k, cap);
  }

  /**
   * `<[T]>::from_reader`: the loop above, run in place on a growing buffer. Each round offers the
   * buffer's capacity in bytes; a round that does not grow ends the loop with the checks of `Settle`.
   */
  method SliceFromReader<M, E>(t: Checked, script: seq<Reply<M, E>>) returns (r: Reading<seq<seq<Byte>>, M, E>)
    requires |script| > 0
    ensures r == SliceLoop(t, script, 0, 0)
  {
    var k := SizeOf(t);
    var cap := 0;
    var i := 0;
    var calls := [];
    while true
      invariant SliceLoop(t, script, 0, 0) == Reading(SliceLoop(t, script, i, cap).result, calls + SliceLoop(t, script, i, cap).calls)
      decreases Bound(script, cap)
    {
      var reply := ReplyAt(script, i);
      if !Grows(t, reply, cap) {
        return Reading(Settle(t, reply, cap), calls + [cap * k]);
      }
      var len := |reply.data| / k;
      SliceLoopGrows(t, script, i, cap, calls);
      var grown := VecCapacity.Reserve(0, cap, len - 0, k);
      calls := calls + [cap * k];
      cap := grown;
      i := i + 1;
    }
  }

  /** A round that does not grow, on a reply of `data`, decodes `data` as `<[T]>::from_buffer` does. */
  lemma SettleFromBuffer<M, E>(t: Checked, reply: Reply<M, E>, cap: nat)
    requires reply.Reply? && !Grows(t, reply, cap)
    ensures Settle(t, reply, cap) == WithMeta(SliceFromBuffer<E>(t, reply.data), reply.meta)
  {
    var k := SizeOf(t);
    if |reply.data| > 0 && k > 0 && |reply.data| % k == 0 {
      ElementCount(|reply.data|, k, cap);
    }
  }

  /** A successful result holds the metadata and all the bytes of `last`, as valid elements. */
  ghost predicate FromReply<M, E>(t: Checked, result: Result<(seq<seq<Byte>>, M), ReadError<E>>, last: Reply<M, E>)
  {
    result.Ok? ==> (last.Reply? && result.value.1 == last.meta
                    && Flatten(result.value.0) == last.data && AllValid(t, result.value.0))
  }

  /** A round that does not grow succeeds only on a reply, with its metadata and all its bytes. */
  lemma SettleReturnsReply<M, E>(t: Checked, reply: Reply<M, E>, cap: nat)
    requires !Grows(t, reply, cap)
    ensures FromReply(t, Settle(t, reply, cap), reply)
  {
    var k := SizeOf(t);
    if reply.Reply? && |reply.data| > 0 && k > 0 && |reply.data| % k == 0 {
      ElementCount(|reply.data|, k, cap);
      FlattenChunks(reply.data, k);
    }
  }

  /**
   * When the state does not change between calls (a reader with one reply), reading through the
   * reader gives what decoding the state's bytes directly gives, with the reply's metadata.
   */
  lemma {:induction false} SliceLoopStable<M, E>(t: Checked, data: seq<Byte>, meta: M, i: nat, cap: nat)
    ensures SliceLoop(t, [Reply(data, meta)], i, cap).result == WithMeta(SliceFromBuffer<E>(t, data), meta)
    decreases Bound<M, E>([Reply(data, meta)], cap)
  {
    var reply: Reply<M, E> := Reply(data, meta);
    var script := [reply];
    assert ReplyAt(script, i) == reply;
    if Grows(t, reply, cap) {
      var k := SizeOf(t);
      SliceLoopGrows(t, script, i, cap, []);
      SliceLoopStable<M, E>(t, data, meta, i + 1, VecCapacity.Reserve(0, cap, |data| / k, k));
    } else {
      SettleFromBuffer(t, reply, cap);
    }
  }

  /**
   * The loop from the `i`-th call with a buffer of `cap` elements, if it succeeds, returns the
   * metadata and all the bytes of the reply to its last call.
   */
  ghost predicate ReturnsLastReply<M, E>(t: Checked, script: seq<Reply<M, E>>, i: nat, cap: nat)
    requires |script| > 0
  {
    var r := SliceLoop(t, script, i, cap);
    FromReply(t, r.result, ReplyAt(script, i + |r.calls| - 1))
  }

  /** A successful slice reading returns the elements and the metadata of the last reader call. */
  lemma {:induction false} SliceLoopReturnsLastReply<M, E>(t: Checked, script: seq<Reply<M, E>>, i: nat, cap: nat)
    requires |script| > 0
    ensures ReturnsLastReply(t, script, i, cap)
    decreases Bound(script, cap)
  {
    var reply := ReplyAt(script, i);
    if Grows(t, reply, cap) {
      var k := SizeOf(t);
      var grown := VecCapacity.Reserve(0, cap, |reply.data| / k, k);
      SliceLoopGrows(t, script, i, cap, []);
      SliceLoopReturnsLastReply(t, script, i + 1, grown);
      GrownReturnsReply(t, script, i, cap, grown);
    } else {
      SettledReturnsReply(t, script, i, cap);
    }
  }

  /** A loop whose first round grows returns what the rest of the loop returns. */
  lemma GrownReturnsReply<M, E>(t: Checked, script: seq<Reply<M, E>>, i: nat, cap: nat, grown: nat)
    requires |script| > 0 && Grows(t, ReplyAt(script, i), cap)
    requires grown == VecCapacity.Reserve(0, cap, |ReplyAt(script, i).data| / SizeOf(t), SizeOf(t))
    requires ReturnsLastReply(t, script, i + 1, grown)
    ensures ReturnsLastReply(t, script, i, cap)
  {
    var k := SizeOf(t);
    var next := SliceLoop(t, script, i + 1, grown);
    ElementCount(|ReplyAt(script, i).data|, k, cap);
    assert SliceLoop(t, script, i, cap) == Reading(next.result, [cap * k] + next.calls);
  }

  /** A loop whose first round does not grow returns what that round's reply holds. */
  lemma SettledReturnsReply<M, E>(t: Checked, script: seq<Reply<M, E>>, i: nat, cap: nat)
    requires |script| > 0 && !Grows(t, ReplyAt(script, i), cap)
    ensures ReturnsLastReply(t, script, i, cap)
  {
    var reply := ReplyAt(script, i);
    assert SliceLoop(t, script, i, cap) == Reading(Settle(t, reply, cap), [cap * SizeOf(t)]);
    SettleReturnsReply(t, reply, cap);
  }

  /**
   * The `j`-th call of a loop that started at call `i` was followed by another one: its reply
   * reported more bytes than the buffer offered, and the next call offers more.
   */
  predicate CalledAgainAfter<M, E>(script: seq<Reply<M, E>>, i: nat, calls: seq<nat>, j: int)
    requires |script| > 0 && 0 <= j && j + 1 < |calls|
  {
    ReplyAt(script, i + j).Reply? && |ReplyAt(script, i + j).data| > calls[j] && calls[j] < calls[j + 1]
  }

  /**
   * The reader is called again only after it reported more bytes than the buffer offered, and each
   * new call offers strictly more bytes than the one before.
   */
  lemma {:induction false} SliceLoopCallsGrow<M, E>(t: Checked, script: seq<Reply<M, E>>, i: nat, cap: nat, j: nat)
    requires |script| > 0 && j + 1 < |SliceLoop(t, script, i, cap).calls|
    ensures CalledAgainAfter(script, i, SliceLoop(t, script, i, cap).calls, j)
    decreases j
  {
    var reply := ReplyAt(script, i);
    if Grows(t, reply, cap) {
      var k := SizeOf(t);
      var cap' := VecCapacity.Reserve(0, cap, |reply.data| / k, k);
      var r := SliceLoop(t, script, i, cap);
      var next := SliceLoop(t, script, i + 1, cap');
      assert r.calls == [cap * k] + next.calls by {
        SliceLoopGrows(t, script, i, cap, []);
      }
      if j == 0 {
        ElementCount(|reply.data|, k, cap);
        MulMonotone(cap', cap, k);
      } else {
        SliceLoopCallsGrow(t, script, i + 1, cap', j - 1);
        assert i + j == (i + 1) + (j - 1);
      }
    }
  }

  /**
   * The growing reader of the read.rs tests: one `u16` first, then five. The buffer grows to four
   * elements, then to eight, and the result is the five elements with the second metadata.
   */
  lemma GrowingReader(first: seq<Byte>, second: seq<Byte>)
    requires |first| == 2 && |second| == 10
    ensures var r := SliceLoop<string, ()>(AnyBitPattern(2), [Reply(first, "Meta 1"), Reply(second, "Meta 2")], 0, 0);
      && r.calls == [0, 8, 16]
      && r.result.Ok? && r.result.value.1 == "Meta 2" && |r.result.value.0| == 5
      && Flatten(r.result.value.0) == second
  {
    var script: seq<Reply<string, ()>> := [Reply(first, "Meta 1"), Reply(second, "Meta 2")];
    ElementCount(2, 2, 0);
    ElementCount(10, 2, 4);
    ElementCount(10, 2, 8);
    var t := AnyBitPattern(2);
    assert VecCapacity.Reserve(0, 0, 1, 2) == 4;
    assert VecCapacity.Reserve(0, 4, 5, 2) == 8;
    var last := SliceLoop(t, script, 2, 8);
    assert last.calls == [16];
    var middle := SliceLoop(t, script, 1, 4);
    assert middle.calls == [8] + last.calls && middle.result == last.result;
    var first := SliceLoop(t, script, 0, 0);
    assert first.calls == [0] + middle.calls && first.result == last.result;
    SliceLoopReturnsLastReply(t, script, 0, 0);
    ChunksLength(second, 2);
  }
}

=== FILE: replace.dfy ===
/**
 * `RawState::replace_as` (src/replace.rs): writes a new value through `apply_as` and returns the
 * value it replaced, which the transform stores in `old_value` each time it runs. The state was
 * created with the maximum size `maxSize`, and the kernel refuses a larger write with `tooLarge`.
 */
module Replace {
  import opened Wrappers
  import opened Bytes
  import opened Kernel
  import Read
  import Apply

  /** The transform of `replace_as`: whatever it is given, it writes `newValue`. */
  function Constant<D>(newValue: seq<Byte>): D -> seq<Byte>
  {
    _ => newValue
  }

  /** `replace_as` as a function of the state: the value read in the round that wrote, or the error. */
  function ReplaceRun<D>(decode: seq<Byte> -> Result<D, Read.ReadError<NtStatus>>, newValue: seq<Byte>,
                         maxSize: nat, tooLarge: ErrorStatus, s: Snapshot, others: seq<seq<Byte>>): (r: (Result<D, Apply.IoError<()>>, Snapshot))
  {
    var run := Apply.TryApplyRun<D, ()>(decode, Apply.Infallible(Constant(newValue)), maxSize, tooLarge, s, others);
    match run.result
    case Err(e) => (Err(e), run.final)
    case Ok(_) =>
      Apply.TryApplyWritesLatest<D, ()>(decode, Apply.Infallible(Constant(newValue)), maxSize, tooLarge, s, others);
      (Ok(run.seen[|run.seen| - 1]), run.final)
  }

  /**
   * `replace_as`: `old_value` starts empty and is overwritten by each run of the transform, so it
   * ends up holding the value of the round whose write succeeded; it is never empty then.
   */
  method ReplaceAs<D>(store: Store, decode: seq<Byte> -> Result<D, Read.ReadError<NtStatus>>, newValue: seq<Byte>,
                      tooLarge: ErrorStatus, others: seq<seq<Byte>>)
    returns (r: Result<D, Apply.IoError<()>>)
    requires forall j :: 0 <= j < |others| ==> |others[j]| <= store.maxSize
    modifies store
    ensures (r, store.State()) == ReplaceRun(decode, newValue, store.maxSize, tooLarge, old(store.State()), others)
  {
    var oldValue: Option<D> := None;
    var result, seen := Apply.ApplyAs<D, ()>(store, decode, Constant(newValue), tooLarge, others);
    for j := 0 to |seen|
      invariant j == 0 ==> oldValue == None
      invariant j > 0 ==> oldValue == Some(seen[j - 1])
    {
      oldValue := Some(seen[j]);
    }
    if result.Err? {
      return Err(result.error);
    }
    Apply.TryApplyWritesLatest<D, ()>(decode, Apply.Infallible(Constant(newValue)), store.maxSize, tooLarge, old(store.State()), others);
    r := Ok(oldValue.value);
  }

  /**
   * A successful `replace_as` leaves the new value in the state, one stamp after the state as every
   * interfering write left it, and returns that state's value: never an older one from a round
   * that had to be retried. The new value fits the state's maximum size then.
   */
  lemma ReplaceReturnsLatest<D>(decode: seq<Byte> -> Result<D, Read.ReadError<NtStatus>>, newValue: seq<Byte>,
                                maxSize: nat, tooLarge: ErrorStatus, s: Snapshot, others: seq<seq<Byte>>)
    ensures var (r, final) := ReplaceRun(decode, newValue, maxSize, tooLarge, s, others);
      var latest := WriteAll(s, others);
      r.Ok? ==>
        && final == Snapshot(true, newValue, NextStamp(latest.stamp))
        && Apply.QueryOn(decode, latest) == Ok((r.value, latest.stamp))
        && |newValue| <= maxSize
  {
    var run := Apply.TryApplyRun<D, ()>(decode, Apply.Infallible(Constant(newValue)), maxSize, tooLarge, s, others);
    Apply.TryApplyWritesLatest<D, ()>(decode, Apply.Infallible(Constant(newValue)), maxSize, tooLarge, s, others);
  }

  /**
   * Errors of `apply_as` pass through; a transform that cannot fail adds none of its own. A new
   * value over the maximum size is never written: once the state has been read, the kernel's
   * `tooLarge` is the outcome.
   */
  lemma ReplaceErrors<D>(decode: seq<Byte> -> Result<D, Read.ReadError<NtStatus>>, newValue: seq<Byte>,
                         maxSize: nat, tooLarge: ErrorStatus, s: Snapshot, others: seq<seq<Byte>>)
    ensures var (r, _) := ReplaceRun(decode, newValue, maxSize, tooLarge, s, others);
      && (r.Err? <==> Apply.TryApplyRun<D, ()>(decode, Apply.Infallible(Constant(newValue)), maxSize, tooLarge, s, others).result.Err?)
      && (r.Err? ==> !r.error.Other?)
      && (|newValue| > maxSize ==> r.Err?)
      && (|newValue| > maxSize && Apply.QueryOn(decode, s).Ok? ==> r == Err(Apply.UpdateFailed(tooLarge)))
  {
    Apply.NeverOther<D, ()>(decode, Constant(newValue), maxSize, tooLarge, s, others);
  }

  /** A sequence of replaces with nobody else writing: what each returned, and the final state. */
  function ReplaceAll<D>(decode: seq<Byte> -> Result<D, Read.ReadError<NtStatus>>, maxSize: nat, tooLarge: ErrorStatus,
                         s: Snapshot, values: seq<seq<Byte>>): (r: (seq<Result<D, Apply.IoError<()>>>, Snapshot))
    ensures |r.0| == |values|
    decreases |values|
  {
    if values == [] then ([], s)
    else
      var (first, s1) := ReplaceRun(decode, values[0], maxSize, tooLarge, s, []);
      var (rest, final) := ReplaceAll(decode, maxSize, tooLarge, s1, values[1..]);
      ([first] + rest, final)
  }

  /** The data a state holds before the `i`-th of a sequence of writes of `values`. */
  function Previous(initial: seq<Byte>, values: seq<seq<Byte>>, i: nat): seq<Byte>
    requires i < |values|
  {
    if i == 0 then initial else values[i - 1]
  }

  /**
   * Over a sequence of replaces on a live state with values that fit its maximum size (the test's
   * `u32`s), each call returns the value the previous one wrote (the first returns the initial
   * value), and the state ends up holding the last value: together the values returned and the
   * final value are the initial value and the values written.
   */
  lemma {:induction false} ReplaceSequence<D>(decode: seq<Byte> -> Result<D, Read.ReadError<NtStatus>>, maxSize: nat,
                                              tooLarge: ErrorStatus, s: Snapshot, values: seq<seq<Byte>>)
    requires s.live && decode(s.data).Ok?
    requires forall i :: 0 <= i < |values| ==> decode(values[i]).Ok? && |values[i]| <= maxSize
    ensures var (returned, final) := ReplaceAll(decode, maxSize, tooLarge, s, values);
      && (forall i :: 0 <= i < |values| ==> returned[i] == Ok(decode(Previous(s.data, values, i)).value))
      && final.live
      && final.data == if values == [] then s.data else values[|values| - 1]
    decreases |values|
  {
    if values != [] {
      var (first, s1) := ReplaceRun(decode, values[0], maxSize, tooLarge, s, []);
      ReplaceReturnsLatest(decode, values[0], maxSize, tooLarge, s, []);
      ReplaceErrors(decode, values[0], maxSize, tooLarge, s, []);
      assert first == Ok(decode(s.data).value);
      ReplaceSequence(decode, maxSize, tooLarge, s1, values[1..]);
      var (rest, final) := ReplaceAll(decode, maxSize, tooLarge, s1, values[1..]);
      forall i | 0 <= i < |values|
        ensures ReplaceAll(decode, maxSize, tooLarge, s, values).0[i] == Ok(decode(Previous(s.data, values, i)).value)
      {
        if i > 0 {
          assert Previous(s1.data, values[1..], i - 1) == Previous(s.data, values, i);
        }
      }
    }
  }
}

=== FILE: replies.dfy ===
/**
 * A reader closure, `FnMut(*mut c_void, usize) -> io::Result<(usize, Meta)>`, modelled by its
 * script of replies: each call is answered by the next reply, the last one repeating once the
 * script is exhausted. A reply reports the full size of the data, whatever the capacity offered,
 * and copies only what fits.
 */
module Replies {
  import opened Bytes

  datatype Reply<M, E> = Reply(data: seq<Byte>, meta: M) | Failure(error: E)

  /** The reply to the `i`-th call (counting from 0). */
  function ReplyAt<M, E>(script: seq<Reply<M, E>>, i: nat): (r: Reply<M, E>)
    requires |script| > 0
    ensures r in script
  {
    script[if i < |script| then i else |script| - 1]
  }

  /** The bytes a call with a buffer of `capacity` bytes receives: `min(data.len(), size)` of them. */
  function Copied(data: seq<Byte>, capacity: nat): (c: seq<Byte>)
    ensures |c| <= capacity && c <= data
    ensures |data| <= capacity ==> c == data
  {
    if |data| <= capacity then data else data[..capacity]
  }

  /** The largest size any reply of the script reports. */
  function MaxSize<M, E>(script: seq<Reply<M, E>>): (m: nat)
    ensures forall r :: r in script && r.Reply? ==> |r.data| <= m
  {
    if script == [] then 0
    else
      var rest := MaxSize(script[1..]);
      assert forall r :: r in script ==> r == script[0] || r in script[1..];
      if script[0].Reply? && |script[0].data| > rest then |script[0].data| else rest
  }

  /**
   * The termination measure of the growing-buffer loops: no reply reports more than `MaxSize`
   * bytes, so a capacity that keeps growing past reported lengths reaches it.
   */
  function Bound<M, E>(script: seq<Reply<M, E>>, cap: nat): nat
  {
    if cap < MaxSize(script) then MaxSize(script) - cap else 0
  }
}

=== FILE: state.dfy ===
/**
 * The state handles of the `Wnf*` generation (src/state.rs): `RawWnfState<T>`, a state name with a
 * type id; `OwnedWnfState<T>`, which deletes the state when dropped; and `BorrowedWnfState<'a, T>`,
 * which does not. `T` is a marker only.
 *
 * Dropping is explicit here: `DropOwned` is the drop glue of an owned state, run against the
 * store that holds the state the handle names; `Leak` and the casts consume an owned state
 * without running it.
 */
module States {
  import opened Kernel
  import StateName
  import TypeIds

  /** `RawWnfState<T>`. */
  datatype RawWnfState<T> = RawWnfState(stateName: StateName.Name, typeId: TypeIds.TypeId)

  /** `RawWnfState::from_state_name_and_type_id`. */
  function FromStateNameAndTypeId<T>(stateName: StateName.Name, typeId: TypeIds.TypeId): RawWnfState<T>
  {
    RawWnfState(stateName, typeId)
  }

  /** `RawWnfState::cast`: the same state name and type id under another marker. */
  function Cast<T, U>(r: RawWnfState<T>): (c: RawWnfState<U>)
  {
    FromStateNameAndTypeId(r.stateName, r.typeId)
  }

  /** `PartialEq for RawWnfState`: the state name identifies a state, so the type id is not compared. */
  predicate Equal<T>(a: RawWnfState<T>, b: RawWnfState<T>)
  {
    a.stateName == b.stateName
  }

  /** What `Hash for RawWnfState` feeds to the hasher: the state name only. */
  function HashInput<T>(r: RawWnfState<T>): StateName.Name
  {
    r.stateName
  }

  /**
   * Equality is sameness of the state name whatever the type ids, it is an equivalence, and equal
   * raw states hash alike.
   */
  lemma EqualityIgnoresTypeId<T>(a: RawWnfState<T>, b: RawWnfState<T>, c: RawWnfState<T>, other: TypeIds.TypeId)
    ensures Equal(a, b) <==> a.stateName == b.stateName
    ensures Equal(a, a.(typeId := other))
    ensures Equal(a, b) ==> HashInput(a) == HashInput(b)
    ensures Equal(a, b) ==> Equal(b, a)
    ensures Equal(a, b) && Equal(b, c) ==> Equal(a, c)
  {
  }

  /** A cast keeps the state name and the type id, and casting back gives the raw state it started from. */
  lemma CastPreserves<T, U>(r: RawWnfState<T>)
    ensures Cast<T, U>(r).stateName == r.stateName && Cast<T, U>(r).typeId == r.typeId
    ensures Cast<U, T>(Cast<T, U>(r)) == r
  {
  }

  /** `OwnedWnfState<T>`. */
  datatype Owned<T> = Owned(raw: RawWnfState<T>)

  /** `BorrowedWnfState<'a, T>`. */
  datatype Borrowed<T> = Borrowed(raw: RawWnfState<T>)

  /** `OwnedWnfState::eq`: the raw states' equality. */
  predicate OwnedEqual<T>(a: Owned<T>, b: Owned<T>)
  {
    Equal(a.raw, b.raw)
  }

  /** `BorrowedWnfState::eq`: the raw states' equality. */
  predicate BorrowedEqual<T>(a: Borrowed<T>, b: Borrowed<T>)
  {
    Equal(a.raw, b.raw)
  }

  /** Owned and borrowed states are equal exactly when they name the same state. */
  lemma HandleEqualityByName<T>(a: Owned<T>, b: Owned<T>, c: Borrowed<T>, d: Borrowed<T>)
    ensures OwnedEqual(a, b) <==> a.raw.stateName == b.raw.stateName
    ensures BorrowedEqual(c, d) <==> c.raw.stateName == d.raw.stateName
  {
  }

  /** `OwnedWnfState::state_name` and `BorrowedWnfState::state_name`. */
  function OwnedStateName<T>(o: Owned<T>): StateName.Name
  {
    o.raw.stateName
  }

  function BorrowedStateName<T>(b: Borrowed<T>): StateName.Name
  {
    b.raw.stateName
  }

  /** `BorrowedWnfState::from_state_name`: no type id. */
  function FromStateName<T>(stateName: StateName.Name): Borrowed<T>
  {
    Borrowed(FromStateNameAndTypeId(stateName, TypeIds.NoType()))
  }

  /** `BorrowedWnfState::from_state_name_and_type_id`: the given GUID as type id. */
  function BorrowedFromStateNameAndTypeId<T>(stateName: StateName.Name, guid: TypeIds.Guid): Borrowed<T>
  {
    Borrowed(FromStateNameAndTypeId(stateName, TypeIds.FromGuid(guid)))
  }

  /** `OwnedWnfState::leak`: the same raw state, borrowed; the state is not deleted. */
  function Leak<T>(o: Owned<T>): (b: Borrowed<T>)
    ensures b.raw == o.raw
  {
    Borrowed(o.raw)
  }

  /** `OwnedWnfState::cast`: the raw state cast, still owned; the state is not deleted. */
  function CastOwned<T, U>(o: Owned<T>): Owned<U>
  {
    Owned(Cast(o.raw))
  }

  /** `BorrowedWnfState::cast`. */
  function CastBorrowed<T, U>(b: Borrowed<T>): Borrowed<U>
  {
    Borrowed(Cast(b.raw))
  }

  /** `BorrowedWnfState::to_owned_wnf_state`: takes ownership of the same raw state. */
  function ToOwned<T>(b: Borrowed<T>): (o: Owned<T>)
    ensures o.raw == b.raw
  {
    Owned(b.raw)
  }

  /** `AsWnfState::as_wnf_state` for an owned state: a borrow of the same raw state. */
  function OwnedAsWnfState<T>(o: Owned<T>): (b: Borrowed<T>)
    ensures b.raw == o.raw
  {
    Borrowed(o.raw)
  }

  /** `AsWnfState::as_wnf_state` for a borrowed state: the state itself. */
  function BorrowedAsWnfState<T>(b: Borrowed<T>): (c: Borrowed<T>)
    ensures c == b
  {
    b
  }

  /** A raw state made from a state name and a type id holds exactly those. */
  lemma RawConstructionKeepsNameAndTypeId<T>(stateName: StateName.Name, typeId: TypeIds.TypeId)
    ensures var r := FromStateNameAndTypeId<T>(stateName, typeId); r.stateName == stateName && r.typeId == typeId
  {
  }

  /**
   * A borrowed state keeps the state name it is made from. Made from the name alone it has no type
   * id (a null pointer); made with a GUID it points to that GUID.
   */
  lemma BorrowedConstructionTypeId<T>(stateName: StateName.Name, guid: TypeIds.Guid)
    ensures var b := FromStateName<T>(stateName);
      BorrowedStateName(b) == stateName && b.raw.typeId == TypeIds.NoType() && TypeIds.AsPtr(b.raw.typeId) == TypeIds.Null
    ensures var b := BorrowedFromStateNameAndTypeId<T>(stateName, guid);
      BorrowedStateName(b) == stateName && TypeIds.AsPtr(b.raw.typeId) == TypeIds.To(guid)
  {
  }

  /**
   * Leaking and taking ownership again are inverse, every conversion keeps the state it names, and
   * the casts keep the type id as well.
   */
  lemma ConversionsKeepState<T, U>(o: Owned<T>, b: Borrowed<T>)
    ensures CastOwned<T, U>(o).raw.stateName == o.raw.stateName && CastOwned<T, U>(o).raw.typeId == o.raw.typeId
    ensures CastBorrowed<T, U>(b).raw.stateName == b.raw.stateName && CastBorrowed<T, U>(b).raw.typeId == b.raw.typeId
    ensures ToOwned(Leak(o)) == o && Leak(ToOwned(b)) == b
    ensures BorrowedStateName(Leak(o)) == OwnedStateName(o)
    ensures BorrowedStateName(OwnedAsWnfState(o)) == OwnedStateName(o)
    ensures OwnedStateName(ToOwned(b)) == BorrowedStateName(b)
    ensures CastOwned<U, T>(CastOwned<T, U>(o)) == o
  {
  }

  /**
   * `Drop for OwnedWnfState`: deletes the state the handle names (the error is ignored). `states`
   * maps each state name to the kernel's store of that state; only the handle's own is touched.
   */
  method DropOwned<T>(o: Owned<T>, states: map<StateName.Name, Store>)
    requires OwnedStateName(o) in states
    modifies states[OwnedStateName(o)]
    ensures states[OwnedStateName(o)].State() == old(states[OwnedStateName(o)].State()).(live := false)
  {
    var _ := states[OwnedStateName(o)].Delete();
  }

  /** `exists` on a borrowed state: whether the kernel still holds the state of its name. */
  function Exists<T>(b: Borrowed<T>, states: map<StateName.Name, Store>): bool
    requires BorrowedStateName(b) in states
    reads states[BorrowedStateName(b)]
  {
    states[BorrowedStateName(b)].live
  }

  /**
   * The three state tests, each on a temporary state of its own: dropping an owned state deletes
   * the state of its name; leaking it, or casting it, does not, and the leaked state can be owned
   * again and is deleted when that handle is dropped. Every check reads the state through a
   * handle of the same name.
   */
  method OwnershipTests(dropName: StateName.Name, leakName: StateName.Name, castName: StateName.Name)
    returns (afterDrop: bool, afterLeak: bool, afterCast: bool, afterLeakedDrop: bool)
    requires dropName != leakName && dropName != castName && leakName != castName
    ensures !afterDrop && afterLeak && afterCast && !afterLeakedDrop
  {
    var dropStore := new Store();
    var leakStore := new Store();
    var castStore := new Store();
    var states := map[dropName := dropStore, leakName := leakStore, castName := castStore];

    var owned := Owned(FromStateNameAndTypeId<()>(dropName, TypeIds.NoType()));
    var stateName := OwnedStateName(owned);
    DropOwned(owned, states);
    afterDrop := Exists(FromStateName<()>(stateName), states);

    var leaked := Leak(Owned(FromStateNameAndTypeId<()>(leakName, TypeIds.NoType())));
    afterLeak := Exists(leaked, states);

    var cast := CastOwned<(), ()>(Owned(FromStateNameAndTypeId<()>(castName, TypeIds.NoType())));
    afterCast := Exists(OwnedAsWnfState(cast), states);
    DropOwned(cast, states);

    DropOwned(ToOwned(leaked), states);
    afterLeakedDrop := Exists(FromStateName<()>(leakName), states);
  }
}

=== FILE: state_name.dfy ===
/**
 * WNF state names (src/state_name.rs): a 64-bit opaque value that, XOR'ed with a fixed key,
 * gives a transparent value whose bit fields describe the state name.
 */
module StateName {
  import opened Wrappers

  /** The magic number used by WNF between opaque and transparent values. */
  const XOR_KEY: bv64 := 0x41C64E6DA3BC0074

  /** `u8` and `u32` values, carried in 64 bits so that packing needs no width conversions. */
  type U8 = x: bv64 | x < 0x100
  type U32 = x: bv64 | x < 0x1_0000_0000

  datatype Lifetime = WellKnown | Permanent | Persistent | Temporary

  datatype DataScope = System | Session | User | Process | Machine | PhysicalMachine

  /** `WnfStateNameDescriptor`: the properties encoded in the bits of the transparent value. */
  datatype Descriptor = Descriptor(
    version: U8,
    lifetime: Lifetime,
    dataScope: DataScope,
    isPermanent: bool,
    uniqueId: U32,
    ownerTag: U32)

  /** `WnfStateName`: a wrapper around the opaque value. */
  datatype Name = Name(opaqueValue: bv64)

  datatype FromDescriptorError = InvalidVersion(version: U8) | InvalidUniqueId(uniqueId: U32)

  datatype FromNameError = InvalidDataScope(value: U8)

  /** The `repr(u8)` discriminants. */
  function LifetimeValue(l: Lifetime): (v: bv64)
    ensures v < 4
  {
    match l
    case WellKnown => 0
    case Permanent => 1
    case Persistent => 2
    case Temporary => 3
  }

  function ScopeValue(s: DataScope): (v: bv64)
    ensures v <= 5
  {
    match s
    case System => 0
    case Session => 1
    case User => 2
    case Process => 3
    case Machine => 4
    case PhysicalMachine => 5
  }

  /** `WnfStateNameLifetime::from_u8` on a two-bit value: every value names a lifetime. */
  function LifetimeFromValue(v: bv64): (l: Lifetime)
    requires v < 4
    ensures LifetimeValue(l) == v
  {
    if v == 0 then WellKnown else if v == 1 then Permanent else if v == 2 then Persistent else Temporary
  }

  /** `WnfDataScope::from_u8`: only the values 0 to 5 name a scope. */
  function ScopeFromValue(v: bv64): (r: Option<DataScope>)
    ensures r.Some? <==> v <= 5
    ensures r.Some? ==> ScopeValue(r.value) == v
  {
    if v == 0 then Some(System)
    else if v == 1 then Some(Session)
    else if v == 2 then Some(User)
    else if v == 3 then Some(Process)
    else if v == 4 then Some(Machine)
    else if v == 5 then Some(PhysicalMachine)
    else None
  }

  function FromOpaqueValue(value: bv64): Name { Name(value) }

  function OpaqueValue(n: Name): bv64 { n.opaqueValue }

  /** The source's `+` chain over the six field values, each shifted to its bit position. */
  function Pack(version: bv64, lifetime: bv64, scope: bv64, permanent: bv64, uniqueId: bv64, ownerTag: bv64): bv64
  {
    version + (lifetime << 4) + (scope << 6) + (permanent << 10) + (uniqueId << 11) + (ownerTag << 32)
  }

  function PermanentBit(b: bool): (v: bv64)
    ensures v < 2
  {
    if b then 1 else 0
  }

  /** The transparent value of a descriptor. */
  function Transparent(d: Descriptor): bv64
  {
    Pack(d.version, LifetimeValue(d.lifetime), ScopeValue(d.dataScope),
      PermanentBit(d.isPermanent), d.uniqueId, d.ownerTag)
  }

  /** Fields fit their bit ranges: the two checks `try_from` makes. */
  predicate Encodable(d: Descriptor)
  {
    d.version < 16 && d.uniqueId < 0x20_0000
  }

  /** `TryFrom<WnfStateNameDescriptor> for WnfStateName`. */
  function Encode(d: Descriptor): (r: Result<Name, FromDescriptorError>)
    ensures r.Err? <==> !Encodable(d)
    ensures r == Err(InvalidVersion(d.version)) <==> d.version >= 16
    ensures r == Err(InvalidUniqueId(d.uniqueId)) <==> d.version < 16 && d.uniqueId >= 0x20_0000
    ensures r.Ok? ==> r.value.opaqueValue ^ XOR_KEY == Transparent(d)
  {
    if d.version >= 16 then Err(InvalidVersion(d.version))
    else if d.uniqueId >= 0x20_0000 then Err(InvalidUniqueId(d.uniqueId))
    else
      XorInvolution(Transparent(d));
      Ok(Name(Transparent(d) ^ XOR_KEY))
  }

  /** `TryFrom<WnfStateName> for WnfStateNameDescriptor`: XOR with the key, then unpack. */
  function Decode(n: Name): Result<Descriptor, FromNameError>
  {
    Unpack(n.opaqueValue ^ XOR_KEY)
  }

  /** Unpacking a transparent value; only the data scope field can be out of range. */
  function Unpack(t: bv64): (r: Result<Descriptor, FromNameError>)
    ensures r.Err? <==> (t >> 6) & 0xF > 5
    ensures r.Err? ==> r.error.value == (t >> 6) & 0xF
    ensures r.Ok? ==> r.value.version < 16 && r.value.uniqueId < 0x20_0000
    ensures r.Ok? ==> r.value.ownerTag == t >> 32
  {
    var lifetimeValue := (t >> 4) & 0x3;
    var scopeValue := (t >> 6) & 0xF;
    match ScopeFromValue(scopeValue)
    case None => Err(InvalidDataScope(scopeValue))
    case Some(scope) =>
      Ok(Descriptor(
        t & 0xF,
        LifetimeFromValue(lifetimeValue),
        scope,
        t & (1 << 10) != 0,
        (t >> 11) & 0x1F_FFFF,
        t >> 32))
  }

  lemma XorInvolution(x: bv64)
    ensures (x ^ XOR_KEY) ^ XOR_KEY == x
  {
  }

  /** Values that fit their fields are recovered by the shifts and masks that decoding applies. */
  lemma PackedFields(version: bv64, lifetime: bv64, scope: bv64, permanent: bv64, uniqueId: bv64, ownerTag: bv64)
    requires version < 16 && lifetime < 4 && scope < 16 && permanent < 2
    requires uniqueId < 0x20_0000 && ownerTag < 0x1_0000_0000
    ensures var t := Pack(version, lifetime, scope, permanent, uniqueId, ownerTag);
      && t & 0xF == version
      && (t >> 4) & 0x3 == lifetime
      && (t >> 6) & 0xF == scope
      && (t & (1 << 10) != 0) == (permanent == 1)
      && (t >> 11) & 0x1F_FFFF == uniqueId
      && t >> 32 == ownerTag
  {
  }

  /** The six fields cover all 64 bits. */
  lemma FieldsCoverAllBits(t: bv64)
    ensures t == Pack(t & 0xF, (t >> 4) & 0x3, (t >> 6) & 0xF, (t >> 10) & 1,
      (t >> 11) & 0x1F_FFFF, t >> 32)
  {
  }

  /** The fields occupy disjoint bit ranges, so the `+` chain never carries and equals bitwise OR. */
  lemma PackingIsDisjointOr(version: bv64, lifetime: bv64, scope: bv64, permanent: bv64, uniqueId: bv64, ownerTag: bv64)
    requires version < 16 && lifetime < 4 && scope < 16 && permanent < 2
    requires uniqueId < 0x20_0000 && ownerTag < 0x1_0000_0000
    ensures Pack(version, lifetime, scope, permanent, uniqueId, ownerTag)
      == version | (lifetime << 4) | (scope << 6) | (permanent << 10) | (uniqueId << 11) | (ownerTag << 32)
  {
  }

  lemma LifetimeValueInjective(l: Lifetime, m: Lifetime)
    requires LifetimeValue(l) == LifetimeValue(m)
    ensures l == m
  {
  }

  lemma ScopeValueInjective(s: DataScope, t: DataScope)
    requires ScopeValue(s) == ScopeValue(t)
    ensures s == t
  {
  }

  lemma PermanentBitOf(t: bv64)
    ensures PermanentBit(t & (1 << 10) != 0) == (t >> 10) & 1
  {
  }

  /** Unpacking reads each field from its own bit range. */
  lemma UnpackFields(t: bv64, d: Descriptor)
    requires t & 0xF == d.version
    requires (t >> 4) & 0x3 == LifetimeValue(d.lifetime)
    requires (t >> 6) & 0xF == ScopeValue(d.dataScope)
    requires (t & (1 << 10) != 0) == d.isPermanent
    requires (t >> 11) & 0x1F_FFFF == d.uniqueId
    requires t >> 32 == d.ownerTag
    ensures Unpack(t) == Ok(d)
  {
    LifetimeValueInjective(LifetimeFromValue((t >> 4) & 0x3), d.lifetime);
    ScopeValueInjective(ScopeFromValue((t >> 6) & 0xF).value, d.dataScope);
  }

  lemma UnpackPack(d: Descriptor)
    requires Encodable(d)
    ensures Unpack(Transparent(d)) == Ok(d)
  {
    PackedFields(d.version, LifetimeValue(d.lifetime), ScopeValue(d.dataScope),
      PermanentBit(d.isPermanent), d.uniqueId, d.ownerTag);
    UnpackFields(Transparent(d), d);
  }

  /** Every accepted descriptor survives encode followed by decode. */
  lemma DecodeEncode(d: Descriptor)
    requires Encodable(d)
    ensures Encode(d).Ok? && Decode(Encode(d).value) == Ok(d)
  {
    XorInvolution(Transparent(d));
    UnpackPack(d);
  }

  lemma PackUnpack(t: bv64)
    requires Unpack(t).Ok?
    ensures Transparent(Unpack(t).value) == t
  {
    var d := Unpack(t).value;
    FieldsCoverAllBits(t);
    PermanentBitOf(t);
    assert d.version == t & 0xF;
    assert d.uniqueId == (t >> 11) & 0x1F_FFFF;
  }

  lemma EncodeTransparent(d: Descriptor, t: bv64)
    requires Encodable(d) && Transparent(d) == t
    ensures Encode(d) == Ok(Name(t ^ XOR_KEY))
  {
  }

  lemma EncodeUnpack(t: bv64)
    requires Unpack(t).Ok?
    ensures Encode(Unpack(t).value) == Ok(Name(t ^ XOR_KEY))
  {
    PackUnpack(t);
    EncodeTransparent(Unpack(t).value, t);
  }

  /** Every decodable name is re-encoded to itself. */
  lemma EncodeDecode(n: Name)
    requires Decode(n).Ok?
    ensures Encode(Decode(n).value) == Ok(n)
  {
    var t := n.opaqueValue ^ XOR_KEY;
    assert Decode(n) == Unpack(t);
    assert Encode(Unpack(t).value) == Ok(Name(t ^ XOR_KEY)) by {
      EncodeUnpack(t);
    }
    assert Name(t ^ XOR_KEY) == n by {
      XorInvolution(n.opaqueValue);
    }
  }

  /** Decoding fails only on a data scope field above 5, and then reports that field. */
  lemma DecodeOutcome(n: Name)
    ensures var t := n.opaqueValue ^ XOR_KEY;
      && (Decode(n).Err? <==> (t >> 6) & 0xF > 5)
      && (Decode(n).Err? ==> Decode(n).error == InvalidDataScope((t >> 6) & 0xF))
      && (Decode(n).Ok? ==> Decode(n).value.version < 16 && Decode(n).value.uniqueId < 0x20_0000
                            && Decode(n).value.ownerTag == t >> 32)
  {
  }

  lemma OpaqueRoundTrip(x: bv64, n: Name)
    ensures OpaqueValue(FromOpaqueValue(x)) == x
    ensures FromOpaqueValue(OpaqueValue(n)) == n
  {
  }

  /** The sample state name of the crate's own tests and the descriptor it stands for. */
  lemma SampleStateName()
    ensures Decode(Name(0x0D83063EA3BE5075)) == Ok(Descriptor(1, WellKnown, System, false, 0x4A, 0x4C454853))
    ensures Encode(Descriptor(1, WellKnown, System, false, 0x4A, 0x4C454853)) == Ok(Name(0x0D83063EA3BE5075))
    ensures Decode(Name(0x0D83063EA3BE51F5)) == Err(InvalidDataScope(6))
    ensures Encode(Descriptor(16, WellKnown, System, false, 0x4A, 0x4C454853)) == Err(InvalidVersion(16))
    ensures Encode(Descriptor(1, WellKnown, System, false, 0x20_0000, 0x4C454853)) == Err(InvalidUniqueId(0x20_0000))
  {
  }
}

=== FILE: subscribe.dfy ===
/**
 * Subscriptions of the `Wnf*` generation (src/subscribe.rs): the choice of the stamp the listener
 * has last seen, the subscription that `unsubscribe`, `Drop` and `forget` act on, the listener
 * slot that is cleared so that a dead subscription never calls its listener, and the data
 * accessor handed to the listener.
 *
 * Callbacks arrive as ordinary sequential calls of `Callback`; what the listener receives is
 * recorded as the accessors it is called with. Whether the kernel accepts a registration or an
 * unsubscription is a parameter. Which updates the kernel reports is modelled as the updates whose
 * stamp is strictly larger than the stamp passed at registration, as documented on
 * `WnfSeenChangeStamp`.
 */
module Subscribing {
  import opened Wrappers
  import opened Bytes
  import opened Kernel
  import Read
  import Data
  import Query

  /** `WnfSeenChangeStamp`; `None` is the default. */
  datatype SeenChangeStamp = None | Current | Value(value: Data.ChangeStamp)

  function DefaultSeen(): (s: SeenChangeStamp)
    ensures s.None?
  {
    SeenChangeStamp.None
  }

  /** The `io::Error` of `subscribe`: a failed query of the current stamp, or the kernel's refusal. */
  datatype SubscribeError = QueryFailed(query: Read.ReadError<NtStatus>) | Os(status: NtStatus)

  /**
   * The stamp passed to `RtlSubscribeWnfStateChangeNotification`: the initial stamp 0 for `None`,
   * the state's current stamp for `Current` (whose query may fail), the given stamp for `Value`.
   * `states` are the snapshots the query of the current stamp may see.
   */
  function AfterStamp(seen: SeenChangeStamp, states: seq<Snapshot>): (r: Result<Data.ChangeStamp, SubscribeError>)
    requires |states| > 0
    ensures seen.None? ==> r == Ok(Data.Default())
    ensures seen.Value? ==> r == Ok(seen.value)
    ensures seen.Current? ==> (r.Ok? <==> states[0].live)
    ensures seen.Current? && r.Ok? ==> Data.ToU32(r.value) == states[0].stamp
    ensures seen.Current? && r.Err? ==> r.error == QueryFailed(Read.Io(STATUS_OBJECT_NAME_NOT_FOUND))
  {
    match seen
    case None => Ok(Data.Default())
    case Current =>
      (match Query.ChangeStampOf(states)
       case Ok(stamp) => Ok(stamp)
       case Err(e) => Err(QueryFailed(e)))
    case Value(value) => Ok(value)
  }

  /**
   * `WnfScopedData<T>`: the buffer the kernel passed to the callback (its length is `buffer_size`)
   * and the stamp of the update; `T` is only a marker.
   */
  datatype ScopedData<T> = ScopedData(buffer: seq<Byte>, changeStamp: Data.ChangeStamp)

  /** `WnfDataAccessor<'a, T>`: a copy of the scoped data. */
  datatype Accessor<T> = Accessor(data: ScopedData<T>)

  /** `WnfScopedData::accessor`. */
  function AccessorOf<T>(d: ScopedData<T>): (a: Accessor<T>)
    ensures a.data == d
  {
    Accessor(d)
  }

  /** `WnfDataAccessor::cast` (through `WnfScopedData::cast`): the same buffer and stamp read as `U`. */
  function Cast<T, U>(a: Accessor<T>): (b: Accessor<U>)
  {
    Accessor(ScopedData(a.data.buffer, a.data.changeStamp))
  }

  /** `WnfDataAccessor::change_stamp`: the stamp of the update, without asking the kernel. */
  function ChangeStamp<T>(a: Accessor<T>): Data.ChangeStamp
  {
    a.data.changeStamp
  }

  /** A cast keeps the buffer and the stamp, and casting back gives the accessor it started from. */
  lemma CastPreserves<T, U>(a: Accessor<T>)
    ensures Cast<T, U>(a).data.buffer == a.data.buffer
    ensures ChangeStamp(Cast<T, U>(a)) == ChangeStamp(a)
    ensures Cast<U, T>(Cast<T, U>(a)) == a
  {
  }

  /** `get_as`: `T::from_buffer` on the accessor's buffer, with no kernel call. */
  function GetAs<T, D>(a: Accessor<T>, fromBuffer: seq<Byte> -> Result<D, Read.ReadError<NtStatus>>)
    : Result<D, Read.ReadError<NtStatus>>
  {
    fromBuffer(a.data.buffer)
  }

  /** `query_as`: the data of `get_as` stamped with the accessor's stamp; its errors pass unchanged. */
  function QueryAs<T, D>(a: Accessor<T>, fromBuffer: seq<Byte> -> Result<D, Read.ReadError<NtStatus>>): (r: Result<Data.StampedData<D>, Read.ReadError<NtStatus>>)
  {
    match GetAs(a, fromBuffer)
    case Ok(d) => Ok(Data.FromDataChangeStamp(d, Data.ToU32(a.data.changeStamp)))
    case Err(e) => Err(e)
  }

  /**
   * `query_as` and `get_as` agree: the same outcome, the same data, and the stamp of the update;
   * for a value type `t`, data of the wrong size or with invalid bits is an error.
   */
  lemma QueryAsPairsWithStamp<T>(a: Accessor<T>, t: Checked)
    ensures var fromBuffer := (b: seq<Byte>) => Read.ValueFromBuffer<NtStatus>(t, b);
      var q := QueryAs(a, fromBuffer);
      && (q.Ok? <==> |a.data.buffer| == SizeOf(t) && IsValidBitPattern(t, a.data.buffer))
      && (q.Ok? ==> Data.IntoDataChangeStamp(q.value) == (a.data.buffer, ChangeStamp(a)))
      && (q.Err? ==> q.error == GetAs(a, fromBuffer).error)
      && (|a.data.buffer| != SizeOf(t) ==> q == Err(Read.WrongSize(SizeOf(t), |a.data.buffer|)))
  {
  }

  /**
   * `WnfSubscriptionContext<F>`: the listener slot behind a mutex. `present` says whether the slot
   * holds the listener, `poisoned` whether a listener panicked while holding the lock, `calls` the
   * accessors the listener has been called with, and `released` whether the context was dropped.
   */
  class Context<T> {
    var present: bool
    var poisoned: bool
    var calls: seq<Accessor<T>>
    var released: bool

    /** `WnfSubscriptionContext::new`: the slot holds the listener. */
    constructor ()
      ensures present && !poisoned && calls == [] && !released
    {
      present := true;
      poisoned := false;
      calls := [];
      released := false;
    }

    /** `clear`: drops the listener, whether or not the lock is poisoned. */
    method Clear()
      modifies this
      ensures !present
      ensures poisoned == old(poisoned) && calls == old(calls) && released == old(released)
    {
      present := false;
    }

    /**
     * `with_listener` with the operation that calls the listener on `accessor`: it runs only when
     * the lock can be taken and the slot holds the listener; a panicking listener poisons the lock.
     */
    method WithListener(accessor: Accessor<T>, panics: bool)
      modifies this
      ensures calls == if old(present) && !old(poisoned) then old(calls) + [accessor] else old(calls)
      ensures poisoned == (old(poisoned) || (old(present) && panics))
      ensures present == old(present) && released == old(released)
    {
      if !poisoned && present {
        calls := calls + [accessor];
        if panics {
          poisoned := true;
        }
      }
    }
  }

  /**
   * The callback registered by `subscribe`: wraps the kernel's buffer and stamp as scoped data,
   * calls the listener through `with_listener` (a panic is caught), and reports `STATUS_SUCCESS`.
   */
  method Callback<T>(context: Context<T>, buffer: seq<Byte>, changeStamp: Stamp, panics: bool) returns (status: NtStatus)
    modifies context
    ensures status == STATUS_SUCCESS
    ensures var accessor := AccessorOf<T>(ScopedData(buffer, Data.FromU32(changeStamp)));
      context.calls == if old(context.present) && !old(context.poisoned)
        then old(context.calls) + [accessor] else old(context.calls)
    ensures context.present == old(context.present) && context.released == old(context.released)
  {
    var data: ScopedData<T> := ScopedData(buffer, Data.FromU32(changeStamp));
    context.WithListener(AccessorOf(data), panics);
    status := STATUS_SUCCESS;
  }

  /** `WnfSubscriptionInner<F>`: the context and the kernel's subscription handle. */
  datatype Inner<T> = Inner(context: Context<T>, handle: bv64)

  /**
   * `WnfSubscription<'a, F>`: `unsubscribeCalls` records the handles passed to
   * `RtlUnsubscribeWnfStateChangeNotification` through this subscription.
   */
  class Subscription<T> {
    var inner: Option<Inner<T>>
    var unsubscribeCalls: seq<bv64>

    /** `WnfSubscription::new`: a live subscription. */
    constructor (context: Context<T>, handle: bv64)
      ensures inner == Some(Inner(context, handle)) && unsubscribeCalls == []
    {
      inner := Some(Inner(context, handle));
      unsubscribeCalls := [];
    }

    /**
     * `try_unsubscribe`, where the kernel answers with `status`: the inner is taken, so without
     * one nothing happens; on success the context is dropped; on failure it is leaked but its
     * listener is cleared, and the error is returned. Either way the inner is gone.
     */
    method TryUnsubscribe(status: NtStatus) returns (r: Result<(), NtStatus>)
      modifies this, if inner.Some? then {inner.value.context} else {}
      ensures inner == Option.None
      ensures old(inner).None? ==> r == Ok(()) && unsubscribeCalls == old(unsubscribeCalls)
      ensures old(inner).Some? ==> unsubscribeCalls == old(unsubscribeCalls) + [old(inner).value.handle]
      ensures old(inner).Some? && !IsErr(status) ==>
        r == Ok(()) && old(inner).value.context.released && old(inner).value.context.present == old(inner.value.context.present)
      ensures old(inner).Some? && IsErr(status) ==>
        r == Err(status) && !old(inner).value.context.present && old(inner).value.context.released == old(inner.value.context.released)
      ensures old(inner).Some? ==> old(inner).value.context.calls == old(inner.value.context.calls)
      ensures old(inner).Some? ==> old(inner).value.context.poisoned == old(inner.value.context.poisoned)
    {
      var taken := inner;
      inner := Option.None;
      if taken.Some? {
        var i := taken.value;
        unsubscribeCalls := unsubscribeCalls + [i.handle];
        if !IsErr(status) {
          i.context.released := true;
        } else {
          i.context.Clear();
        }
        if IsErr(status) {
          return Err(status);
        }
      }
      r := Ok(());
    }

    /** `unsubscribe`: `try_unsubscribe`, consuming the subscription. */
    method Unsubscribe(status: NtStatus) returns (r: Result<(), NtStatus>)
      modifies this, if inner.Some? then {inner.value.context} else {}
      ensures inner == Option.None
      ensures old(inner).None? ==> r == Ok(()) && unsubscribeCalls == old(unsubscribeCalls)
      ensures old(inner).Some? ==> r == (if IsErr(status) then Err(status) else Ok(()))
      ensures old(inner).Some? ==> unsubscribeCalls == old(unsubscribeCalls) + [old(inner).value.handle]
      ensures old(inner).Some? && !IsErr(status) ==> old(inner).value.context.released
      ensures old(inner).Some? && IsErr(status) ==> !old(inner).value.context.present
      ensures old(inner).Some? ==> old(inner).value.context.calls == old(inner.value.context.calls)
      ensures old(inner).Some? ==> old(inner).value.context.poisoned == old(inner.value.context.poisoned)
    {
      r := TryUnsubscribe(status);
    }

    /** `Drop`: `try_unsubscribe` with its error ignored. */
    method Drop(status: NtStatus)
      modifies this, if inner.Some? then {inner.value.context} else {}
      ensures inner == Option.None
      ensures old(inner).None? ==> unsubscribeCalls == old(unsubscribeCalls)
      ensures old(inner).Some? ==> unsubscribeCalls == old(unsubscribeCalls) + [old(inner).value.handle]
      ensures old(inner).Some? && !IsErr(status) ==> old(inner).value.context.released
      ensures old(inner).Some? && IsErr(status) ==> !old(inner).value.context.present
      ensures old(inner).Some? ==> old(inner).value.context.calls == old(inner.value.context.calls)
    {
      var _ := TryUnsubscribe(status);
    }

    /** `forget`: the subscription is kept; nothing is unsubscribed. */
    method Forget()
      ensures inner == old(inner) && unsubscribeCalls == old(unsubscribeCalls)
    {
    }
  }

  /**
   * `subscribe`: the stamp to pass is chosen first (a failed query of the current stamp is an
   * error before anything is registered); the registration, which the kernel answers with
   * `status` and `handle`, gives a subscription holding a fresh context with the listener, or the
   * error. `passed` is the stamp handed to the kernel, if it was called.
   */
  method Subscribe<T>(store: Store, seen: SeenChangeStamp, status: NtStatus, handle: bv64)
    returns (r: Result<Subscription<T>, SubscribeError>, passed: Option<Data.ChangeStamp>)
    ensures var after := AfterStamp(seen, [store.State()]);
      && (after.Err? ==> r == Err(after.error) && passed == Option.None)
      && (after.Ok? ==> passed == Some(after.value))
      && (after.Ok? ==> (r.Err? <==> IsErr(status)))
      && (after.Ok? && r.Err? ==> r.error == Os(status))
    ensures r.Ok? ==> fresh(r.value) && r.value.inner.Some? && r.value.unsubscribeCalls == []
    ensures r.Ok? ==> r.value.inner.value.handle == handle && fresh(r.value.inner.value.context)
    ensures r.Ok? ==> r.value.inner.value.context.present && r.value.inner.value.context.calls == []
    ensures r.Ok? ==> !r.value.inner.value.context.poisoned && !r.value.inner.value.context.released
  {
    var after := AfterStamp(seen, [store.State()]);
    if after.Err? {
      return Err(after.error), Option.None;
    }
    passed := Some(after.value);
    var context := new Context<T>();
    if IsErr(status) {
      return Err(Os(status)), passed;
    }
    var subscription := new Subscription(context, handle);
    r := Ok(subscription);
  }

  /**
   * A listener subscribed with `Value(2)` hears of the update with stamp 3; once an unsubscription
   * has failed, a late callback no longer reaches it, and a second unsubscription finds nothing to
   * do and succeeds without calling the kernel.
   */
  method FailedUnsubscribeSilencesListener<T>(store: Store, handle: bv64, failure: NtStatus, buffer: seq<Byte>)
    returns (calls: seq<Accessor<T>>, first: Result<(), NtStatus>, second: Result<(), NtStatus>, unsubscribeCalls: seq<bv64>)
    requires IsErr(failure)
    ensures calls == [Accessor(ScopedData(buffer, Data.ChangeStamp(3)))]
    ensures first == Err(failure) && second == Ok(())
    ensures unsubscribeCalls == [handle]
  {
    var r, _ := Subscribe<T>(store, Value(Data.ChangeStamp(2)), STATUS_SUCCESS, handle);
    assert AfterStamp(Value(Data.ChangeStamp(2)), [store.State()]).Ok?;
    var subscription := r.value;
    var context := subscription.inner.value.context;
    var _ := Callback(context, buffer, 3, false);
    first := subscription.Unsubscribe(failure);
    var _ := Callback(context, buffer, 4, false);
    second := subscription.Unsubscribe(failure);
    calls := context.calls;
    unsubscribeCalls := subscription.unsubscribeCalls;
  }

  /** The states a state passes through: the current one, then one after each write. */
  function History(s: Snapshot, writes: seq<seq<Byte>>): (h: seq<Snapshot>)
    ensures |h| == |writes| + 1 && h[0] == s
    decreases |writes|
  {
    if writes == [] then [s] else [s] + History(UpdateAt(s, writes[0], 0, 0).0, writes[1..])
  }

  /**
   * The updates a listener registered with stamp `after` is told about: the live states whose
   * stamp is strictly larger, in order, as (data, stamp).
   */
  function Notified(after: Stamp, history: seq<Snapshot>): (n: seq<(seq<Byte>, Stamp)>)
    ensures |n| <= |history|
    ensures forall i :: 0 <= i < |n| ==> n[i].1 > after
  {
    if history == [] then []
    else
      var rest := Notified(after, history[1..]);
      if history[0].live && history[0].stamp > after then [(history[0].data, history[0].stamp)] + rest else rest
  }

  /** The first stamp a listener that has seen `after` can hear of on a state whose stamp is `current`. */
  function FirstHeard(after: Stamp, current: Stamp): (first: int)
    ensures first > after && first >= current
  {
    if after + 1 < current then current else after + 1
  }

  /** The stamps `lo`, `lo + 1`, …, up to but not including `hi`. */
  function Range(lo: int, hi: int): (r: seq<int>)
    ensures |r| == if lo < hi then hi - lo else 0
    ensures forall i :: 0 <= i < |r| ==> r[i] == lo + i
    decreases hi - lo
  {
    if lo < hi then [lo] + Range(lo + 1, hi) else []
  }

  function Stamps(n: seq<(seq<Byte>, Stamp)>): (r: seq<int>)
    ensures |r| == |n|
    ensures forall i :: 0 <= i < |n| ==> r[i] == n[i].1
  {
    if n == [] then [] else [n[0].1 as int] + Stamps(n[1..])
  }

  /**
   * On a live state written `|writes|` times (without the stamp wrapping around), a listener that
   * has seen `after` hears of the stamps from `after + 1` (but no earlier than the current stamp)
   * to the last one, each exactly once and in order.
   */
  lemma {:induction false} NotifiedStamps(after: Stamp, s: Snapshot, writes: seq<seq<Byte>>)
    requires s.live && s.stamp + |writes| < STAMP_MODULUS
    ensures Stamps(Notified(after, History(s, writes))) == Range(FirstHeard(after, s.stamp), s.stamp + |writes| + 1)
    decreases |writes|, 2
  {
    if writes == [] {
      NotifiedWithoutWrites(after, s);
    } else {
      NotifiedStep(after, s, writes);
      NotifiedStampsAfterFirst(after, s, writes);
    }
  }

  /** With no write, the current stamp is heard of iff it is past the one seen. */
  lemma NotifiedWithoutWrites(after: Stamp, s: Snapshot)
    requires s.live
    ensures Stamps(Notified(after, History(s, []))) == Range(FirstHeard(after, s.stamp), s.stamp + 1)
  {
    NotifiedStep(after, s, []);
    assert History(s, [])[1..] == [];
    HeardOnlyCurrent(after, s.stamp);
  }

  /** With no write, the current stamp is heard of iff it is past the one seen. */
  lemma HeardOnlyCurrent(after: Stamp, current: Stamp)
    ensures (if current > after then [current as int] else []) + Stamps(Notified(after, []))
      == Range(FirstHeard(after, current), current + 1)
  {
    if current > after {
      RangeStep(current, current + 1);
    }
  }

  /** The current stamp, if heard of, followed by the stamps heard of after it. */
  lemma HeardFromCurrent(after: Stamp, current: Stamp, hi: int)
    requires current + 1 < STAMP_MODULUS && current < hi
    ensures (if current > after then [current as int] else []) + Range(FirstHeard(after, current + 1), hi)
      == Range(FirstHeard(after, current), hi)
  {
    if current > after {
      RangeStep(current, hi);
    }
  }

  /** The current stamp, if heard of, then the stamps heard of after the first write. */
  lemma {:induction false} NotifiedStampsAfterFirst(after: Stamp, s: Snapshot, writes: seq<seq<Byte>>)
    requires s.live && s.stamp + |writes| < STAMP_MODULUS && writes != []
    ensures (if s.stamp > after then [s.stamp as int] else []) + Stamps(Notified(after, History(s, writes)[1..]))
      == Range(FirstHeard(after, s.stamp), s.stamp + |writes| + 1)
    decreases |writes|, 1
  {
    AfterFirstWrite(after, s, writes);
    HeardFromCurrent(after, s.stamp, s.stamp + |writes| + 1);
  }

  /** The stamps heard of after the first write: those of the state that write leaves behind. */
  lemma {:induction false} AfterFirstWrite(after: Stamp, s: Snapshot, writes: seq<seq<Byte>>)
    requires s.live && s.stamp + |writes| < STAMP_MODULUS && writes != []
    ensures Stamps(Notified(after, History(s, writes)[1..]))
      == Range(FirstHeard(after, s.stamp + 1), s.stamp + |writes| + 1)
    decreases |writes|, 0
  {
    var s' := UpdateAt(s, writes[0], 0, 0).0;
    assert s'.live && s'.stamp == s.stamp + 1;
    HistoryStep(s, writes);
    NotifiedStamps(after, s', writes[1..]);
  }

  /** `Range` from its first element. */
  lemma RangeStep(lo: int, hi: int)
    requires lo < hi
    ensures Range(lo, hi) == [lo] + Range(lo + 1, hi)
  {
  }

  /** `History` from its first state. */
  lemma HistoryStep(s: Snapshot, writes: seq<seq<Byte>>)
    requires writes != []
    ensures History(s, writes)[1..] == History(UpdateAt(s, writes[0], 0, 0).0, writes[1..])
  {
  }

  /** The stamps heard of on a live state: its own stamp if it is past the one seen, then those of the later states. */
  lemma NotifiedStep(after: Stamp, s: Snapshot, writes: seq<seq<Byte>>)
    requires s.live
    ensures Stamps(Notified(after, History(s, writes))) ==
      (if s.stamp > after then [s.stamp as int] else []) + Stamps(Notified(after, History(s, writes)[1..]))
  {
    var h := History(s, writes);
    var rest := Notified(after, h[1..]);
    if s.stamp > after {
      assert Notified(after, h) == [(s.data, s.stamp)] + rest;
      assert Stamps(Notified(after, h)) == [s.stamp as int] + Stamps(rest);
    } else {
      assert Notified(after, h) == rest;
    }
  }

  /**
   * The test with `SeenChangeStamp::Value(2)`: a fresh state written three times (stamps 1 to 3)
   * tells the listener about stamp 3 only; with `None` it hears of all three.
   */
  lemma SeenValueTwo(a: seq<Byte>, b: seq<Byte>, c: seq<Byte>)
    ensures Stamps(Notified(2, History(Snapshot(true, [], 0), [a, b, c]))) == [3]
    ensures Stamps(Notified(0, History(Snapshot(true, [], 0), [a, b, c]))) == [1, 2, 3]
  {
    NotifiedStamps(2, Snapshot(true, [], 0), [a, b, c]);
    NotifiedStamps(0, Snapshot(true, [], 0), [a, b, c]);
  }

  /**
   * A listener that has seen less than the current stamp of a live state hears of the current
   * data and then of every write, each with its stamp.
   */
  lemma {:induction false} AllNotified(after: Stamp, s: Snapshot, writes: seq<seq<Byte>>)
    requires s.live && after < s.stamp && s.stamp + |writes| < STAMP_MODULUS
    ensures var n := Notified(after, History(s, writes));
      && |n| == |writes| + 1
      && n[0] == (s.data, s.stamp)
      && forall i :: 0 <= i < |writes| ==> n[i + 1] == (writes[i], s.stamp + i + 1)
    decreases |writes|
  {
    var h := History(s, writes);
    if writes == [] {
      assert h[1..] == [];
    } else {
      var s' := UpdateAt(s, writes[0], 0, 0).0;
      assert h[1..] == History(s', writes[1..]);
      AllNotified(after, s', writes[1..]);
      var n := Notified(after, h);
      assert n == [(s.data, s.stamp)] + Notified(after, History(s', writes[1..]));
      forall i | 0 <= i < |writes|
        ensures n[i + 1] == (writes[i], s.stamp + i + 1)
      {
        if i > 0 {
          assert writes[1..][i - 1] == writes[i];
        }
      }
    }
  }

  /**
   * `Current` hears of future updates only: registered with the current stamp of a live state, the
   * listener is told about exactly the writes that follow, each with its data and stamp.
   */
  lemma CurrentSeesOnlyFuture(s: Snapshot, writes: seq<seq<Byte>>)
    requires s.live && s.stamp + |writes| < STAMP_MODULUS
    ensures AfterStamp(Current, [s]) == Ok(Data.ChangeStamp(s.stamp))
    ensures var n := Notified(s.stamp, History(s, writes));
      |n| == |writes| && forall i :: 0 <= i < |n| ==> n[i] == (writes[i], s.stamp + i + 1)
  {
    var h := History(s, writes);
    assert Notified(s.stamp, h) == Notified(s.stamp, h[1..]);
    if writes != [] {
      var s' := UpdateAt(s, writes[0], 0, 0).0;
      assert h[1..] == History(s', writes[1..]);
      AllNotified(s.stamp, s', writes[1..]);
    } else {
      assert h[1..] == [];
    }
  }
}

=== FILE: subscription.dfy ===
/**
 * `WnfSubscriptionHandle` and `WnfSubscriptionContext` (src/subscription.rs), the subscription
 * handle returned by the `raw_state` generation. Callbacks arrive as ordinary sequential calls of
 * `WithListener`; what the listener does is recorded as the calls it receives. Whether the kernel
 * accepts an unsubscription is a parameter.
 */
module Subscriptions {
  import opened Wrappers
  import opened Kernel

  /**
   * `WnfSubscriptionContext<F>`: the listener slot behind a mutex. `present` says whether the slot
   * holds the listener, `poisoned` whether a listener panicked while holding the lock, `calls` what
   * the listener has been called with, and `released` whether the context has been dropped.
   */
  class Context<C> {
    var present: bool
    var poisoned: bool
    var calls: seq<C>
    var released: bool

    /** `WnfSubscriptionContext::new`: the slot holds the listener. */
    constructor ()
      ensures present && !poisoned && calls == [] && !released
    {
      present := true;
      poisoned := false;
      calls := [];
      released := false;
    }

    /** `reset`: empties the slot, whether or not the lock is poisoned. */
    method Reset()
      modifies this
      ensures !present
      ensures poisoned == old(poisoned) && calls == old(calls) && released == old(released)
    {
      present := false;
    }

    /**
     * `with_listener`: runs `op` on the listener only when the lock can be taken and the slot is
     * full; a listener that panics leaves the lock poisoned.
     */
    method WithListener(call: C, panics: bool)
      modifies this
      ensures calls == if old(present) && !old(poisoned) then old(calls) + [call] else old(calls)
      ensures poisoned == (old(poisoned) || (old(present) && panics))
      ensures present == old(present) && released == old(released)
    {
      if !poisoned && present {
        calls := calls + [call];
        if panics {
          poisoned := true;
        }
      }
    }
  }

  /** `WnfSubscriptionHandleInner`: the context and the kernel's subscription handle. */
  datatype Inner<C> = Inner(context: Context<C>, subscription: bv64)

  /**
   * `WnfSubscriptionHandle`: `unsubscribeCalls` records the handles passed to
   * `RtlUnsubscribeWnfStateChangeNotification` through this subscription.
   */
  class Handle<C> {
    var inner: Option<Inner<C>>
    var unsubscribeCalls: seq<bv64>

    /** `new`: a live subscription. */
    constructor (context: Context<C>, subscription: bv64)
      ensures inner == Some(Inner(context, subscription)) && unsubscribeCalls == []
    {
      inner := Some(Inner(context, subscription));
      unsubscribeCalls := [];
    }

    /**
     * `try_unsubscribe` (and `unsubscribe`, which hands the handle back on failure), where the
     * kernel answers with `status`: without an inner nothing happens; on success the context is
     * released and the inner is gone; on failure the inner is put back unchanged.
     */
    method TryUnsubscribe(status: NtStatus) returns (r: Result<(), NtStatus>)
      modifies this, if inner.Some? then {inner.value.context} else {}
      ensures old(inner).None? ==> r == Ok(()) && inner == None && unsubscribeCalls == old(unsubscribeCalls)
      ensures old(inner).Some? ==> unsubscribeCalls == old(unsubscribeCalls) + [old(inner).value.subscription]
      ensures old(inner).Some? && !IsErr(status) ==> r == Ok(()) && inner == None && old(inner).value.context.released
      ensures old(inner).Some? && IsErr(status) ==> r == Err(status) && inner == old(inner)
      ensures old(inner).Some? ==>
        (old(inner).value.context.present == old(inner.value.context.present)
         && old(inner).value.context.poisoned == old(inner.value.context.poisoned)
         && old(inner).value.context.calls == old(inner.value.context.calls))
    {
      match inner
      case None =>
        r := Ok(());
      case Some(i) =>
        inner := None;
        unsubscribeCalls := unsubscribeCalls + [i.subscription];
        if !IsErr(status) {
          i.context.released := true;
          r := Ok(());
        } else {
          inner := Some(i);
          r := Err(status);
        }
    }

    /**
     * `Drop`: tries to unsubscribe; when that fails, takes the inner anyway and empties the
     * listener slot, so the listener is never called again.
     */
    method Drop(status: NtStatus)
      modifies this, if inner.Some? then {inner.value.context} else {}
      ensures inner == None
      ensures old(inner).None? ==> unsubscribeCalls == old(unsubscribeCalls)
      ensures old(inner).Some? ==> unsubscribeCalls == old(unsubscribeCalls) + [old(inner).value.subscription]
      ensures old(inner).Some? && !IsErr(status) ==> old(inner).value.context.released
      ensures old(inner).Some? && IsErr(status) ==> !old(inner).value.context.present
      ensures old(inner).Some? ==> old(inner).value.context.calls == old(inner.value.context.calls)
    {
      var r := TryUnsubscribe(status);
      if r.Err? {
        var i := inner.value;
        inner := None;
        i.context.Reset();
      }
    }

    /** `forget`: the subscription stays registered and nothing is unsubscribed. */
    method Forget()
      ensures unsubscribeCalls == old(unsubscribeCalls) && inner == old(inner)
    {
    }
  }

  /**
   * A failed unsubscription leaves the listener in place, so a callback in between still reaches
   * it; only once the handle has been dropped (and the kernel refused again) does a late callback
   * no longer reach the listener.
   */
  method DropAfterFailedUnsubscribe<C>(subscription: bv64, failure: NtStatus, before: C, between: C, after: C)
    returns (calls: seq<C>, unsubscribeCalls: seq<bv64>)
    requires IsErr(failure)
    ensures calls == [before, between]
    ensures unsubscribeCalls == [subscription, subscription]
  {
    var context := new Context<C>();
    var handle := new Handle(context, subscription);
    context.WithListener(before, false);
    var r := handle.TryUnsubscribe(failure);
    assert r == Err(failure) && handle.inner == Some(Inner(context, subscription));
    context.WithListener(between, false);
    handle.Drop(failure);
    context.WithListener(after, false);
    calls := context.calls;
    unsubscribeCalls := handle.unsubscribeCalls;
  }

  /** Unsubscribing twice calls the kernel once: the second call finds no inner. */
  method UnsubscribeTwice<C>(subscription: bv64) returns (first: Result<(), NtStatus>, second: Result<(), NtStatus>, unsubscribeCalls: seq<bv64>)
    ensures first == Ok(()) && second == Ok(())
    ensures unsubscribeCalls == [subscription]
  {
    var context := new Context<C>();
    var handle := new Handle(context, subscription);
    first := handle.TryUnsubscribe(STATUS_SUCCESS);
    second := handle.TryUnsubscribe(STATUS_UNSUCCESSFUL);
    unsubscribeCalls := handle.unsubscribeCalls;
  }
}

=== FILE: system_runner.dfy ===
/**
 * The stage bookkeeping of the system runner (devutils/src/system_runner.rs), which reruns the
 * current program as administrator and then as `LocalSystem`: the stages, the argument
 * `__system_runner__.<pipeline id>.<stage id>` that tells each rerun which stage it is in, the
 * names of the pipes of one pipeline, how the program's arguments are taken apart, and how the
 * exit code of the `PAExec` process is judged.
 *
 * Starting processes, the pipes themselves and the threads that copy through them are outside the
 * model; the process id a pipeline is named after is a parameter.
 */
module SystemRunner {
  import opened Wrappers

  /** `INTERNAL_ERROR_CODE`: `i32::MIN`, the exit code of a stage that failed. */
  const INTERNAL_ERROR_CODE: int := -0x8000_0000

  /** A `u32`. */
  type U32 = x: int | 0 <= x < 0x1_0000_0000

  /** An `i32`. */
  type I32 = x: int | -0x8000_0000 <= x < 0x8000_0000

  /** An argument as the operating system hands it over: text, or something that is not valid Unicode. */
  datatype OsArg = Text(text: string) | NotUnicode(units: seq<int>)

  /** `OsStr::to_str`. */
  function ToStr(arg: OsArg): (r: Option<string>)
    ensures r.Some? <==> arg.Text?
  {
    match arg
    case Text(s) => Some(s)
    case NotUnicode(_) => None
  }

  // Decimal numbers

  predicate IsDigit(c: char)
  {
    '0' <= c <= '9'
  }

  predicate AllDigits(s: string)
  {
    forall i :: 0 <= i < |s| ==> IsDigit(s[i])
  }

  function DigitChar(d: nat): (c: char)
    requires d < 10
    ensures IsDigit(c) && DigitValue(c) == d
  {
    ('0' as int + d) as char
  }

  function DigitValue(c: char): (d: nat)
    requires IsDigit(c)
    ensures d < 10
  {
    c as int - '0' as int
  }

  /** The number a string of decimal digits stands for. */
  function DecimalValue(digits: seq<char>): nat
    requires forall i :: 0 <= i < |digits| ==> IsDigit(digits[i])
  {
    if digits == [] then 0
    else DecimalValue(digits[..|digits| - 1]) * 10 + DigitValue(digits[|digits| - 1])
  }

  /** `to_string` of a number: its decimal digits without leading zeros. */
  function DecimalString(n: nat): (s: string)
    ensures s != [] && forall i :: 0 <= i < |s| ==> IsDigit(s[i])
    decreases n
  {
    if n < 10 then [DigitChar(n)] else DecimalString(n / 10) + [DigitChar(n % 10)]
  }

  /** Reading back the digits of a number gives the number. */
  lemma {:induction false} DecimalRoundTrip(n: nat)
    ensures DecimalValue(DecimalString(n)) == n
    decreases n
  {
    var s := DecimalString(n);
    if n >= 10 {
      DecimalRoundTrip(n / 10);
      assert s[..|s| - 1] == DecimalString(n / 10);
    }
  }

  /**
   * `str::parse::<u32>`: an optional `+` and then at least one decimal digit, nothing else, and a
   * value that fits in 32 bits.
   */
  function ParseU32(s: string): (r: Option<U32>)
  {
    var digits := if s != [] && s[0] == '+' then s[1..] else s;
    if digits == [] then None
    else if !AllDigits(digits) then None
    else if DecimalValue(digits) >= 0x1_0000_0000 then None
    else Some(DecimalValue(digits))
  }

  /** A number's own digits parse back to it; a string that is not a number does not parse. */
  lemma ParseU32Cases(n: U32, s: string)
    ensures ParseU32(DecimalString(n)) == Some(n)
    ensures s == [] || s == "+" ==> ParseU32(s) == None
    ensures (exists i :: 0 < i < |s| && !IsDigit(s[i])) ==> ParseU32(s) == None
    ensures s != [] && s[0] != '+' && !IsDigit(s[0]) ==> ParseU32(s) == None
  {
    DecimalRoundTrip(n);
    var d := DecimalString(n);
    assert d[0] != '+' by {
      assert IsDigit(d[0]);
    }
    if exists i :: 0 < i < |s| && !IsDigit(s[i]) {
      var i :| 0 < i < |s| && !IsDigit(s[i]);
      if s[0] == '+' {
        assert s[1..][i - 1] == s[i];
      }
    }
  }

  // Stages

  /** `Stage`. */
  datatype Stage = Initial | Admin | System | Payload

  /** `Stage::id`. */
  function Id(s: Stage): string
  {
    match s
    case Initial => "0"
    case Admin => "1"
    case System => "2"
    case Payload => "3"
  }

  /** `Stage::from_id`. */
  function FromId(id: string): (r: Option<Stage>)
    ensures r.Some? ==> Id(r.value) == id
  {
    if id == "0" then Some(Initial)
    else if id == "1" then Some(Admin)
    else if id == "2" then Some(System)
    else if id == "3" then Some(Payload)
    else None
  }

  /** `from_id` reads back every `id`, and nothing that is not one. */
  lemma StageIdRoundTrip(s: Stage, id: string)
    ensures FromId(Id(s)) == Some(s)
    ensures FromId(id).None? <==> forall t: Stage :: Id(t) != id
    ensures |Id(s)| == 1 && IsDigit(Id(s)[0]) && '.' !in Id(s)
  {
  }

  /** `Stage::next`. */
  function NextStage(s: Stage): Option<Stage>
  {
    match s
    case Initial => Some(Admin)
    case Admin => Some(System)
    case System => Some(Payload)
    case Payload => None
  }

  /** The position of a stage in the pipeline, as its id gives it. */
  function Position(s: Stage): (p: nat)
    ensures p <= 3 && Id(s) == [DigitChar(p)]
  {
    match s
    case Initial => 0
    case Admin => 1
    case System => 2
    case Payload => 3
  }

  /** `Stage::next` applied `k` times. */
  function Advance(s: Stage, k: nat): Option<Stage>
    decreases k
  {
    if k == 0 then Some(s)
    else match NextStage(s)
      case None => None
      case Some(t) => Advance(t, k - 1)
  }

  /**
   * `next` moves one position on and only `Payload` has no next stage, so a start is followed by
   * exactly three reruns: from any stage, `Payload` is reached after the remaining positions and
   * nothing follows it.
   */
  lemma NextStageOrder(s: Stage)
    ensures NextStage(s).None? <==> s == Payload
    ensures NextStage(s).Some? ==> Position(NextStage(s).value) == Position(s) + 1
    ensures Advance(s, 3 - Position(s)) == Some(Payload)
    ensures Advance(s, 4 - Position(s)) == None
  {
    assert Advance(Payload, 0) == Some(Payload) && Advance(Payload, 1) == None;
    assert Advance(System, 1) == Advance(Payload, 0) && Advance(System, 2) == Advance(Payload, 1);
    assert Advance(Admin, 2) == Advance(System, 1) && Advance(Admin, 3) == Advance(System, 2);
    assert Advance(Initial, 3) == Advance(Admin, 2) && Advance(Initial, 4) == Advance(Admin, 3);
  }

  // The stage argument

  /** `PipelineId`: a process id. */
  datatype PipelineId = PipelineId(value: U32)

  /** `State`. */
  datatype State = State(pipelineId: PipelineId, stage: Stage)

  const PREFIX: string := "__system_runner__."

  /** `State::initial`: the pipeline is named after the current process, `pid`. */
  function InitialState(pid: U32): (s: State)
    ensures s.stage == Initial && s.pipelineId.value == pid
  {
    State(PipelineId(pid), Initial)
  }

  /** `State::next`: the same pipeline, the next stage, if there is one. */
  function Next(s: State): (r: Option<State>)
    ensures r.Some? <==> NextStage(s.stage).Some?
    ensures r.Some? ==> r.value.pipelineId == s.pipelineId && r.value.stage == NextStage(s.stage).value
  {
    match NextStage(s.stage)
    case Some(stage) => Some(s.(stage := stage))
    case None => None
  }

  /** `State::to_arg`. */
  function ToArg(s: State): string
  {
    PREFIX + DecimalString(s.pipelineId.value) + "." + Id(s.stage)
  }

  /** The text up to the first `.` of `s`, which is all of it when there is none. */
  function UpToDot(s: string): (r: string)
    ensures |r| <= |s| && r == s[..|r|] && '.' !in r
    ensures |r| < |s| ==> s[|r|] == '.'
  {
    if s == [] || s[0] == '.' then [] else [s[0]] + UpToDot(s[1..])
  }

  /** `split('.')`: the parts between the dots, at least one. */
  function SplitDots(s: string): (parts: seq<string>)
    ensures |parts| >= 1
    decreases |s|
  {
    var first := UpToDot(s);
    if |first| == |s| then [s] else [first] + SplitDots(s[|first| + 1..])
  }

  /** `strip_prefix`. */
  function StripPrefix(s: string, prefix: string): (r: Option<string>)
    ensures r.Some? <==> |prefix| <= |s| && s[..|prefix|] == prefix
    ensures r.Some? ==> s == prefix + r.value
  {
    if |prefix| <= |s| && s[..|prefix|] == prefix then Some(s[|prefix|..]) else None
  }

  /**
   * `State::from_arg`: the argument must be text starting with the prefix; of what follows, split
   * at dots, the first part must be a `u32` and the second a stage id. Further parts are ignored.
   */
  function FromArg(arg: OsArg): Option<State>
  {
    match ToStr(arg)
    case None => None
    case Some(text) =>
      match StripPrefix(text, PREFIX)
      case None => None
      case Some(rest) =>
        var parts := SplitDots(rest);
        if |parts| < 2 then None
        else match (ParseU32(parts[0]), FromId(parts[1]))
          case (Some(pid), Some(stage)) => Some(State(PipelineId(pid), stage))
          case _ => None
  }

  /** Up to the first dot of a dot-free head followed by a dot is the head. */
  lemma {:induction false} UpToDotOf(a: string, b: string)
    requires '.' !in a
    ensures UpToDot(a + "." + b) == a
    ensures UpToDot(a) == a
  {
    if a != [] {
      assert a[0] in a;
      assert (a + "." + b)[1..] == a[1..] + "." + b;
      UpToDotOf(a[1..], b);
    }
  }

  /** The parts of two dot-free pieces joined by a dot. */
  lemma SplitTwo(a: string, b: string)
    requires '.' !in a && '.' !in b
    ensures SplitDots(a + "." + b) == [a, b]
  {
    var s := a + "." + b;
    UpToDotOf(a, b);
    UpToDotOf(b, "");
    assert s[|a| + 1..] == b;
  }

  /** `from_arg` reads back what `to_arg` writes. */
  lemma ArgRoundTrip(s: State)
    ensures FromArg(Text(ToArg(s))) == Some(s)
  {
    var digits := DecimalString(s.pipelineId.value);
    assert '.' !in digits;
    StageIdRoundTrip(s.stage, "");
    var text := ToArg(s);
    assert text == PREFIX + (digits + "." + Id(s.stage));
    assert StripPrefix(text, PREFIX) == Some(digits + "." + Id(s.stage));
    SplitTwo(digits, Id(s.stage));
    ParseU32Cases(s.pipelineId.value, "");
  }

  /**
   * The ways `from_arg` refuses an argument: not text, no prefix, no second part, a first part
   * that is not a `u32`, or a second part that is not a stage id.
   */
  lemma FromArgRefuses(arg: OsArg)
    ensures arg.NotUnicode? ==> FromArg(arg).None?
    ensures arg.Text? && StripPrefix(arg.text, PREFIX).None? ==> FromArg(arg).None?
    ensures arg.Text? && StripPrefix(arg.text, PREFIX).Some? ==>
      var parts := SplitDots(StripPrefix(arg.text, PREFIX).value);
      (FromArg(arg).Some? <==> |parts| >= 2 && ParseU32(parts[0]).Some? && FromId(parts[1]).Some?)
      && (FromArg(arg).Some? ==> FromArg(arg).value == State(PipelineId(ParseU32(parts[0]).value), FromId(parts[1]).value))
    ensures FromArg(arg).Some? ==> '.' in arg.text[|PREFIX|..]
  {
    if FromArg(arg).Some? {
      var rest := StripPrefix(arg.text, PREFIX).value;
      var first := UpToDot(rest);
      assert |first| < |rest|;
      assert rest[|first|] == '.';
    }
  }

  /** `PipelineId::to_pipe_name`. */
  function ToPipeName(id: PipelineId, key: string): string
  {
    PREFIX + DecimalString(id.value) + "." + key
  }

  /** Two dot-free heads joined to tails by a dot are equal only when heads and tails are. */
  lemma SplitAtFirstDot(a1: string, b1: string, a2: string, b2: string)
    requires '.' !in a1 && '.' !in a2
    requires a1 + "." + b1 == a2 + "." + b2
    ensures a1 == a2 && b1 == b2
  {
    UpToDotOf(a1, b1);
    UpToDotOf(a2, b2);
    var s := a1 + "." + b1;
    assert s[|a1| + 1..] == b1;
    assert (a2 + "." + b2)[|a2| + 1..] == b2;
  }

  /** Different pipelines, or different keys, get different pipe names. */
  lemma PipeNamesDistinct(p: PipelineId, q: PipelineId, k: string, l: string)
    ensures ToPipeName(p, k) == ToPipeName(q, l) <==> p == q && k == l
  {
    if ToPipeName(p, k) == ToPipeName(q, l) {
      var dp, dq := DecimalString(p.value), DecimalString(q.value);
      assert '.' !in dp && '.' !in dq;
      assert ToPipeName(p, k)[|PREFIX|..] == dp + "." + k;
      assert ToPipeName(q, l)[|PREFIX|..] == dq + "." + l;
      SplitAtFirstDot(dp, k, dq, l);
      DecimalRoundTrip(p.value);
      DecimalRoundTrip(q.value);
    }
  }

  // The runner

  /** `SystemRunner`: the arguments the program is to see, and the state of the pipeline. */
  datatype Runner = Runner(args: seq<OsArg>, state: State)

  /**
   * `SystemRunner::from_args`: `argv` is `env::args_os()`, the program's path first, and `pid`
   * the current process id. A first argument that is a stage argument is taken off and gives
   * the state; otherwise every argument is kept and this is the initial stage.
   */
  function FromArgs(argv: seq<OsArg>, pid: U32): (r: Runner)
    ensures |argv| >= 2 && FromArg(argv[1]).Some? ==> r == Runner(argv[2..], FromArg(argv[1]).value)
    ensures (|argv| < 2 || FromArg(argv[1]).None?) ==> r == Runner(if argv == [] then [] else argv[1..], InitialState(pid))
  {
    var rest := if argv == [] then [] else argv[1..];
    if rest != [] && FromArg(rest[0]).Some? then Runner(rest[1..], FromArg(rest[0]).value)
    else Runner(rest, InitialState(pid))
  }

  /** `SystemRunner::into_args`. */
  function IntoArgs(r: Runner): seq<OsArg>
  {
    r.args
  }

  /**
   * The arguments each rerun (`rerun_as_admin`, `rerun_as_system`, `rerun`) gives the program it
   * starts: the stage argument of the next stage, then the arguments unchanged.
   */
  function RerunArgs(r: Runner): (args: seq<OsArg>)
    requires r.state.stage != Payload
    ensures |args| == |r.args| + 1 && args[1..] == r.args
  {
    [Text(ToArg(Next(r.state).value))] + r.args
  }

  /**
   * What the rerun program makes of those arguments, whatever its own process id: the same
   * pipeline, the next stage, and the arguments the first program was given.
   */
  lemma RerunSeesNextStage(r: Runner, exe: OsArg, pid: U32)
    requires r.state.stage != Payload
    ensures var next := FromArgs([exe] + RerunArgs(r), pid);
      && next.state == Next(r.state).value
      && next.state.pipelineId == r.state.pipelineId
      && IntoArgs(next) == IntoArgs(r)
  {
    var argv := [exe] + RerunArgs(r);
    ArgRoundTrip(Next(r.state).value);
    assert argv[1] == Text(ToArg(Next(r.state).value));
    assert argv[2..] == r.args;
  }

  /**
   * A program started by hand, with arguments that do not begin with a stage argument, is in the
   * initial stage of a pipeline named after itself and keeps all its arguments; the arguments
   * reach the payload stage three reruns later unchanged.
   */
  lemma PipelineKeepsArgs(exe: OsArg, args: seq<OsArg>, pid: U32, pid2: U32, pid3: U32, pid4: U32)
    requires args == [] || FromArg(args[0]).None?
    ensures var first := FromArgs([exe] + args, pid);
      && first == Runner(args, InitialState(pid))
      && var second := FromArgs([exe] + RerunArgs(first), pid2);
      && second == Runner(args, State(PipelineId(pid), Admin))
      && var third := FromArgs([exe] + RerunArgs(second), pid3);
      && third == Runner(args, State(PipelineId(pid), System))
      && FromArgs([exe] + RerunArgs(third), pid4) == Runner(args, State(PipelineId(pid), Payload))
  {
    var argv := [exe] + args;
    assert argv[1..] == args;
    var first := FromArgs(argv, pid);
    RerunSeesNextStage(first, exe, pid2);
    var second := FromArgs([exe] + RerunArgs(first), pid2);
    RerunSeesNextStage(second, exe, pid3);
    var third := FromArgs([exe] + RerunArgs(second), pid3);
    RerunSeesNextStage(third, exe, pid4);
  }

  // Exit codes

  /** The error of a `PAExec` run that failed itself. */
  datatype WaitError = PaExecFailed(exitCode: I32)

  /**
   * `SystemProcess::wait`: the exit code of the `PAExec` process is the program's, when it is not
   * negative or is `INTERNAL_ERROR_CODE` (a stage failed); any other negative code is `PAExec`'s own
   * failure.
   */
  function SystemWait(exitCode: I32): (r: Result<I32, WaitError>)
    ensures r.Ok? <==> exitCode == INTERNAL_ERROR_CODE || exitCode >= 0
    ensures r.Ok? ==> r.value == exitCode
    ensures r.Err? ==> r.error == PaExecFailed(exitCode) && INTERNAL_ERROR_CODE < exitCode < 0
  {
    if exitCode == INTERNAL_ERROR_CODE || exitCode >= 0 then Ok(exitCode) else Err(PaExecFailed(exitCode))
  }
}

=== FILE: type_id.dfy ===
/**
 * Type ids of states (src/type_id.rs): `TypeId` wraps an optional GUID, and `as_ptr` hands the
 * kernel either a pointer to that GUID or a null pointer.
 */
module TypeIds {
  import opened Wrappers

  /** A GUID, identified by its `u128` value. */
  datatype Guid = Guid(value: bv128)

  /** `TypeId(Option<GUID>)`. */
  datatype TypeId = TypeId(guid: Option<Guid>)

  /** What `as_ptr` returns: a null pointer, or a pointer to a GUID. */
  datatype Pointer = Null | To(target: Guid)

  /** `TypeId::none`: no GUID, for an untyped state. */
  function NoType(): (t: TypeId)
    ensures AsPtr(t) == Null
  {
    TypeId(None)
  }

  /** `TypeId::from_guid`. */
  function FromGuid(guid: Guid): (t: TypeId)
    ensures AsPtr(t) == To(guid)
  {
    TypeId(Some(guid))
  }

  /** `From<GUID> for TypeId`. */
  function From(guid: Guid): (t: TypeId)
    ensures t == FromGuid(guid)
  {
    TypeId(Some(guid))
  }

  /** `TypeId::default()` (derived): the default of the `Option`, no GUID. */
  function Default(): (t: TypeId)
    ensures t == NoType()
  {
    TypeId(None)
  }

  /** `as_ptr`: the pointer is null exactly when there is no GUID, and otherwise refers to it. */
  function AsPtr(t: TypeId): (p: Pointer)
  {
    match t.guid
    case Some(guid) => To(guid)
    case None => Null
  }

  /** `as_ptr` loses nothing: type ids with the same pointer are the same type id. */
  lemma AsPtrInjective(a: TypeId, b: TypeId)
    ensures AsPtr(a) == AsPtr(b) <==> a == b
    ensures AsPtr(a).Null? <==> a.guid.None?
  {
  }
}

=== FILE: update.dfy ===
/**
 * Updating a `RawWnfState<T>` of the `Wnf*` generation (src/update.rs): `set` writes
 * unconditionally, `update` only if the state's change stamp is the expected one. Both go through
 * `update_internal`, which calls `NtUpdateWnfStateData` on the store of module Kernel, passing the
 * handle's type id `typeId`; `refusal` is the error status the kernel answers a type id with that
 * the state does not accept, and `tooLarge` the one it answers data over the state's maximum size
 * with.
 */
module Updates {
  import opened Wrappers
  import opened Bytes
  import opened Kernel
  import Data
  import TypeIds

  /** The arguments `update_internal` passes to the kernel besides the data. */
  datatype UpdateArgs = UpdateArgs(bufferSize: nat, matchingChangeStamp: Stamp, checkStamp: nat)

  /**
   * The buffer size is the byte size of the data; the stamp is checked exactly when one is
   * expected, and the stamp to match is the expected one, or the default stamp 0.
   */
  function UpdateArgsFor(data: seq<Byte>, expected: Option<Data.ChangeStamp>): (a: UpdateArgs)
    ensures a.bufferSize == |data|
    ensures a.checkStamp == 1 <==> expected.Some?
    ensures a.checkStamp == 0 <==> expected.None?
    ensures expected.Some? ==> a.matchingChangeStamp == Data.ToU32(expected.value)
    ensures expected.None? ==> a.matchingChangeStamp == Data.ToU32(Data.Default())
  {
    match expected
    case Some(stamp) => UpdateArgs(|data|, Data.ToU32(stamp), 1)
    case None => UpdateArgs(|data|, Data.ToU32(Data.Default()), 0)
  }

  /**
   * `update_internal`: one kernel call with the handle's type id; the state changes as the kernel
   * says, and not at all when the state does not accept that type id or the data is too large.
   */
  method UpdateInternal(store: Store, typeId: TypeIds.TypeId, refusal: NtStatus, tooLarge: ErrorStatus, data: seq<Byte>,
                        expected: Option<Data.ChangeStamp>)
    returns (status: NtStatus)
    modifies store
    ensures var args := UpdateArgsFor(data, expected);
      (store.State(), status)
        == UpdateTyped(old(store.State()), store.typeId, store.maxSize, typeId, refusal, tooLarge, data,
                       args.matchingChangeStamp, args.checkStamp)
  {
    var args := UpdateArgsFor(data, expected);
    status := store.UpdateWithType(typeId, refusal, tooLarge, data, args.matchingChangeStamp, args.checkStamp);
  }

  /** The mapping `update` applies: refused is `false`, another failure an error, success `true`. */
  function UpdateOutcome(status: NtStatus): (r: Result<bool, NtStatus>)
    ensures r == Ok(false) <==> status == STATUS_UNSUCCESSFUL
    ensures r == Ok(true) <==> !IsErr(status)
    ensures r.Err? <==> IsErr(status) && status != STATUS_UNSUCCESSFUL
    ensures r.Err? ==> r.error == status
  {
    if status == STATUS_UNSUCCESSFUL then Ok(false)
    else if IsErr(status) then Err(status)
    else Ok(true)
  }

  /**
   * `set`: an unconditional write; any failure is an error, a deleted state, a type id the state
   * does not accept and data over its maximum size among them.
   */
  method Set(store: Store, typeId: TypeIds.TypeId, refusal: NtStatus, tooLarge: ErrorStatus, data: seq<Byte>)
    returns (r: Result<(), NtStatus>)
    requires IsErr(refusal)
    modifies store
    ensures old(store.live) && TypeIdAccepted(store.typeId, typeId) && |data| <= store.maxSize ==>
      r == Ok(()) && store.State() == Snapshot(true, data, NextStamp(old(store.stamp)))
    ensures old(store.live) && TypeIdAccepted(store.typeId, typeId) && |data| > store.maxSize ==>
      r == Err(tooLarge) && store.State() == old(store.State())
    ensures old(store.live) && !TypeIdAccepted(store.typeId, typeId) ==> r == Err(refusal) && store.State() == old(store.State())
    ensures !old(store.live) ==> r == Err(STATUS_OBJECT_NAME_NOT_FOUND) && store.State() == old(store.State())
  {
    var status := UpdateInternal(store, typeId, refusal, tooLarge, data, None);
    r := if IsErr(status) then Err(status) else Ok(());
  }

  /** `update`: a write conditional on the expected stamp. */
  method Update(store: Store, typeId: TypeIds.TypeId, refusal: NtStatus, tooLarge: ErrorStatus, data: seq<Byte>,
                expected: Data.ChangeStamp)
    returns (r: Result<bool, NtStatus>)
    requires IsErr(refusal)
    modifies store
    ensures var (s, status) :=
        UpdateTyped(old(store.State()), store.typeId, store.maxSize, typeId, refusal, tooLarge, data, Data.ToU32(expected), 1);
      store.State() == s && r == UpdateOutcome(status)
  {
    var status := UpdateInternal(store, typeId, refusal, tooLarge, data, Some(expected));
    r := UpdateOutcome(status);
  }

  /**
   * What `update` does to a state created with `stateTypeId` and `maxSize`, through a handle with
   * `typeId`: when the state accepts the type id and the data fits, `true` and the new data one
   * stamp later exactly when the expected stamp is the current one, `false` and nothing changed
   * when it is stale or from the future; data that does not fit is the error `tooLarge`; when the
   * state does not accept the type id, nothing changes and the refusal is the outcome; a deleted
   * state is the kernel's error.
   */
  lemma UpdateOnState(s: Snapshot, stateTypeId: TypeIds.TypeId, maxSize: nat, typeId: TypeIds.TypeId, refusal: NtStatus,
                      tooLarge: ErrorStatus, data: seq<Byte>, expected: Data.ChangeStamp)
    requires IsErr(refusal)
    ensures var (s', status) := UpdateTyped(s, stateTypeId, maxSize, typeId, refusal, tooLarge, data, Data.ToU32(expected), 1);
      && (UpdateOutcome(status) == Ok(true) <==>
            s.live && TypeIdAccepted(stateTypeId, typeId) && |data| <= maxSize && Data.ToU32(expected) == s.stamp)
      && (UpdateOutcome(status) == Ok(true) ==> s' == Snapshot(true, data, NextStamp(s.stamp)))
      && (s.live && TypeIdAccepted(stateTypeId, typeId) && |data| <= maxSize ==>
            (UpdateOutcome(status) == Ok(false) <==> Data.ToU32(expected) != s.stamp))
      && (UpdateOutcome(status) == Ok(false) ==> s' == s)
      && (s.live && TypeIdAccepted(stateTypeId, typeId) && |data| > maxSize ==> s' == s && UpdateOutcome(status) == Err(tooLarge))
      && (s.live && !TypeIdAccepted(stateTypeId, typeId) ==> s' == s && UpdateOutcome(status) == UpdateOutcome(refusal))
      && (!s.live ==> s' == s && UpdateOutcome(status) == Err(STATUS_OBJECT_NAME_NOT_FOUND))
  {
  }

  /**
   * The update test on a fresh temporary state, through an untyped handle (so whatever status the
   * kernel would refuse a type id with never arises), writing values that fit (the test writes
   * `u32`s): with stamps 0 and 1 the updates happen; with the stale stamp 1 and the future stamp 3
   * they do not, and the data stays the second value.
   */
  method ConditionalUpdates(a: seq<Byte>, b: seq<Byte>, c: seq<Byte>, d: seq<Byte>, refusal: NtStatus, tooLarge: ErrorStatus)
    returns (results: seq<Result<bool, NtStatus>>, data: seq<Byte>, stamp: Stamp)
    requires IsErr(refusal)
    requires |a| <= MAXIMUM_STATE_SIZE && |b| <= MAXIMUM_STATE_SIZE && |c| <= MAXIMUM_STATE_SIZE && |d| <= MAXIMUM_STATE_SIZE
    ensures results == [Ok(true), Ok(true), Ok(false), Ok(false)]
    ensures data == b && stamp == 2
  {
    var store := new Store();
    var untyped := TypeIds.NoType();
    var r0 := Update(store, untyped, refusal, tooLarge, a, Data.ChangeStamp(0));
    var r1 := Update(store, untyped, refusal, tooLarge, b, Data.ChangeStamp(1));
    var r2 := Update(store, untyped, refusal, tooLarge, c, Data.ChangeStamp(1));
    var r3 := Update(store, untyped, refusal, tooLarge, d, Data.ChangeStamp(3));
    results := [r0, r1, r2, r3];
    data := store.data;
    stamp := store.stamp;
  }
}

=== FILE: vec_capacity.dfy ===
/**
 * The capacity rule of Rust's `Vec::reserve`, which the growing-buffer loops of src/read.rs,
 * src/buffer.rs and src/raw_state.rs rely on. Capacities count elements.
 */
module VecCapacity {
  /** `RawVec::MIN_NON_ZERO_CAP`: the smallest capacity a growing vector allocates. */
  function MinNonZeroCap(elementSize: nat): (c: nat)
    ensures c >= 1
  {
    if elementSize == 1 then 8 else if elementSize <= 1024 then 4 else 1
  }

  function Max(a: nat, b: nat): nat { if a >= b then a else b }

  /**
   * `Vec::reserve(additional)` on a vector of length `len` and capacity `cap`: nothing happens when
   * `additional` more elements already fit; otherwise the capacity grows to the larger of twice the
   * old capacity, what is needed, and the minimum non-zero capacity.
   */
  function Reserve(len: nat, cap: nat, additional: nat, elementSize: nat): (newCap: nat)
    requires len <= cap
    ensures newCap >= len + additional
    ensures newCap >= cap
    ensures newCap == cap <==> cap - len >= additional
  {
    if cap - len >= additional then cap
    else Max(Max(2 * cap, len + additional), MinNonZeroCap(elementSize))
  }

  /** Growth is amortized: a reserve that allocates at least doubles the capacity. */
  lemma ReserveDoubles(len: nat, cap: nat, additional: nat, elementSize: nat)
    requires len <= cap && cap - len < additional
    ensures Reserve(len, cap, additional, elementSize) >= 2 * cap
    ensures Reserve(len, cap, additional, elementSize) >= MinNonZeroCap(elementSize)
  {
  }
}

=== FILE: wrappers.dfy ===
/** Option and Result, the two sum types the crate's signatures are built from. */
module Wrappers {
  datatype Option<T> = None | Some(value: T)

  datatype Result<T, E> = Ok(value: T) | Err(error: E)
}
